=== FILE: README.md ===
# Interval abstract domain of crab, modelled in Dafny

This project models the value-level core of crab's interval domain.

- **Bounds.** A `bound` is an integer or rational number extended with +oo and -oo.
- **Intervals.** An `interval` is a pair of bounds with the canonical empty interval `[0, -1]`. It has lattice operations, arithmetic, the number-specific division, remainders, bitwise operations and shifts.
- **Separate domain.** The `separate_domain` is a sparse map from keys to non-top intervals plus a bottom flag. Its merge policies are join, widening, meet and narrowing.
- **Interval domain.** The `interval_domain` maps program variables to intervals. It evaluates linear expressions and interprets assignments, arithmetic, bitwise and division operations, integer conversions and linear constraints.

Both numeric instantiations are modelled at once:

- Numbers are Dafny `real`s, which are exact rationals.
- A `NumKind` (`Z` for `z_number`, `Q` for `q_number`) selects the behaviour that depends on the number type.
- Over `Z` every finite bound is an integer (`Bounds.IntBound`, `Intervals.IsZ`).
- `z_number` division and remainder truncate toward zero (`Numbers.TDiv`, `Numbers.TRem`). Dafny's own `/` and `%` are Euclidean.

The fatal `CRAB_ERROR`s become preconditions:

- `Bounds.CanAdd` rules out `-oo + +oo`.
- A non-zero divisor is required for bound division.

An interval is well formed (`Intervals.WF`) when it is the canonical bottom, or its lower bound is not +oo and its upper bound is not -oo. Every operation keeps well-formedness. On well-formed operands no interval operation reaches a fatal bound case: `AddSafe` and `SubSafe` follow from `WF`, and the division operators call bound division only on divisors that exclude zero.

Soundness is stated against concrete values:

- `Intervals.Contains(i, a)` is `operator[](a)`.
- `SeparateDomains.Models(d, rho)` holds when every variable's value under `rho` lies in its interval.
- Each transfer function keeps every modelled state, updated as the concrete operation would.

Files:

| file | module | contents |
|---|---|---|
| numbers.dfy | Numbers | integrality, truncated division, powers of two, two's-complement bit operations on unbounded integers |
| options.dfy | Options | `Option` |
| bound.dfy | Bounds | `bound` and `convert_bounds` |
| interval.dfy | Intervals | `interval`: constructors, order, lattice, `+ - *`, the generic top-returning operators |
| interval_precision.dfy | IntervalPrecision | `+ - *` give the least range holding every concrete result |
| interval_division.dfy | IntervalDivision | q and z `operator/`, z `SRem` and `URem` |
| interval_bitwise.dfy | IntervalBitwise | z `And`, `Or`, `Xor`, `Shl`, `AShr`, `LShr` |
| trim.dfy | IntervalTrim | `trim_interval` |
| separate_domain.dfy | SeparateDomains | `separate_domain` over interval values |
| interval_domain.dfy | IntervalDomains | `interval_domain` |

## Model

| member | source | states |
|---|---|---|
| Bounds.RawMag | include/crab/domains/intervals.hpp:75-82 | the private constructor normalises an infinite magnitude to +1 or -1, so flag plus stored number rebuild every bound exactly |
| Bounds.Le | include/crab/domains/intervals.hpp:251-259 | `<=` as written (xor of the infinity flags) is the order of the extended reals |
| Bounds.Ge | include/crab/domains/intervals.hpp:261-269 | `>=` as written is exactly the converse of `<=` |
| Bounds.Lt | include/crab/domains/intervals.hpp:231-233 | `<` (not `>=`) is the strict order |
| Bounds.Gt | include/crab/domains/intervals.hpp:235-237 | `>` (not `<=`) is the strict converse order |
| Bounds.LeTotalOrder | include/crab/domains/intervals.hpp:239-269 | -oo is least and +oo greatest, finite bounds compare by value, `<=` is reflexive, total, antisymmetric for `==` and transitive |
| Bounds.Min | include/crab/domains/intervals.hpp:85-87 | `min` returns one of its arguments and it is below both |
| Bounds.Max | include/crab/domains/intervals.hpp:97-99 | `max` returns one of its arguments and it is above both |
| Bounds.Min3 | include/crab/domains/intervals.hpp:89-91 | three-way `min` is one of the three and below each |
| Bounds.Max3 | include/crab/domains/intervals.hpp:101-103 | three-way `max` is one of the three and above each |
| Bounds.Min4 | include/crab/domains/intervals.hpp:93-95 | four-way `min` is one of the four and below each |
| Bounds.Max4 | include/crab/domains/intervals.hpp:105-107 | four-way `max` is one of the four and above each |
| Bounds.Neg | include/crab/domains/intervals.hpp:160-162 | unary minus negates a finite value and swaps +oo and -oo |
| Bounds.NegOrder | include/crab/domains/intervals.hpp:160-162 | negation is an involution that reverses `<=` |
| Bounds.CanAdd | include/crab/domains/intervals.hpp:164-176 | the sum is defined exactly when the operands are not opposite infinities |
| Bounds.Add | include/crab/domains/intervals.hpp:164-176 | finite plus finite is exact; an infinite operand is the result |
| Bounds.Sub | include/crab/domains/intervals.hpp:182-184 | `x - y` is `x + (-y)`: exact on finite values, infinities propagate with the sign flipped for y |
| Bounds.IntBoundClosed | include/crab/domains/intervals.hpp:160-197 | z_bounds stay integral under negation, sum, difference and product |
| Bounds.AddMonotone | include/crab/domains/intervals.hpp:164-176 | bound addition is monotone in both operands |
| Bounds.Mul | include/crab/domains/intervals.hpp:190-197 | a finite zero on either side gives zero even against an infinity; finite products are exact; the sign is the product of signs; the result is infinite iff an operand is infinite and neither is zero |
| Bounds.MulCommutes | include/crab/domains/intervals.hpp:190-197 | the product is commutative despite the asymmetric zero tests |
| Bounds.MulMonotone | include/crab/domains/intervals.hpp:190-197 | multiplying by a non-negative bound is monotone and by a non-positive one antitone |
| Bounds.MulNeg | include/crab/domains/intervals.hpp:160-197 | `x * y == -((-x) * y)` |
| Bounds.MulBetween | include/crab/domains/intervals.hpp:190-197 | for y between lo and hi, x * y lies between x * lo and x * hi |
| Bounds.MulCornersLow | include/crab/domains/intervals.hpp:538-543 | any product of members is no less than the least of the four corner products |
| Bounds.MulCornersHigh | include/crab/domains/intervals.hpp:538-543 | any product of members is no greater than the greatest corner product |
| Bounds.DivAsWritten | include/crab/domains/intervals.hpp:203-225 | division as written: exact (Q) or truncated (Z) on finite values; a finite zero over an infinity stays 0; an infinite dividend, or an infinite divisor under a non-zero dividend, gives an infinity with the product sign |
| Bounds.Div | include/crab/domains/intervals.hpp:203-225 | corrected division: a finite value over an infinity is 0; it agrees with DivAsWritten everywhere else |
| Bounds.DivDividend | include/crab/domains/intervals.hpp:203-225 | bound division is monotone in the dividend for a positive divisor and antitone for a negative one |
| Bounds.DivDivisor | include/crab/domains/intervals.hpp:203-225 | over divisors of one strict sign, division is antitone in the divisor for a non-negative dividend and monotone for a non-positive one |
| Bounds.DivCornersLow | include/crab/domains/intervals.hpp:672-677 | a quotient of members, divisors excluding zero, is no less than the least corner quotient |
| Bounds.DivCornersHigh | include/crab/domains/intervals.hpp:672-677 | ... and no greater than the greatest corner quotient |
| Bounds.QDivInverse | include/crab/domains/intervals.hpp:206-207 | rational division of finite bounds is undone by multiplication |
| Bounds.ZDivTruncates | include/crab/domains/intervals.hpp:206-207 | integer division of finite bounds is truncated division: the remainder has the dividend's sign and is below the divisor in magnitude |
| Bounds.AbsBound | include/crab/domains/intervals.hpp:271-277 | `abs` is non-negative, is the bound or its negation, and is infinite iff the bound is |
| Bounds.Number | include/crab/domains/intervals.hpp:279-285 | `number()` is present exactly for finite bounds and holds their value |
| Bounds.FromString | include/crab/domains/intervals.hpp:120-130 | "+oo" and "-oo" give the infinities and any other text is parsed as a finite number |
| Bounds.WriteFromString | include/crab/domains/intervals.hpp:287-295 | parsing what `write` prints gives the bound back when the number printer and parser agree |
| Bounds.ConvertBound | include/crab/domains/intervals.hpp:308-329 | conversion keeps the infinities; rational to integer rounds down (below the value, by less than one); integer results are integral |
| Bounds.ConvertRoundTrip | include/crab/domains/intervals.hpp:312-329 | integer to rational and back is the identity |
| Intervals.Make | include/crab/domains/intervals.hpp:366-371 | the constructor gives the canonical bottom iff lb > ub; its members are exactly the numbers between the bounds |
| Intervals.FromBound | include/crab/domains/intervals.hpp:373-378 | an infinite bound gives bottom, a finite one the singleton |
| Intervals.FromNumber | include/crab/domains/intervals.hpp:380 | `interval(n)` is non-empty and holds exactly n |
| Intervals.FromText | include/crab/domains/intervals.hpp:382-387 | "+oo"/"-oo" give bottom, other text the singleton of its number |
| Intervals.WFMeaning | include/crab/domains/intervals.hpp:405-411 | a well-formed interval is empty iff `is_bottom`, and `is_top` (both bounds infinite) holds iff it contains every number |
| Intervals.Singleton | include/crab/domains/intervals.hpp:557-563 | `singleton()` is the only member when present; when absent a well-formed interval is empty or has two distinct members |
| Intervals.LowerHalfLine | include/crab/domains/intervals.hpp:413-415 | the members are exactly the numbers up to the upper bound |
| Intervals.UpperHalfLine | include/crab/domains/intervals.hpp:417-419 | the members are exactly the numbers from the lower bound on |
| Intervals.LeqMeaning | include/crab/domains/intervals.hpp:433-441 | on well-formed intervals `<=` is inclusion of members |
| Intervals.Eq | include/crab/domains/intervals.hpp:421-427 | on well-formed intervals `==` is `<=` both ways |
| Intervals.Join | include/crab/domains/intervals.hpp:443-452 | `|` is an upper bound holding every member of either side, with bottom as identity |
| Intervals.JoinLeast | include/crab/domains/intervals.hpp:443-452 | `|` is the least upper bound |
| Intervals.JoinLaws | include/crab/domains/intervals.hpp:443-452 | `|` is commutative, associative and idempotent |
| Intervals.Meet | include/crab/domains/intervals.hpp:454-461 | `&` holds exactly the common members, is a lower bound, and is bottom when either side is |
| Intervals.MeetGreatest | include/crab/domains/intervals.hpp:454-461 | `&` is the greatest lower bound |
| Intervals.MeetLaws | include/crab/domains/intervals.hpp:454-461 | `&` is commutative, associative and idempotent |
| Intervals.Extensionality | include/crab/domains/intervals.hpp:366-371 | two well-formed intervals with the same members are equal, thanks to the canonical bottom |
| Intervals.Widen | include/crab/domains/intervals.hpp:463-476 | `||` is an upper bound; on non-empty operands its lb is -oo exactly when y.lb < x.lb and x.lb otherwise, and its ub is +oo exactly when y.ub > x.ub and x.ub otherwise |
| Intervals.WidenStabilises | include/crab/domains/intervals.hpp:463-476 | widening by a smaller interval changes nothing; otherwise it loses a finite bound, so chains stabilise |
| Intervals.WidenThresholds | include/crab/domains/intervals.hpp:478-489 | with thresholds below and above their arguments the result is an upper bound no larger than `||`, and equals `||` for thresholds -oo/+oo |
| Intervals.Narrow | include/crab/domains/intervals.hpp:491-500 | `&&` lies between `x & y` and x; finite bounds of x are kept, so two finite bounds give x back, and only an infinite bound of x takes y's finite one |
| Intervals.AddSafeOnWF | include/crab/domains/intervals.hpp:502-508 | well-formed operands never add opposite infinities |
| Intervals.Add | include/crab/domains/intervals.hpp:502-508 | `+` is bottom on a bottom operand and keeps well-formedness and integrality; its precision is stated by IntervalPrecision.AddLeast |
| Intervals.AddSound | include/crab/domains/intervals.hpp:502-508 | a + b is in A + B for a in A and b in B |
| Intervals.Neg | include/crab/domains/intervals.hpp:514-520 | a is in A iff -a is in -A |
| Intervals.SubSafeOnWF | include/crab/domains/intervals.hpp:522-528 | well-formed operands never subtract like infinities |
| Intervals.Sub | include/crab/domains/intervals.hpp:522-528 | `-` is bottom on a bottom operand and keeps well-formedness and integrality; its precision is stated by IntervalPrecision.SubLeast |
| Intervals.SubSound | include/crab/domains/intervals.hpp:522-528 | a - b is in A - B |
| Intervals.Mul | include/crab/domains/intervals.hpp:534-545 | `*` is bottom on a bottom operand and keeps well-formedness and integrality; its precision is stated by IntervalPrecision.MulLeast |
| Intervals.MulNotEmpty | include/crab/domains/intervals.hpp:534-545 | the corner min is never +oo and the corner max never -oo on non-empty well-formed operands |
| Intervals.MulSound | include/crab/domains/intervals.hpp:534-545 | a * b is in A * B |
| IntervalPrecision.AddLeast | include/crab/domains/intervals.hpp:502-508 | x + y is below every well-formed range that holds a + b for all members a of x and b of y, so with AddSound it is the least such range |
| IntervalPrecision.SubLeast | include/crab/domains/intervals.hpp:522-528 | x - y is below every well-formed range that holds every difference of members, so with SubSound it is the least such range |
| IntervalPrecision.MulLeast | include/crab/domains/intervals.hpp:534-545 | x * y is below every well-formed range that holds every product of members: each corner product is a product of members or is approached without bound by them |
| Intervals.TopUnlessBottom | include/crab/domains/intervals.hpp:584-649 | the generic UDiv, SRem, URem, And, Or, Xor, Shl, LShr, AShr: bottom if either side is bottom, otherwise every number |
| IntervalDivision.Corners | include/crab/domains/intervals.hpp:672-677 | the corner quotients of integral intervals are integral |
| IntervalDivision.CornersSound | include/crab/domains/intervals.hpp:672-677 | for a divisor excluding zero every quotient of members is in the corner interval |
| IntervalDivision.CornersWF | include/crab/domains/intervals.hpp:672-677 | the corner interval is well formed and non-empty for a non-empty dividend |
| IntervalDivision.QDiv | include/crab/domains/intervals.hpp:653-680 | corrected q division: bottom for a bottom operand or the divisor [0,0]; for any other divisor holding 0, exactly {0} when the dividend is [0,0] and top otherwise; the corner interval for a divisor excluding 0; well-formed |
| IntervalDivision.QDivSound | include/crab/domains/intervals.hpp:653-680 | a / b is in A / B for b != 0 |
| IntervalDivision.QDivAsWritten | include/crab/domains/intervals.hpp:653-680 | q division as written, bottom on a bottom operand |
| IntervalDivision.QDivAsWrittenMissesQuotient | include/crab/domains/intervals.hpp:208-215 | [5,10] / [-oo,-1] as written is [-oo,-5], which misses 5 / -10; the corrected QDiv gives [-10,0] |
| IntervalDivision.Negatives | include/crab/domains/intervals.hpp:704 | the part of an integral interval at or below -1 |
| IntervalDivision.Positives | include/crab/domains/intervals.hpp:705 | the part at or above 1 |
| IntervalDivision.ZDiv | include/crab/domains/intervals.hpp:682-725 | corrected z division: bottom for a bottom operand or divisor [0,0]; well-formed and integral |
| IntervalDivision.ZDivBranches | include/crab/domains/intervals.hpp:682-725 | on non-empty operands z division is: the scaled dividend for a non-zero singleton divisor; the join of the quotients by the divisor's negative and positive parts when the divisor holds 0; the join of the quotients of the dividend's negative and positive parts with {0} when only the dividend holds 0; the corner quotients otherwise |
| IntervalDivision.ScaleZ | include/crab/domains/intervals.hpp:691-699 | the singleton-divisor path: divisor 1 gives the dividend back; a positive c gives [lb/c, ub/c] and a negative c [ub/c, lb/c], each bound truncated toward zero and infinities signed by c; it holds the truncated quotient of every member |
| IntervalDivision.ScaleZShape | include/crab/domains/intervals.hpp:691-699 | the bounds of the singleton-divisor path are the truncated quotients of the dividend's bounds, in order for c > 0 and swapped for c < 0, and never cross |
| IntervalDivision.ZDivSound | include/crab/domains/intervals.hpp:682-725 | the truncated quotient TDiv(a, b) is in A / B for b != 0 |
| IntervalDivision.ZDivAsWritten | include/crab/domains/intervals.hpp:682-725 | z division as written, with the shifted dividend and the as-written bound division |
| IntervalDivision.ScaleZAsWritten | include/crab/domains/intervals.hpp:691-699 | the singleton path with the as-written bound division |
| IntervalDivision.ShiftedDividend | include/crab/domains/intervals.hpp:713-716 | the shift applies only to a dividend below zero |
| IntervalDivision.ZDivAsWrittenShiftMissesQuotient | include/crab/domains/intervals.hpp:712-722 | [-5,-5] / [-3,-2] as written is [2,3], which misses TDiv(-5,-3) = 1; the corrected ZDiv gives [1,2] |
| IntervalDivision.ZDivAsWrittenMissesZero | include/crab/domains/intervals.hpp:717-722 | [5,10] / [-oo,-1] as written is [-oo,-5], which misses TDiv(5,-6) = 0 |
| IntervalDivision.SRem | include/crab/domains/intervals.hpp:728-764 | z SRem is bottom on a bottom operand, well formed and integral |
| IntervalDivision.RemainderOf | include/crab/domains/intervals.hpp:735-743 | two singletons give the exact truncated remainder, or bottom for divisor 0 |
| IntervalDivision.SRemRange | include/crab/domains/intervals.hpp:744-760 | for max divisor magnitude m > 0 the members are exactly the t with abs(t) <= m-1, negative only for a dividend reaching below 0, positive only for one not below 0 or reaching above 0; m = 0 gives bottom |
| IntervalDivision.SRemSound | include/crab/domains/intervals.hpp:728-764 | TRem(a, b) is in SRem(A, B) for b != 0 |
| IntervalDivision.RemainderWithin | include/crab/domains/intervals.hpp:744-760 | a remainder below the divisor in magnitude is at most m - 1 in magnitude |
| IntervalDivision.MaxMagnitude | include/crab/domains/intervals.hpp:745-746 | the larger bound magnitude of a finite integral divisor bounds every member's magnitude |
| IntervalDivision.URem | include/crab/domains/intervals.hpp:766-800 | z URem: bottom on a bottom operand; for two singletons top (negative divisor), bottom (zero), exactly [0, d-1] (negative dividend) or the remainder a % d; for a finite non-singleton divisor top if it can be negative, bottom if its ub is 0, else exactly [0, ub-1]; top for an infinite divisor |
| IntervalDivision.URemSound | include/crab/domains/intervals.hpp:766-800 | a % b is in URem for a >= 0 < b; a negative singleton dividend over a positive singleton divisor d gives all of [0,d-1]; a negative divisor gives top |
| IntervalDivision.URemNegativeDividend | include/crab/domains/intervals.hpp:780-783 | [-10,-10] URem [3,3] is [0,2]: a negative singleton dividend by a positive singleton d gives [0, d-1] |
| IntervalDivision.URemPoints | include/crab/domains/intervals.hpp:772-786 | two singletons: top for a negative divisor, bottom for zero, exactly [0, d-1] for a negative dividend, else the ordinary remainder |
| IntervalDivision.URemRange | include/crab/domains/intervals.hpp:787-796 | finite divisor: top when a bound is negative, bottom when ub is 0, else exactly [0, ub-1] |
| IntervalBitwise.Point | include/crab/domains/intervals.hpp:808-809 | the integer value of a singleton, a member |
| IntervalBitwise.PointIsMember | include/crab/domains/intervals.hpp:808-809 | a member of a singleton is its value |
| IntervalBitwise.And | include/crab/domains/intervals.hpp:802-819 | z And: bottom on a bottom operand; two singletons give exactly the bitwise and; otherwise two non-negative operands give exactly [0, min of the upper bounds], anything else top |
| IntervalBitwise.AndSound | include/crab/domains/intervals.hpp:802-819 | a & b is in And(A, B) |
| IntervalBitwise.Or | include/crab/domains/intervals.hpp:821-846 | z Or: bottom on a bottom operand; two singletons give exactly the bitwise or; otherwise two non-negative operands give exactly [0, fill_ones(larger ub)], or [0,+oo] if an ub is infinite, anything else top |
| IntervalBitwise.OrRange | include/crab/domains/intervals.hpp:832-841 | non-negative operands: exactly [0, fill_ones(larger ub)] with finite upper bounds, exactly [0,+oo] otherwise |
| IntervalBitwise.OrSound | include/crab/domains/intervals.hpp:821-846 | a OR b is in Or(A, B) |
| IntervalBitwise.NonNegativeBelow | include/crab/domains/intervals.hpp:832-841 | members of intervals with lb >= 0 are non-negative, and their OR and XOR stay within fill_ones of the larger upper bound |
| IntervalBitwise.Xor | include/crab/domains/intervals.hpp:848-863 | z Xor: two singletons give exactly the exclusive or; any other pair gives the result of Or |
| IntervalBitwise.XorSound | include/crab/domains/intervals.hpp:848-863 | a ^ b is in Xor(A, B) |
| IntervalBitwise.ShiftAmount | include/crab/domains/intervals.hpp:871-880 | a shift amount is used exactly when the amount interval is a single number in [0,128] |
| IntervalBitwise.Shl | include/crab/domains/intervals.hpp:865-890 | z Shl: bottom on a bottom operand; a singleton amount k in [0,128] gives [lb*2^k, ub*2^k]; any other amount gives top |
| IntervalBitwise.MulByPositive | include/crab/domains/intervals.hpp:885 | multiplying a non-empty range by the positive singleton factor scales both bounds |
| IntervalBitwise.ShlSound | include/crab/domains/intervals.hpp:865-890 | a * 2^k is in Shl(A, K) for k >= 0 in K |
| IntervalBitwise.ScaledMember | include/crab/domains/intervals.hpp:885 | a member times p is in the interval times [p,p] |
| IntervalBitwise.ShiftRight | include/crab/domains/intervals.hpp:938 | `>>` on an integer is the floor of a / 2^k |
| IntervalBitwise.ShrBound | include/crab/domains/intervals.hpp:935-938 | shifting a bound keeps infinities and shifts a finite value |
| IntervalBitwise.ShrBoundMonotone | include/crab/domains/intervals.hpp:935-938 | shifting bounds right is monotone |
| IntervalBitwise.AShrAsWritten | include/crab/domains/intervals.hpp:892-917 | AShr as written, division by 2^k, bottom on a bottom operand |
| IntervalBitwise.AShrAsWrittenRoundsTowardZero | include/crab/domains/intervals.hpp:912 | [-1,-1] ashr 1 as written is [0,0], which misses -1 >> 1 = -1; the corrected AShr gives [-1,-1] |
| IntervalBitwise.AShr | include/crab/domains/intervals.hpp:892-917 | corrected AShr: bottom exactly on bottom operands; a singleton amount k in [0,128] gives both bounds shifted right by k (infinities kept); any other amount gives top |
| IntervalBitwise.AShrSound | include/crab/domains/intervals.hpp:892-917 | a >> k is in AShr(A, K) for k >= 0 in K |
| IntervalBitwise.LShr | include/crab/domains/intervals.hpp:919-944 | z LShr: bottom on a bottom operand; a singleton amount k in [0,128] and a dividend with lb >= 0 and a finite ub give [lb>>k, ub>>k]; otherwise top |
| IntervalBitwise.LShrSound | include/crab/domains/intervals.hpp:919-944 | a >> k is in LShr(A, K) for a >= 0; a negative member makes the result top |
| Numbers.TRem | include/crab/domains/intervals.hpp:731-743 | the truncated remainder: a = TDiv(a,b) * b + r, below b in magnitude, with the dividend's sign |
| Numbers.TRemNonNeg | include/crab/domains/intervals.hpp:785 | on non-negative operands the truncated remainder is the Euclidean one |
| Numbers.TDivUnique | include/crab/domains/intervals.hpp:207 | TDiv is the only quotient whose remainder has the dividend's sign and is below the divisor |
| Numbers.PowerOfTwo | include/crab/domains/intervals.hpp:880-884 | the factor loop computes 2^k |
| Numbers.FillOnesShape | include/crab/domains/intervals.hpp:838 | fill_ones(n) is at least n and of the form 2^k - 1 |
| Numbers.FillOnesMonotone | include/crab/domains/intervals.hpp:837-838 | fill_ones is monotone |
| Numbers.BitAndRange | include/crab/domains/intervals.hpp:813-814 | for non-negative a, b: 0 <= a & b <= min(a, b) |
| Numbers.BitOrRange | include/crab/domains/intervals.hpp:832-838 | for non-negative a, b: max(a, b) <= a OR b <= fill_ones(max(a, b)) |
| Numbers.BitXorRange | include/crab/domains/intervals.hpp:857-860 | for non-negative a, b: 0 <= a ^ b <= a OR b |
| IntervalTrim.Trim | include/crab/domains/intervals.hpp:997-1014 | trimming never grows a well-formed interval and keeps integrality; over the rationals it is the identity |
| IntervalTrim.TrimSound | include/crab/domains/intervals.hpp:997-1008 | every integer of i outside j stays |
| IntervalTrim.TrimExact | include/crab/domains/intervals.hpp:997-1008 | when j's value is an end of i, the result holds exactly i minus that value |
| IntervalTrim.TrimKeeps | include/crab/domains/intervals.hpp:999-1007 | a j that is not a singleton at an end of i leaves i unchanged |
| SeparateDomains.TopMeaning | include/ikos/domains/separate_domains.hpp:115-117 | top is non-bottom, empty, and maps every key to top |
| SeparateDomains.BottomMeaning | include/ikos/domains/separate_domains.hpp:119-121 | bottom maps every key to the bottom interval |
| SeparateDomains.Lookup | include/ikos/domains/separate_domains.hpp:263-274 | `operator[]` gives bottom on a bottom domain, top for an absent key, else the stored interval |
| SeparateDomains.IsTopMeaning | include/ikos/domains/separate_domains.hpp:165-167 | `is_top` (non-bottom and empty) holds iff every key reads top |
| SeparateDomains.ModelsMeaning | include/ikos/domains/separate_domains.hpp:263-274 | rho is modelled iff the domain is not bottom and every key's interval holds rho's value |
| SeparateDomains.Set | include/ikos/domains/separate_domains.hpp:238-249 | `set` is a no-op on bottom; a bottom value makes the domain bottom; otherwise k reads v and every other key is unchanged; the invariant is kept |
| SeparateDomains.SetToBottom | include/ikos/domains/separate_domains.hpp:251-254 | the result is bottom |
| SeparateDomains.Remove | include/ikos/domains/separate_domains.hpp:256-261 | `-=` is a no-op on bottom, makes k read top, and leaves every other key unchanged |
| SeparateDomains.Bindings | include/ikos/domains/separate_domains.hpp:145-159 | the bindings exist iff not bottom, and agree with `operator[]`, with absent keys reading top |
| SeparateDomains.LeqMeaning | include/ikos/domains/separate_domains.hpp:169-178 | bottom is below everything and nothing non-bottom is below bottom; otherwise `<=` is the pointwise interval order with missing keys read as top |
| SeparateDomains.EqMeaning | include/ikos/domains/separate_domains.hpp:180-182 | `==` (`<=` both ways) holds exactly for identical domains |
| SeparateDomains.Merge | include/ikos/domains/separate_domains.hpp:34-100 | absorbing policies never signal bottom; a non-absorbing merge signals bottom iff a shared key combines to bottom; no key appears from nowhere |
| SeparateDomains.ApplyPointwise | include/ikos/domains/separate_domains.hpp:124-127 | a successful merge reads, at every key, the combination of the two sides with missing keys as top |
| SeparateDomains.CombineWF | include/ikos/domains/separate_domains.hpp:36-100 | every policy's value operation keeps well-formedness |
| SeparateDomains.TopIdentity | include/ikos/domains/separate_domains.hpp:34-100 | with a top right-hand side, join and widening give top (so the key is dropped) and meet and narrowing give the other side |
| SeparateDomains.TopIdentityRight | include/ikos/domains/separate_domains.hpp:34-100 | the same with a top left-hand side |
| SeparateDomains.ApplyInv | include/ikos/domains/separate_domains.hpp:36-43 | a merge stores no top or bottom value |
| SeparateDomains.NotTopCombine | include/ikos/domains/separate_domains.hpp:70-93 | meet and narrowing of two stored values are never top |
| SeparateDomains.Join | include/ikos/domains/separate_domains.hpp:185-194 | `|` keeps the invariant and reads, at every key, the interval join of both sides |
| SeparateDomains.Widen | include/ikos/domains/separate_domains.hpp:212-221 | `||` keeps the invariant, is the other side when the first is bottom, and otherwise reads the interval widening at every key |
| SeparateDomains.Meet | include/ikos/domains/separate_domains.hpp:197-209 | `&` is bottom iff a side is bottom or some key's meet is bottom, and otherwise reads the interval meet at every key |
| SeparateDomains.MergeBottom | include/ikos/domains/separate_domains.hpp:68-100 | a non-absorbing merge of non-bottom domains is bottom iff some key combines to bottom |
| SeparateDomains.Narrow | include/ikos/domains/separate_domains.hpp:224-236 | `&&` is bottom iff a side is bottom or some key narrows to bottom, and otherwise reads the interval narrowing at every key |
| SeparateDomains.JoinMeetBounds | include/ikos/domains/separate_domains.hpp:185-209 | the join is above both sides and the meet below both |
| SeparateDomains.ModelsJoinMeet | include/ikos/domains/separate_domains.hpp:185-209 | a state of either side is a state of the join; the states of the meet are exactly the common ones |
| SeparateDomains.WidenUpper | include/ikos/domains/separate_domains.hpp:212-221 | the widening is above both sides |
| SeparateDomains.NarrowBetween | include/ikos/domains/separate_domains.hpp:224-236 | the narrowing lies between the meet and the first side |
| IntervalDomains.TopMeaning | include/crab/domains/intervals.hpp:1069-1071 | top is valid, `is_top`, and models every state of the number kind |
| IntervalDomains.BottomMeaning | include/crab/domains/intervals.hpp:1073-1075 | bottom is valid and models no state |
| IntervalDomains.Get | include/crab/domains/intervals.hpp:1171-1173 | a variable's interval is well formed, integral over Z, bottom on bottom, and holds its value in every modelled state |
| IntervalDomains.Bindings | include/crab/domains/intervals.hpp:1094-1100 | `begin`/`end` give bindings only on a non-bottom domain, agreeing with `operator[]` |
| IntervalDomains.LeqSound | include/crab/domains/intervals.hpp:1110-1114 | `<=` implies inclusion of the modelled states |
| IntervalDomains.Join | include/crab/domains/intervals.hpp:1122-1126 | `|` is the pointwise interval join, above both sides, and models every state of either |
| IntervalDomains.Meet | include/crab/domains/intervals.hpp:1128-1132 | `&` is below both sides, pointwise the interval meet when not bottom, and models exactly the common states |
| IntervalDomains.Widen | include/crab/domains/intervals.hpp:1134-1138 | `||` gives the other side for a bottom first side, otherwise the pointwise interval widening; above both sides |
| IntervalDomains.Narrow | include/crab/domains/intervals.hpp:1147-1151 | `&&` is bottom iff a side or some variable's narrowing is, otherwise the pointwise interval narrowing; it lies between the meet and the first side |
| IntervalDomains.Set | include/crab/domains/intervals.hpp:1153-1157 | the result is bottom iff the state or the new interval is; x reads the new interval, other variables are unchanged, and every state updated with a member of the interval is modelled |
| IntervalDomains.SetSound | include/crab/domains/intervals.hpp:1153-1157 | updating a modelled state at x with a member of the interval gives a modelled state |
| IntervalDomains.SetNumber | include/crab/domains/intervals.hpp:1159-1163 | x holds exactly n and updated states are modelled |
| IntervalDomains.Forget | include/crab/domains/intervals.hpp:1165-1169 | x reads top, the others are unchanged, and any value of x is modelled |
| IntervalDomains.ForgetSound | include/crab/domains/intervals.hpp:1165-1169 | a modelled state with x changed arbitrarily stays modelled |
| IntervalDomains.Eval | include/crab/domains/intervals.hpp:1174-1182 | the interval of a linear expression is well formed, and integral over Z |
| IntervalDomains.Scaled | include/crab/domains/intervals.hpp:1176-1179 | one product interval per term, each well formed and integral over Z |
| IntervalDomains.Scale | include/crab/domains/intervals.hpp:1178-1179 | `interval(c) * env[v]` is well formed, and integral when c and env[v] are |
| IntervalDomains.TermScaleSound | include/crab/domains/intervals.hpp:1178-1179 | a term's value c * rho(v) lies in `interval(c) * env[v]` whenever rho(v) lies in env[v] |
| IntervalDomains.Fold | include/crab/domains/intervals.hpp:1176-1180 | the accumulation loop `r += ...` keeps well-formedness and integrality |
| IntervalDomains.FoldSound | include/crab/domains/intervals.hpp:1176-1181 | when each product holds its term's value and r holds a, the loop's result holds a plus the remaining values |
| IntervalDomains.EvalSound | include/crab/domains/intervals.hpp:1174-1182 | the value of the expression in a modelled state is in its interval |
| IntervalDomains.AsVariable | include/crab/domains/intervals.hpp:1218 | when `get_variable` finds a variable the expression's value is that variable's value |
| IntervalDomains.VarExp | include/crab/domains/intervals.hpp:1311-1315 | a variable used as an expression is recognised as that variable |
| IntervalDomains.Assign | include/crab/domains/intervals.hpp:1214-1229 | `assign(x, e)` stores at x the variable's interval when e is a variable and e's evaluated interval otherwise; the result is bottom iff the state or that interval is; every other variable keeps its interval; every modelled state updated with x = e's value is modelled |
| IntervalDomains.IntConv | include/crab/domains/intervals.hpp:1311-1315 | integer conversion ignores the widths: dst gets src's interval, the result is bottom iff the state is, every other variable keeps its interval, and every modelled state updated with dst = src is modelled |
| IntervalDomains.OperandInterval | include/crab/domains/intervals.hpp:1264-1265 | the interval of a variable or constant operand holds its value |
| IntervalDomains.Arith | include/crab/domains/intervals.hpp:1239-1256 | each arithmetic operator is bottom on a bottom operand and keeps well-formedness and integrality |
| IntervalDomains.ArithSound | include/crab/domains/intervals.hpp:1239-1256 | the concrete result of + - * and the instantiation's division lies in the interval result, and is an integer over Z |
| IntervalDomains.ApplyArith | include/crab/domains/intervals.hpp:1231-1287 | `apply(op, x, y, z)` stores at x the operator applied to y's interval and z's interval (or number); the result is bottom iff the state or that interval is; every other variable keeps its interval; every modelled state updated with x = y op z (z non-zero for division) is modelled |
| IntervalDomains.Bitwise | include/crab/domains/intervals.hpp:1327-1354 | the bitwise operator is bottom on a bottom operand, and over the rationals top otherwise |
| IntervalDomains.BitwiseSound | include/crab/domains/intervals.hpp:1327-1354 | every defined concrete bitwise result of members is in the result |
| IntervalDomains.ApplyBitwise | include/crab/domains/intervals.hpp:1319-1394 | stores at x the bitwise operator on y's and z's intervals, bottom iff the state or that interval is, other variables unchanged; over Z every state updated with x = y op z is modelled; over Q x is unconstrained |
| IntervalDomains.Divide | include/crab/domains/intervals.hpp:1406-1425 | the division operator is bottom on a bottom operand; UDiv, and over Q the remainders, are top otherwise |
| IntervalDomains.DivisionSound | include/crab/domains/intervals.hpp:1406-1425 | every defined concrete signed quotient or remainder of members is in the result |
| IntervalDomains.ApplyDivision | include/crab/domains/intervals.hpp:1398-1458 | stores at x the division operator on y's and z's intervals, bottom iff the state or that interval is, other variables unchanged; over Z every state updated with the concrete result is modelled; over Q signed division is exact and the rest leave x unconstrained |
| IntervalDomains.SignedOnly | include/crab/domains/intervals.hpp:1194-1202 | exactly the constraints that are not unsigned inequalities are kept, and a list without unsigned inequalities is kept whole |
| IntervalDomains.SignedOnlyOne | include/crab/domains/intervals.hpp:1197-1201 | one constraint is dropped iff it is an unsigned inequality |
| IntervalDomains.SignedOnlyAppend | include/crab/domains/intervals.hpp:1196-1202 | the filter distributes over concatenation, so kept constraints keep their order and repetitions |
| IntervalDomains.AddConstraints | include/crab/domains/intervals.hpp:1191-1206 | `add` is a no-op on bottom, and otherwise runs the solver with the threshold on the signed constraints, in order |
| IntervalDomains.Constrain | include/crab/domains/intervals.hpp:1185-1212 | `+=` and `+` are `add` with the default threshold of 10 reduction cycles (the template default of line 1037): a no-op on bottom, otherwise the solver on the signed constraints |
| IntervalDomains.AtLeast | include/crab/domains/intervals.hpp:1477 | the constraint `v >= n` is satisfied exactly when v's value is at least n |
| IntervalDomains.AtMost | include/crab/domains/intervals.hpp:1478 | the constraint `v <= n` is satisfied exactly when v's value is at most n |
| IntervalDomains.FalseUnsatisfiable | include/crab/domains/intervals.hpp:1468 | the false constraint is satisfied by no state |
| IntervalDomains.ToConstraints | include/crab/domains/intervals.hpp:1464-1481 | bottom gives the false constraint and top no constraint |
| IntervalDomains.ToConstraintsMeaning | include/crab/domains/intervals.hpp:1464-1481 | a state satisfies the whole system iff the environment models it |

## Left out

- Number types: `z_number` and `q_number` live in a bignum header that is not part of this model.
  - Both are modelled as exact Dafny `real`s, integral for `Z`.
  - Integer `/` and `%` are assumed to truncate toward zero, as gmp's `mpz_class` does.
  - `>>`, `&`, `|`, `^` are modelled on unbounded two's-complement integers.
  - `fill_ones` is modelled as the smallest 2^k - 1 at or above its argument.
- The interval operators taking a `Number` operand (include/crab/domains/intervals.hpp:946-984) are the interval operators applied to `interval(n)`. The model builds that interval with `Intervals.FromNumber` where crab uses them.
- `lower_half_line` and `upper_half_line` in the solver namespace (include/crab/domains/intervals.hpp:1016-1034) ignore `is_signed` and equal `Intervals.LowerHalfLine` and `Intervals.UpperHalfLine`.
- The linear interval solver (`linear_interval_solver::run`) is not part of this model. `IntervalDomains.AddConstraints` takes it as a function parameter and states only the filtering and the bottom check around it.
- `interval_domain::widening_thresholds` is left out. It calls `separate_domain::widening_thresholds`, which `separate_domains.hpp` does not define. The interval-level operator is modelled as `Intervals.WidenThresholds`, with `get_prev`/`get_next` as parameters.
- The `backward_*` operations are left out. They delegate to `BackwardAssignOps`, which is not part of this model.
- `to_disjunctive_linear_constraint_system` is left out. It only wraps `to_linear_constraint_system` in a type that is not part of this model.
- The following are left out as instrumentation or text output: `write` and `operator<<`, `getDomainName`, the `CrabStats` counters and timers, and the copy constructors and assignment operators.
- Patricia-tree internals are left out: structural sharing, copy-on-write and iteration order. The tree is a Dafny `map`, and iteration is `Bindings`, which returns the map.
- Widths of machine integers are left out.
  - `UDiv`, and `URem` with a negative operand, depend on the bit width, which the domain ignores. `IntervalDomains.DivValue` gives no concrete value for them, so the soundness statements say nothing there.
  - The same applies to `LShr` of a negative number and to negative shift amounts in `IntervalDomains.BitValue`.
  - Integer conversions copy the interval, as crab does, and no truncation is modelled.
- IntervalDomains.ApplyBitwise: over the integers, soundness is stated only for the cases listed above that have a width-independent concrete value.
- IntervalDomains.Widen: states the pointwise widening and that the result is above both sides, not that widening chains of whole environments stabilise. Stabilisation is stated per interval in `Intervals.WidenStabilises`.
- IntervalDomains.ToConstraints: states the bottom and top shapes and, in `ToConstraintsMeaning`, the meaning of the system. It does not list the individual constraints.
- IntervalDomains.Arith: its division is the corrected `IntervalDivision.QDiv`/`ZDiv` of "## Findings", not crab's. For example, x := y / z with y in [5,10] and z in [-oo,-1] gives the model [-10,0], where crab stores [-oo,-5].
- IntervalDomains.ArithSound: proved of the corrected division; crab's as-written division is unsound on the "## Findings" inputs, so the statement does not hold of crab there.
- IntervalDomains.ApplyArith: updates x with the corrected division of "## Findings", so its result differs from crab's when the divisor has an infinite bound or the dividend lies below zero.
- IntervalDomains.Bitwise: its arithmetic shift right is the corrected `IntervalBitwise.AShr` of "## Findings", which rounds toward -oo; crab's division by 2^k rounds toward zero.
- IntervalDomains.BitwiseSound: proved of the corrected `AShr`; crab's `AShr` misses -1 >> 1 = -1.
- IntervalDomains.ApplyBitwise: stores the corrected `AShr` result, which differs from crab's for negative dividends.
- IntervalDomains.Divide: its signed division is the corrected `QDiv`/`ZDiv` of "## Findings", not crab's.
- IntervalDomains.DivisionSound: proved of the corrected division; crab's as-written division misses quotients on the "## Findings" inputs.
- IntervalDomains.ApplyDivision: stores the corrected signed quotient, which differs from crab's on the "## Findings" inputs.
- The operations with a fatal `CRAB_ERROR` (`-oo + +oo`, division by a finite zero) carry preconditions and are never called outside them.

## Findings

| source | as written | input that shows it | evidently intended | confidence | as-written member | corrected member |
|---|---|---|---|---|---|---|
| include/crab/domains/intervals.hpp:208-215 | a finite non-zero bound divided by an infinite bound gives an infinity | q interval [5,10] / [-oo,-1]: the corner quotients give [-oo,-5], yet 5 / -10 = -0.5 is a quotient of members; over z, [5,10] / [-oo,-1] also gives [-oo,-5] and misses 5 / -6 = 0 | a finite value over an infinity is 0, the limit, so the corner interval holds every quotient | high (not executed) | IntervalDivision.QDivAsWrittenMissesQuotient | IntervalDivision.QDivSound |
| include/crab/domains/intervals.hpp:712-716 | for a negative dividend the dividend is shifted by y + 1 or 1 - y before the corner quotients | [-5,-5] / [-3,-2] gives [2,3], but the truncated quotient -5 / -3 is 1 | corner quotients of the dividend itself, which are sound for truncating division | high (not executed) | IntervalDivision.ZDivAsWrittenShiftMissesQuotient | IntervalDivision.ZDivSound |
| include/crab/domains/intervals.hpp:912 | arithmetic shift right is interval division by 2^k, which truncates toward zero | [-1,-1] ashr [1,1] gives [0,0], but -1 >> 1 is -1 | arithmetic shift rounds toward -oo: shift each bound | medium, depends on z_number `/` truncating (not executed) | IntervalBitwise.AShrAsWrittenRoundsTowardZero | IntervalBitwise.AShrSound |

The corrected members are what the rest of the model uses:

- `Bounds.Div` instead of `Bounds.DivAsWritten`;
- `IntervalDivision.QDiv` and `IntervalDivision.ZDiv`;
- `IntervalBitwise.AShr`.

The as-written definitions (`Bounds.DivAsWritten`, `IntervalDivision.QDivAsWritten`, `IntervalDivision.ZDivAsWritten`, `IntervalBitwise.AShrAsWritten`) are kept next to them.

Where the code differs from its description, the model follows the code:

- a finite zero times an infinite bound is zero, not an error;
- integer division truncates toward zero: -7 / 2 is -3, which is not the floor;
- an unsigned remainder of a negative singleton by a positive singleton d is [0, d-1], not top: [-10,-10] URem [3,3] is [0,2].

=== FILE: bound.dfy ===
/** Extended numbers: a finite integer or rational, or one of the two
    infinities. This is class `bound<Number>` of the interval domain, with
    both of its instantiations (z_bound over integers, q_bound over
    rationals) carried by one datatype over `real`; a z_bound is one whose
    finite value `IsInt`. */
module Bounds {
  import opened Numbers
  import opened Options

  /** The numeric instantiation of a template: z_number or q_number. */
  datatype NumKind = Z | Q

  /** crab's bound stores a flag and a number and normalises the number of an
      infinite bound to +1 or -1, so exactly three shapes exist. */
  datatype Bound = Fin(n: real) | PInf | NInf

  predicate IsInfinite(b: Bound) {
    !b.Fin?
  }

  /** The number field `_n` of crab's bound: the value of a finite bound,
      +1 for +oo and -1 for -oo. */
  function Mag(b: Bound): real {
    match b
    case Fin(n) => n
    case PInf => 1.0
    case NInf => -1.0
  }

  /** The private constructor bound(is_infinite, n): an infinite bound keeps
      only the sign of n, and a non-positive n gives -oo. */
  function Raw(isInf: bool, n: real): Bound {
    if !isInf then Fin(n) else if n > 0.0 then PInf else NInf
  }

  /** Rebuilding a bound from its flag and stored number gives it back: the
      representation is normalised. */
  lemma RawMag(b: Bound)
    ensures Raw(IsInfinite(b), Mag(b)) == b
    ensures IsInfinite(b) ==> Mag(b) == 1.0 || Mag(b) == -1.0
  {
  }

  /** A z_bound: a finite value carries an integer. */
  predicate IntBound(b: Bound) {
    b.Fin? ==> IsInt(b.n)
  }

  function Sign(b: Bound): int {
    match b
    case Fin(n) => if n > 0.0 then 1 else if n < 0.0 then -1 else 0
    case PInf => 1
    case NInf => -1
  }

  /** The product of two signs (each -1, 0 or 1), written by cases. */
  function SignTimes(s: int, t: int): int {
    if s == 0 || t == 0 then 0 else if s == t then 1 else -1
  }

  // ---------------------------------------------------------------------
  // Order

  /** operator<=, in crab's shape: when exactly one side is infinite
      only the sign of that side decides, otherwise the stored numbers are
      compared. It is the order of the extended reals. */
  predicate Le(x: Bound, y: Bound): (b: bool)
    ensures b <==> x == NInf || y == PInf || (x.Fin? && y.Fin? && x.n <= y.n)
  {
    if IsInfinite(x) != IsInfinite(y) then
      (if IsInfinite(x) then Mag(x) < 0.0 else Mag(y) > 0.0)
    else
      Mag(x) <= Mag(y)
  }

  /** operator>=, written out separately in crab; it is the converse
      of Le. */
  predicate Ge(x: Bound, y: Bound): (b: bool)
    ensures b <==> Le(y, x)
  {
    if IsInfinite(x) != IsInfinite(y) then
      (if IsInfinite(x) then Mag(x) > 0.0 else Mag(y) < 0.0)
    else
      Mag(x) >= Mag(y)
  }

  /** operator< is the negation of >=: the strict order. */
  predicate Lt(x: Bound, y: Bound): (b: bool)
    ensures b <==> Le(x, y) && x != y
  {
    !Ge(x, y)
  }

  /** operator> is the negation of <=: the strict converse order. */
  predicate Gt(x: Bound, y: Bound): (b: bool)
    ensures b <==> Le(y, x) && x != y
  {
    !Le(x, y)
  }

  /** -oo is least, +oo is greatest, finite bounds compare by value, and <=
      is a total order (bound::operator== is structural equality). */
  lemma LeTotalOrder(x: Bound, y: Bound, z: Bound)
    ensures Le(NInf, x) && Le(x, PInf)
    ensures x.Fin? && y.Fin? ==> (Le(x, y) <==> x.n <= y.n)
    ensures Le(x, x)
    ensures Le(x, y) || Le(y, x)
    ensures Le(x, y) && Le(y, x) ==> x == y
    ensures Le(x, y) && Le(y, z) ==> Le(x, z)
  {
  }

  /** bound::min: the first argument when it is <= the second. */
  function Min(x: Bound, y: Bound): (r: Bound)
    ensures Le(r, x) && Le(r, y)
    ensures r == x || r == y
  {
    if Le(x, y) then x else y
  }

  /** bound::max: the second argument when the first is <= it. */
  function Max(x: Bound, y: Bound): (r: Bound)
    ensures Le(x, r) && Le(y, r)
    ensures r == x || r == y
  {
    if Le(x, y) then y else x
  }

  function Min3(x: Bound, y: Bound, z: Bound): (r: Bound)
    ensures Le(r, x) && Le(r, y) && Le(r, z)
    ensures r == x || r == y || r == z
  {
    Min(x, Min(y, z))
  }

  function Max3(x: Bound, y: Bound, z: Bound): (r: Bound)
    ensures Le(x, r) && Le(y, r) && Le(z, r)
    ensures r == x || r == y || r == z
  {
    Max(x, Max(y, z))
  }

  function Min4(x: Bound, y: Bound, z: Bound, t: Bound): (r: Bound)
    ensures Le(r, x) && Le(r, y) && Le(r, z) && Le(r, t)
    ensures r == x || r == y || r == z || r == t
  {
    Min(x, Min3(y, z, t))
  }

  function Max4(x: Bound, y: Bound, z: Bound, t: Bound): (r: Bound)
    ensures Le(x, r) && Le(y, r) && Le(z, r) && Le(t, r)
    ensures r == x || r == y || r == z || r == t
  {
    Max(x, Max3(y, z, t))
  }

  // ---------------------------------------------------------------------
  // Arithmetic

  /** Unary minus negates the stored number, which swaps the infinities. */
  function Neg(x: Bound): (r: Bound)
    ensures x.Fin? ==> r == Fin(-x.n)
    ensures x == PInf <==> r == NInf
    ensures x == NInf <==> r == PInf
    ensures Sign(r) == -Sign(x)
  {
    Raw(IsInfinite(x), -Mag(x))
  }

  /** Negation is an involution that reverses the order. */
  lemma NegOrder(x: Bound, y: Bound)
    ensures Neg(Neg(x)) == x
    ensures Le(x, y) <==> Le(Neg(y), Neg(x))
  {
    if x.Fin? && y.Fin? {
      assert Neg(x) == Fin(-x.n) && Neg(y) == Fin(-y.n);
    } else {
      assert IsInfinite(x) || IsInfinite(y);
    }
  }

  /** The sum is defined unless the operands are opposite infinities, the
      case crab reports as "undefined operation -oo + +oo". */
  predicate CanAdd(x: Bound, y: Bound): (b: bool)
    ensures b <==> !(x == PInf && y == NInf) && !(x == NInf && y == PInf)
  {
    !(IsInfinite(x) && IsInfinite(y) && Mag(x) != Mag(y))
  }

  /** operator+: finite operands add exactly and an infinite operand
      absorbs the other. */
  function Add(x: Bound, y: Bound): (r: Bound)
    requires CanAdd(x, y)
    ensures x.Fin? && y.Fin? ==> r == Fin(x.n + y.n)
    ensures IsInfinite(x) ==> r == x
    ensures IsInfinite(y) ==> r == y
  {
    if x.Fin? && y.Fin? then Fin(x.n + y.n)
    else if x.Fin? then y
    else if y.Fin? then x
    else x  // equal infinities: CanAdd excludes the fatal case
  }

  /** The difference is defined unless the operands are equal infinities. */
  predicate CanSub(x: Bound, y: Bound): (b: bool)
    ensures b <==> !(x == PInf && y == PInf) && !(x == NInf && y == NInf)
  {
    CanAdd(x, Neg(y))
  }

  /** operator- is addition of the negation. */
  function Sub(x: Bound, y: Bound): (r: Bound)
    requires CanSub(x, y)
    ensures x.Fin? && y.Fin? ==> r == Fin(x.n - y.n)
    ensures IsInfinite(x) ==> r == x
    ensures IsInfinite(y) ==> r == Neg(y)
  {
    Add(x, Neg(y))
  }

  /** Integer bounds are closed under negation, sum and product. */
  lemma IntBoundClosed(x: Bound, y: Bound)
    ensures IntBound(x) ==> IntBound(Neg(x))
    ensures IntBound(x) && IntBound(y) ==> IntBound(Mul(x, y))
    ensures IntBound(x) && IntBound(y) && CanAdd(x, y) ==> IntBound(Add(x, y))
    ensures IntBound(x) && IntBound(y) && CanSub(x, y) ==> IntBound(Sub(x, y))
  {
    IntBoundNeg(x);
    if IntBound(x) && IntBound(y) {
      IntBoundMul(x, y);
      IntBoundAdd(x, y);
      IntBoundSub(x, y);
    }
  }

  lemma IntBoundSub(x: Bound, y: Bound)
    requires IntBound(x) && IntBound(y)
    ensures CanSub(x, y) ==> IntBound(Sub(x, y))
  {
    if x.Fin? && y.Fin? {
      IntClosed(x.n, y.n);
    }
  }

  lemma IntBoundNeg(x: Bound)
    ensures IntBound(x) ==> IntBound(Neg(x))
  {
    if IntBound(x) && x.Fin? {
      IntClosed(x.n, x.n);
    }
  }

  lemma IntBoundMul(x: Bound, y: Bound)
    requires IntBound(x) && IntBound(y)
    ensures IntBound(Mul(x, y))
  {
    IntOfInt(0);
    if x.Fin? && y.Fin? {
      var i, j := x.n.Floor, y.n.Floor;
      var k := i * j;
      IntProduct(i, j);
      IntOfInt(k);
      assert x.n * y.n == k as real;
      assert Mul(x, y) == Fin(k as real);
    }
  }

  lemma IntBoundAdd(x: Bound, y: Bound)
    requires IntBound(x) && IntBound(y)
    ensures CanAdd(x, y) ==> IntBound(Add(x, y))
  {
    if x.Fin? && y.Fin? {
      IntClosed(x.n, y.n);
    }
  }

  /** Addition is monotone in both operands. */
  lemma AddMonotone(x1: Bound, x2: Bound, y1: Bound, y2: Bound)
    requires CanAdd(x1, y1) && CanAdd(x2, y2)
    requires Le(x1, x2) && Le(y1, y2)
    ensures Le(Add(x1, y1), Add(x2, y2))
  {
  }

  /** operator*: a finite zero on either side wins, even against an
      infinity; otherwise the signs multiply and the result is infinite as
      soon as one operand is. */
  function Mul(x: Bound, y: Bound): (r: Bound)
    ensures x == Fin(0.0) || y == Fin(0.0) ==> r == Fin(0.0)
    ensures x.Fin? && y.Fin? ==> r == Fin(x.n * y.n)
    ensures Sign(r) == SignTimes(Sign(x), Sign(y))
    ensures IsInfinite(r) <==> (IsInfinite(x) || IsInfinite(y)) && SignTimes(Sign(x), Sign(y)) != 0
  {
    if Mag(y) == 0.0 then y
    else if Mag(x) == 0.0 then x
    else
      MulOfNonZero(x, y);
      Raw(IsInfinite(x) || IsInfinite(y), StoredProduct(x, y))
  }

  /** The product `_n * x._n` of the stored numbers. The number of an
      infinity is +1 or -1, so only two finite bounds really multiply. */
  function StoredProduct(x: Bound, y: Bound): real {
    match x
    case Fin(a) => (match y case Fin(b) => a * b case PInf => a case NInf => -a)
    case PInf => Mag(y)
    case NInf => -Mag(y)
  }

  /** StoredProduct is the product of the stored numbers. */
  lemma StoredProductIsProduct(x: Bound, y: Bound)
    ensures StoredProduct(x, y) == Mag(x) * Mag(y)
  {
    if !x.Fin? || !y.Fin? {
      assert Mag(x) == 1.0 || Mag(x) == -1.0 || Mag(y) == 1.0 || Mag(y) == -1.0;
    }
  }

  /** The last branch of operator*, where neither stored number is zero. */
  lemma MulOfNonZero(x: Bound, y: Bound)
    requires Mag(x) != 0.0 && Mag(y) != 0.0
    ensures var r := Raw(IsInfinite(x) || IsInfinite(y), StoredProduct(x, y));
      Sign(r) == SignTimes(Sign(x), Sign(y)) && Sign(r) != 0 &&
      (x.Fin? && y.Fin? ==> r == Fin(x.n * y.n)) &&
      (IsInfinite(r) <==> IsInfinite(x) || IsInfinite(y))
  {
    if x.Fin? && y.Fin? {
      SignOfProduct(x.n, y.n);
    }
  }

  lemma SignOfProduct(a: real, b: real)
    ensures Sign(Fin(a * b)) == SignTimes(Sign(Fin(a)), Sign(Fin(b)))
  {
    if a > 0.0 && b > 0.0 {
      assert a * b > 0.0;
    } else if a > 0.0 && b < 0.0 {
      assert a * b < 0.0;
    } else if a < 0.0 && b > 0.0 {
      assert a * b < 0.0;
    } else if a < 0.0 && b < 0.0 {
      assert a * b > 0.0;
    }
  }

  /** Multiplication of bounds is commutative. */
  lemma MulCommutes(x: Bound, y: Bound)
    ensures Mul(x, y) == Mul(y, x)
  {
  }

  /** Multiplying by a non-negative bound is monotone, by a non-positive one
      antitone. */
  lemma MulMonotone(x: Bound, y1: Bound, y2: Bound)
    requires Le(y1, y2)
    ensures Le(Fin(0.0), x) ==> Le(Mul(x, y1), Mul(x, y2))
    ensures Le(x, Fin(0.0)) ==> Le(Mul(x, y2), Mul(x, y1))
  {
    if Le(Fin(0.0), x) {
      MulMonotoneNonNeg(x, y1, y2);
    }
    if Le(x, Fin(0.0)) {
      MulMonotoneNonNeg(Neg(x), y1, y2);
      MulNeg(x, y1);
      MulNeg(x, y2);
    }
  }

  lemma MulNeg(x: Bound, y: Bound)
    ensures Mul(x, y) == Neg(Mul(Neg(x), y))
  {
    if Mag(y) != 0.0 && Mag(x) != 0.0 {
      MulNegNonZero(x, y);
    } else {
      MulNegZero(x, y);
    }
  }

  lemma MulNegZero(x: Bound, y: Bound)
    requires Mag(x) == 0.0 || Mag(y) == 0.0
    ensures Mul(x, y) == Fin(0.0) && Mul(Neg(x), y) == Fin(0.0)
  {
    MagNeg(x);
  }

  lemma MulNegNonZero(x: Bound, y: Bound)
    requires Mag(x) != 0.0 && Mag(y) != 0.0
    ensures Mul(x, y) == Neg(Mul(Neg(x), y))
  {
    MagNeg(x);
    var isInf := IsInfinite(x) || IsInfinite(y);
    assert Mul(x, y) == Raw(isInf, StoredProduct(x, y));
    assert Mul(Neg(x), y) == Raw(isInf, StoredProduct(Neg(x), y));
    StoredProductNeg(x, y);
    NegRaw(isInf, StoredProduct(x, y));
  }

  /** Negation negates the stored number and keeps the infinity flag. */
  lemma MagNeg(x: Bound)
    ensures Mag(Neg(x)) == -Mag(x) && IsInfinite(Neg(x)) == IsInfinite(x)
  {
  }

  lemma StoredProductNeg(x: Bound, y: Bound)
    requires Mag(x) != 0.0 && Mag(y) != 0.0
    ensures StoredProduct(Neg(x), y) == -StoredProduct(x, y)
    ensures StoredProduct(x, y) != 0.0
  {
    if x.Fin? && y.Fin? {
      assert (-x.n) * y.n == -(x.n * y.n);
      SignOfProduct(x.n, y.n);
    }
  }

  /** Negating a rebuilt bound negates its stored number. */
  lemma NegRaw(isInf: bool, p: real)
    requires p != 0.0
    ensures Neg(Raw(isInf, -p)) == Raw(isInf, p)
  {
  }

  lemma MulMonotoneNonNeg(x: Bound, y1: Bound, y2: Bound)
    requires Le(y1, y2) && Le(Fin(0.0), x)
    ensures Le(Mul(x, y1), Mul(x, y2))
  {
    if x == Fin(0.0) {
      assert Mul(x, y1) == Fin(0.0) && Mul(x, y2) == Fin(0.0);
    } else if x.Fin? && y1.Fin? && y2.Fin? {
      MulMonotoneFinite(x.n, y1.n, y2.n);
    } else if y1 == NInf || y2 == PInf {
      MulPositiveByInf(x);
    } else {
      assert x == PInf && y1.Fin? && y2.Fin?;
      MulByPInf(y1);
      MulByPInf(y2);
    }
  }

  lemma MulMonotoneFinite(c: real, a: real, b: real)
    requires c >= 0.0 && a <= b
    ensures Le(Mul(Fin(c), Fin(a)), Mul(Fin(c), Fin(b)))
  {
    var p, q := c * a, c * b;
    MulLeReal(c, a, b, p, q);
    assert Mul(Fin(c), Fin(a)) == Fin(p);
    assert Mul(Fin(c), Fin(b)) == Fin(q);
    assert Le(Fin(p), Fin(q));
  }

  /** A positive bound times an infinity is that infinity. */
  lemma MulPositiveByInf(x: Bound)
    requires Le(Fin(0.0), x) && x != Fin(0.0)
    ensures Mul(x, NInf) == NInf && Mul(x, PInf) == PInf
  {
    assert Sign(x) == 1;
  }

  /** +oo times a finite bound: zero, or the infinity of the bound's sign. */
  lemma MulByPInf(y: Bound)
    requires y.Fin?
    ensures Mul(PInf, y) == (if y.n > 0.0 then PInf else if y.n < 0.0 then NInf else Fin(0.0))
  {
  }

  lemma MulLeReal(c: real, a: real, b: real, p: real, q: real)
    requires c >= 0.0 && a <= b && p == c * a && q == c * b
    ensures p <= q
  {
    assert c * b - c * a == c * (b - a);
  }

  /** v lies between p and q, whichever of the two is smaller. */
  predicate Between(v: Bound, p: Bound, q: Bound) {
    Le(Min(p, q), v) && Le(v, Max(p, q))
  }

  /** For y between lo and hi, x * y lies between x * lo and x * hi. */
  lemma MulBetween(x: Bound, y: Bound, lo: Bound, hi: Bound)
    requires Le(lo, y) && Le(y, hi)
    ensures Between(Mul(x, y), Mul(x, lo), Mul(x, hi))
  {
    MulMonotone(x, lo, y);
    MulMonotone(x, y, hi);
  }

  /** For x between lo and hi, x * y lies between lo * y and hi * y. */
  lemma MulBetweenLeft(x: Bound, y: Bound, lo: Bound, hi: Bound)
    requires Le(lo, x) && Le(x, hi)
    ensures Between(Mul(x, y), Mul(lo, y), Mul(hi, y))
  {
    MulBetween(y, x, lo, hi);
    MulCommutes(y, x);
    MulCommutes(y, lo);
    MulCommutes(y, hi);
  }

  /** If v lies between p and q, p between c1 and c2, and q between c3 and
      c4, then v lies between the least and the greatest of the four. */
  lemma BetweenCorners(v: Bound, p: Bound, q: Bound, c1: Bound, c2: Bound, c3: Bound, c4: Bound)
    requires Between(v, p, q) && Between(p, c1, c2) && Between(q, c3, c4)
    ensures Le(Min4(c1, c3, c2, c4), v) && Le(v, Max4(c1, c3, c2, c4))
  {
    var lo, hi := Min4(c1, c3, c2, c4), Max4(c1, c3, c2, c4);
    LeTotalOrder(lo, Min(c1, c2), p);
    LeTotalOrder(lo, Min(c3, c4), q);
    LeTotalOrder(lo, Min(p, q), v);
    LeTotalOrder(p, Max(c1, c2), hi);
    LeTotalOrder(q, Max(c3, c4), hi);
    LeTotalOrder(v, Max(p, q), hi);
  }

  /** For a between xl and xu and b between yl and yu, a * b is no less than
      the least corner product. */
  lemma MulCornersLow(a: Bound, b: Bound, xl: Bound, xu: Bound, yl: Bound, yu: Bound)
    requires Le(xl, a) && Le(a, xu) && Le(yl, b) && Le(b, yu)
    ensures Le(Min4(Mul(xl, yl), Mul(xl, yu), Mul(xu, yl), Mul(xu, yu)), Mul(a, b))
  {
    MulBetween(a, b, yl, yu);
    MulBetweenLeft(a, yl, xl, xu);
    MulBetweenLeft(a, yu, xl, xu);
    BetweenCorners(Mul(a, b), Mul(a, yl), Mul(a, yu), Mul(xl, yl), Mul(xu, yl), Mul(xl, yu), Mul(xu, yu));
  }

  /** ... and no greater than the greatest corner product. */
  lemma MulCornersHigh(a: Bound, b: Bound, xl: Bound, xu: Bound, yl: Bound, yu: Bound)
    requires Le(xl, a) && Le(a, xu) && Le(yl, b) && Le(b, yu)
    ensures Le(Mul(a, b), Max4(Mul(xl, yl), Mul(xl, yu), Mul(xu, yl), Mul(xu, yu)))
  {
    MulBetween(a, b, yl, yu);
    MulBetweenLeft(a, yl, xl, xu);
    MulBetweenLeft(a, yu, xl, xu);
    BetweenCorners(Mul(a, b), Mul(a, yl), Mul(a, yu), Mul(xl, yl), Mul(xu, yl), Mul(xl, yu), Mul(xu, yu));
  }

  /** The Number-specific division of finite values: truncation toward zero
      for z_number, exact division for q_number. */
  function NumDiv(k: NumKind, a: real, b: real): real
    requires b != 0.0
    requires k == Z ==> IsInt(a) && IsInt(b)
  {
    if k == Q then a / b else TDiv(a.Floor, b.Floor) as real
  }

  /** operator/ as crab writes it. Division by a finite zero is the
      fatal "division by zero". A finite non-zero value divided by an
      infinity gives that infinity (or its negation), and an infinity
      divided by anything non-zero stays infinite with the product of the
      signs. The first rule is the defect recorded under Findings: the
      quotient of a finite value by ever larger divisors tends to zero, so
      an interval division whose divisor is unbounded drops real quotients;
      `Div` below is the corrected operator. */
  function DivAsWritten(k: NumKind, x: Bound, y: Bound): (r: Bound)
    requires y != Fin(0.0)
    requires k == Z ==> IntBound(x) && IntBound(y)
    ensures x.Fin? && y.Fin? ==> r == Fin(NumDiv(k, x.n, y.n))
    ensures IsInfinite(x) || (IsInfinite(y) && x != Fin(0.0)) ==> IsInfinite(r)
    ensures x == Fin(0.0) && IsInfinite(y) ==> r == Fin(0.0)
    ensures IsInfinite(r) ==> Sign(r) == SignTimes(Sign(x), Sign(y))
    ensures k == Z ==> IntBound(r)
  {
    if x.Fin? && y.Fin? then Fin(NumDiv(k, x.n, y.n))
    else if x.Fin? then (if x.n > 0.0 then y else if x.n == 0.0 then x else Neg(y))
    else if y.Fin? then (if y.n > 0.0 then x else Neg(x))
    else Raw(true, StoredProduct(x, y))
  }

  /** operator/ with the intended limit: a finite value divided by an
      infinity is zero. Everything else is as in DivAsWritten. */
  function Div(k: NumKind, x: Bound, y: Bound): (r: Bound)
    requires y != Fin(0.0)
    requires k == Z ==> IntBound(x) && IntBound(y)
    ensures x.Fin? && y.Fin? ==> r == Fin(NumDiv(k, x.n, y.n))
    ensures x.Fin? && IsInfinite(y) ==> r == Fin(0.0)
    ensures IsInfinite(x) ==> IsInfinite(r) && Sign(r) == SignTimes(Sign(x), Sign(y))
    ensures k == Z ==> IntBound(r)
    ensures x.Fin? || y.Fin? ==> r == DivAsWritten(k, x, y) || IsInfinite(y)
  {
    if x.Fin? && y.Fin? then Fin(NumDiv(k, x.n, y.n))
    else if x.Fin? then (IntOfInt(0); Fin(0.0))
    else if y.Fin? then (if y.n > 0.0 then x else Neg(x))
    else Raw(true, StoredProduct(x, y))
  }

  /** Real division is monotone in the dividend for a positive divisor and
      antitone for a negative one. */
  lemma RealDivDividend(a1: real, a2: real, b: real)
    requires a1 <= a2 && b != 0.0
    ensures b > 0.0 ==> a1 / b <= a2 / b
    ensures b < 0.0 ==> a2 / b <= a1 / b
  {
    var q1, q2 := a1 / b, a2 / b;
    assert q1 * b == a1 && q2 * b == a2;
    assert (q2 - q1) * b == a2 - a1;
  }

  /** For divisors of one sign, real division of a non-negative number is
      antitone in the divisor and of a non-positive one monotone. */
  lemma RealDivDivisor(a: real, b1: real, b2: real)
    requires b1 <= b2 && (0.0 < b1 || b2 < 0.0)
    ensures a >= 0.0 ==> a / b2 <= a / b1
    ensures a <= 0.0 ==> a / b1 <= a / b2
  {
    var q1, q2 := a / b1, a / b2;
    assert q1 * b1 == a && q2 * b2 == a;
    assert b1 * b2 > 0.0;
    assert (q1 - q2) * (b1 * b2) == a * (b2 - b1);
  }

  /** NumDiv is monotone in the dividend for a positive divisor and
      antitone for a negative one. */
  lemma NumDivDividend(k: NumKind, a1: real, a2: real, b: real)
    requires a1 <= a2 && b != 0.0
    requires k == Z ==> IsInt(a1) && IsInt(a2) && IsInt(b)
    ensures b > 0.0 ==> NumDiv(k, a1, b) <= NumDiv(k, a2, b)
    ensures b < 0.0 ==> NumDiv(k, a2, b) <= NumDiv(k, a1, b)
  {
    if k == Q {
      RealDivDividend(a1, a2, b);
    } else {
      TDivMonotone(a1.Floor, a2.Floor, b.Floor);
    }
  }

  /** NumDiv over divisors of one sign: antitone in the divisor for a
      non-negative dividend, monotone for a non-positive one. */
  lemma NumDivDivisor(k: NumKind, a: real, b1: real, b2: real)
    requires b1 <= b2 && (0.0 < b1 || b2 < 0.0)
    requires k == Z ==> IsInt(a) && IsInt(b1) && IsInt(b2)
    ensures a >= 0.0 ==> NumDiv(k, a, b2) <= NumDiv(k, a, b1)
    ensures a <= 0.0 ==> NumDiv(k, a, b1) <= NumDiv(k, a, b2)
  {
    if k == Q {
      RealDivDivisor(a, b1, b2);
    } else {
      TDivDivisor(a.Floor, b1.Floor, b2.Floor);
    }
  }

  /** Bound division is monotone in the dividend when the divisor is
      positive, antitone when it is negative. */
  lemma DivDividend(k: NumKind, x1: Bound, x2: Bound, y: Bound)
    requires Le(x1, x2) && y != Fin(0.0)
    requires k == Z ==> IntBound(x1) && IntBound(x2) && IntBound(y)
    ensures Sign(y) > 0 ==> Le(Div(k, x1, y), Div(k, x2, y))
    ensures Sign(y) < 0 ==> Le(Div(k, x2, y), Div(k, x1, y))
  {
    if x1.Fin? && x2.Fin? && y.Fin? {
      NumDivDividend(k, x1.n, x2.n, y.n);
    }
  }

  /** Over divisors of one strict sign, bound division is antitone in the
      divisor for a non-negative dividend and monotone for a non-positive
      one. */
  lemma DivDivisor(k: NumKind, x: Bound, y1: Bound, y2: Bound)
    requires Le(y1, y2) && (Sign(y1) > 0 || Sign(y2) < 0)
    requires k == Z ==> IntBound(x) && IntBound(y1) && IntBound(y2)
    ensures Sign(x) >= 0 ==> Le(Div(k, x, y2), Div(k, x, y1))
    ensures Sign(x) <= 0 ==> Le(Div(k, x, y1), Div(k, x, y2))
  {
    if x.Fin? {
      DivDivisorFinite(k, x.n, y1, y2);
    } else {
      DivDivisorInfinite(k, x, y1, y2);
    }
  }

  lemma DivDivisorFinite(k: NumKind, a: real, y1: Bound, y2: Bound)
    requires Le(y1, y2) && (Sign(y1) > 0 || Sign(y2) < 0)
    requires k == Z ==> IsInt(a) && IntBound(y1) && IntBound(y2)
    ensures a >= 0.0 ==> Le(Div(k, Fin(a), y2), Div(k, Fin(a), y1))
    ensures a <= 0.0 ==> Le(Div(k, Fin(a), y1), Div(k, Fin(a), y2))
  {
    if y1.Fin? && y2.Fin? {
      NumDivDivisor(k, a, y1.n, y2.n);
    } else if y1.Fin? {
      assert Div(k, Fin(a), y2) == Fin(0.0);
      NumDivSign(k, a, y1.n);
    } else if y2.Fin? {
      assert Div(k, Fin(a), y1) == Fin(0.0);
      NumDivSign(k, a, y2.n);
    } else {
      assert Div(k, Fin(a), y1) == Fin(0.0) && Div(k, Fin(a), y2) == Fin(0.0);
    }
  }

  lemma DivDivisorInfinite(k: NumKind, x: Bound, y1: Bound, y2: Bound)
    requires IsInfinite(x)
    requires Le(y1, y2) && (Sign(y1) > 0 || Sign(y2) < 0)
    requires k == Z ==> IntBound(y1) && IntBound(y2)
    ensures Div(k, x, y1) == Div(k, x, y2)
  {
    assert Sign(y1) == Sign(y2);
    var r1, r2 := Div(k, x, y1), Div(k, x, y2);
    assert IsInfinite(r1) && IsInfinite(r2) && Sign(r1) == Sign(r2);
  }

  /** For b between divisors yl and yu of one strict sign, a / b lies
      between a / yl and a / yu. */
  lemma DivBetweenDivisor(k: NumKind, a: Bound, b: Bound, yl: Bound, yu: Bound)
    requires Le(yl, b) && Le(b, yu) && (Sign(yl) > 0 || Sign(yu) < 0)
    requires k == Z ==> IntBound(a) && IntBound(b) && IntBound(yl) && IntBound(yu)
    ensures b != Fin(0.0) && yl != Fin(0.0) && yu != Fin(0.0)
    ensures Between(Div(k, a, b), Div(k, a, yl), Div(k, a, yu))
  {
    OneSign(yl, b, yu);
    DivDivisor(k, a, yl, b);
    DivDivisor(k, a, b, yu);
    var v, p, q := Div(k, a, b), Div(k, a, yl), Div(k, a, yu);
    LeTotalOrder(Min(p, q), v, p);
    LeTotalOrder(Min(p, q), v, q);
    LeTotalOrder(v, Max(p, q), p);
    LeTotalOrder(v, Max(p, q), q);
  }

  /** A bound between two bounds of one strict sign has that sign. */
  lemma OneSign(yl: Bound, b: Bound, yu: Bound)
    requires Le(yl, b) && Le(b, yu) && (Sign(yl) > 0 || Sign(yu) < 0)
    ensures (Sign(yl) > 0 && Sign(b) > 0 && Sign(yu) > 0) || (Sign(yl) < 0 && Sign(b) < 0 && Sign(yu) < 0)
  {
  }

  /** For a between xl and xu and a divisor y that is not zero, a / y lies
      between xl / y and xu / y. */
  lemma DivBetweenDividend(k: NumKind, a: Bound, y: Bound, xl: Bound, xu: Bound)
    requires Le(xl, a) && Le(a, xu) && y != Fin(0.0)
    requires k == Z ==> IntBound(a) && IntBound(y) && IntBound(xl) && IntBound(xu)
    ensures Between(Div(k, a, y), Div(k, xl, y), Div(k, xu, y))
  {
    DivDividend(k, xl, a, y);
    DivDividend(k, a, xu, y);
    var v, p, q := Div(k, a, y), Div(k, xl, y), Div(k, xu, y);
    LeTotalOrder(Min(p, q), v, p);
    LeTotalOrder(Min(p, q), v, q);
    LeTotalOrder(v, Max(p, q), p);
    LeTotalOrder(v, Max(p, q), q);
  }

  /** For a between xl and xu and b between yl and yu, where yl and yu
      have one strict sign, a / b is no less than the least corner quotient. */
  lemma DivCornersLow(k: NumKind, a: Bound, b: Bound, xl: Bound, xu: Bound, yl: Bound, yu: Bound)
    requires Le(xl, a) && Le(a, xu) && Le(yl, b) && Le(b, yu)
    requires Sign(yl) > 0 || Sign(yu) < 0
    requires k == Z ==> IntBound(a) && IntBound(b) && IntBound(xl) && IntBound(xu) && IntBound(yl) && IntBound(yu)
    ensures b != Fin(0.0) && yl != Fin(0.0) && yu != Fin(0.0)
    ensures Le(Min4(Div(k, xl, yl), Div(k, xl, yu), Div(k, xu, yl), Div(k, xu, yu)), Div(k, a, b))
  {
    DivCorners(k, a, b, xl, xu, yl, yu);
  }

  /** ... and no greater than the greatest corner quotient. */
  lemma DivCornersHigh(k: NumKind, a: Bound, b: Bound, xl: Bound, xu: Bound, yl: Bound, yu: Bound)
    requires Le(xl, a) && Le(a, xu) && Le(yl, b) && Le(b, yu)
    requires Sign(yl) > 0 || Sign(yu) < 0
    requires k == Z ==> IntBound(a) && IntBound(b) && IntBound(xl) && IntBound(xu) && IntBound(yl) && IntBound(yu)
    ensures b != Fin(0.0) && yl != Fin(0.0) && yu != Fin(0.0)
    ensures Le(Div(k, a, b), Max4(Div(k, xl, yl), Div(k, xl, yu), Div(k, xu, yl), Div(k, xu, yu)))
  {
    DivCorners(k, a, b, xl, xu, yl, yu);
  }

  lemma DivCorners(k: NumKind, a: Bound, b: Bound, xl: Bound, xu: Bound, yl: Bound, yu: Bound)
    requires Le(xl, a) && Le(a, xu) && Le(yl, b) && Le(b, yu)
    requires Sign(yl) > 0 || Sign(yu) < 0
    requires k == Z ==> IntBound(a) && IntBound(b) && IntBound(xl) && IntBound(xu) && IntBound(yl) && IntBound(yu)
    ensures b != Fin(0.0) && yl != Fin(0.0) && yu != Fin(0.0)
    ensures var lo := Min4(Div(k, xl, yl), Div(k, xl, yu), Div(k, xu, yl), Div(k, xu, yu)); Le(lo, Div(k, a, b))
    ensures var hi := Max4(Div(k, xl, yl), Div(k, xl, yu), Div(k, xu, yl), Div(k, xu, yu)); Le(Div(k, a, b), hi)
  {
    DivBetweenDivisor(k, a, b, yl, yu);
    DivBetweenDividend(k, a, yl, xl, xu);
    DivBetweenDividend(k, a, yu, xl, xu);
    BetweenCorners(Div(k, a, b), Div(k, a, yl), Div(k, a, yu), Div(k, xl, yl), Div(k, xu, yl), Div(k, xl, yu), Div(k, xu, yu));
  }

  /** The sign of a quotient of finite values. */
  lemma NumDivSign(k: NumKind, a: real, b: real)
    requires b != 0.0
    requires k == Z ==> IsInt(a) && IsInt(b)
    ensures (a >= 0.0) == (b > 0.0) ==> NumDiv(k, a, b) >= 0.0
    ensures (a <= 0.0) == (b > 0.0) ==> NumDiv(k, a, b) <= 0.0
  {
    if k == Q {
      var q := a / b;
      assert q * b == a;
    } else {
      NonNegDiv(Abs(a.Floor), Abs(b.Floor));
    }
  }

  /** Rational division of finite bounds is undone by multiplication. */
  lemma QDivInverse(a: real, b: real)
    requires b != 0.0
    ensures Mul(Div(Q, Fin(a), Fin(b)), Fin(b)) == Fin(a)
    ensures Mul(Fin(b), Div(Q, Fin(a), Fin(b))) == Fin(a)
  {
  }

  /** Integer division of finite bounds is truncated division: the
      remainder left over has the dividend's sign and is below the divisor. */
  lemma ZDivTruncates(a: int, b: int)
    requires b != 0
    ensures Div(Z, Fin(a as real), Fin(b as real)) == Fin(TDiv(a, b) as real)
    ensures Abs(a - TDiv(a, b) * b) < Abs(b)
    ensures a >= 0 ==> a - TDiv(a, b) * b >= 0
    ensures a <= 0 ==> a - TDiv(a, b) * b <= 0
  {
    IntOfInt(a);
    IntOfInt(b);
    TDivRemainder(a, b);
  }

  /** bound::abs: the bound itself when >= 0, its negation otherwise. */
  function AbsBound(x: Bound): (r: Bound)
    ensures Le(Fin(0.0), r)
    ensures r == x || r == Neg(x)
    ensures IsInfinite(r) <==> IsInfinite(x)
  {
    if Ge(x, Fin(0.0)) then x else Neg(x)
  }

  /** bound::number: the finite value, or nothing for an infinity. */
  function Number(b: Bound): (r: Option<real>)
    ensures r.Some? <==> b.Fin?
    ensures r.Some? ==> b == Fin(r.value)
  {
    if IsInfinite(b) then None else Some(Mag(b))
  }

  /** The string constructor: "+oo" and "-oo" are the infinities and any
      other text is a numeric literal, read by `parse` (the bignum parser is
      not part of this model). */
  function FromString(s: string, parse: string -> real): (b: Bound)
    ensures s == "+oo" ==> b == PInf
    ensures s == "-oo" ==> b == NInf
    ensures s != "+oo" && s != "-oo" ==> b == Fin(parse(s))
  {
    if s == "+oo" then PInf
    else if s == "-oo" then NInf
    else Fin(parse(s))
  }

  /** bound::write: "+oo", "-oo", or the number as `show` prints it. */
  function Write(b: Bound, show: real -> string): string {
    match b
    case PInf => "+oo"
    case NInf => "-oo"
    case Fin(n) => show(n)
  }

  /** Reading back what `write` prints gives the same bound, provided the
      number printer and parser agree and a number never prints as an
      infinity. */
  lemma WriteFromString(b: Bound, show: real -> string, parse: string -> real)
    requires b.Fin? ==> parse(show(b.n)) == b.n
    requires b.Fin? ==> show(b.n) != "+oo" && show(b.n) != "-oo"
    ensures FromString(Write(b, show), parse) == b
  {
  }

  /** convert_bounds: between equal kinds a copy; integer to rational exact;
      rational to integer rounds the finite value down (round_to_lower). */
  function ConvertBound(from: NumKind, to: NumKind, b: Bound): (r: Bound)
    requires from == Z ==> IntBound(b)
    ensures to == Z ==> IntBound(r)
    ensures r == PInf <==> b == PInf
    ensures r == NInf <==> b == NInf
    ensures Le(r, b)
    ensures b.Fin? ==> b.n - 1.0 < r.n
  {
    if from == Q && to == Z then
      (match b
       case Fin(n) => Fin(n.Floor as real)
       case _ => b)
    else b
  }

  /** Converting an integer bound to a rational one and back is the
      identity. */
  lemma ConvertRoundTrip(b: Bound)
    requires IntBound(b)
    ensures ConvertBound(Q, Z, ConvertBound(Z, Q, b)) == b
  {
  }
}

=== FILE: interval.dfy ===
/** Class `interval<Number>`: a closed range [lb, ub] of bounds. There is no
    bottom flag: lb > ub means empty, and every operation that produces an
    empty range produces the canonical one, [0, -1]. The lattice operations
    and the arithmetic shared by both instantiations live here; the
    Number-specific division, remainder, bitwise and shift operators are in
    module IntervalDivision and module IntervalBitwise. */
module Intervals {
  import opened Numbers
  import opened Options
  import opened Bounds

  datatype Interval = Interval(lb: Bound, ub: Bound)

  function Bottom(): Interval {
    Interval(Fin(0.0), Fin(-1.0))
  }

  function Top(): Interval {
    Interval(NInf, PInf)
  }

  /** is_bottom: the lower bound exceeds the upper one. */
  predicate IsBottom(i: Interval) {
    Gt(i.lb, i.ub)
  }

  /** is_top only checks that both bounds are infinite. */
  predicate IsTop(i: Interval) {
    IsInfinite(i.lb) && IsInfinite(i.ub)
  }

  /** The shapes the operations produce from one another: the canonical
      bottom, or a non-empty range that does not start at +oo or end at -oo. */
  predicate WF(i: Interval) {
    if IsBottom(i) then i == Bottom() else i.lb != PInf && i.ub != NInf
  }

  /** A z_interval: both bounds are integer bounds. */
  predicate IsZ(i: Interval) {
    IntBound(i.lb) && IntBound(i.ub)
  }

  /** operator[](n): n lies in a non-empty range. */
  predicate Contains(i: Interval, a: real) {
    !IsBottom(i) && Le(i.lb, Fin(a)) && Le(Fin(a), i.ub)
  }

  /** Constructor interval(lb, ub): a pair with lb > ub becomes the canonical
      bottom; any other pair is kept, and then holds exactly the numbers
      between the two bounds. */
  function Make(lb: Bound, ub: Bound): (r: Interval)
    ensures IsBottom(r) <==> Gt(lb, ub)
    ensures IsBottom(r) ==> r == Bottom()
    ensures forall a :: Contains(r, a) <==> Le(lb, Fin(a)) && Le(Fin(a), ub)
    ensures lb != PInf && ub != NInf ==> WF(r)
    ensures IntBound(lb) && IntBound(ub) ==> IsZ(r)
  {
    if Gt(lb, ub) then Bottom() else Interval(lb, ub)
  }

  /** Constructor interval(b): the one-point range, or bottom for an
      infinite bound. */
  function FromBound(b: Bound): (r: Interval)
    ensures WF(r)
    ensures forall a :: Contains(r, a) <==> b == Fin(a)
  {
    if IsInfinite(b) then Bottom() else Interval(b, b)
  }

  /** Constructor interval(n): the one-point range [n, n]. */
  function FromNumber(n: real): (r: Interval)
    ensures WF(r) && !IsBottom(r)
    ensures forall a :: Contains(r, a) <==> a == n
  {
    Interval(Fin(n), Fin(n))
  }

  /** Constructor interval(string): the one-point range of the parsed bound,
      bottom for "+oo" and "-oo". */
  function FromText(s: string, parse: string -> real): (r: Interval)
    ensures s == "+oo" || s == "-oo" ==> r == Bottom()
    ensures s != "+oo" && s != "-oo" ==> r == FromNumber(parse(s))
  {
    var b := FromString(s, parse);
    if IsInfinite(b) then Bottom() else Interval(b, b)
  }

  /** A point of a non-empty well-formed range. */
  function Witness(i: Interval): real
  {
    if i.lb.Fin? then i.lb.n else if i.ub.Fin? then i.ub.n else 0.0
  }

  /** A well-formed range is empty exactly when it is bottom, and is top,
      holding every number, exactly when is_top holds. */
  lemma WFMeaning(i: Interval)
    requires WF(i)
    ensures !IsBottom(i) ==> Contains(i, Witness(i))
    ensures IsBottom(i) ==> forall a :: !Contains(i, a)
    ensures IsTop(i) <==> i == Top()
    ensures IsTop(i) <==> forall a :: Contains(i, a)
  {
    if IsBottom(i) {
      forall a ensures !Contains(i, a) {
      }
    } else {
      assert Contains(i, Witness(i));
      if !IsTop(i) {
        NotTopMisses(i);
      }
    }
  }

  /** A non-empty range with a finite end misses the number one step
      beyond that end. */
  lemma NotTopMisses(i: Interval)
    requires WF(i) && !IsBottom(i) && !IsTop(i)
    ensures i != Top()
    ensures !Contains(i, if i.lb.Fin? then i.lb.n - 1.0 else i.ub.n + 1.0)
  {
    if i.lb.Fin? {
      assert !Le(i.lb, Fin(i.lb.n - 1.0));
    } else {
      assert i.ub.Fin?;
      assert !Le(Fin(i.ub.n + 1.0), i.ub);
    }
  }

  /** singleton: the number of a non-empty one-point range. */
  function Singleton(i: Interval): (r: Option<real>)
    ensures r.Some? ==> Contains(i, r.value) && forall a :: Contains(i, a) ==> a == r.value
    ensures WF(i) && r.None? ==> IsBottom(i) || exists a, b :: a != b && Contains(i, a) && Contains(i, b)
  {
    if !IsBottom(i) && i.lb == i.ub then Number(i.lb)
    else
      if WF(i) && !IsBottom(i) then
        TwoPoints(i);
        None
      else None
  }

  lemma TwoPoints(i: Interval)
    requires WF(i) && !IsBottom(i) && i.lb != i.ub
    ensures exists a, b :: a != b && Contains(i, a) && Contains(i, b)
  {
    if i.lb.Fin? && i.ub.Fin? {
      assert Contains(i, i.lb.n) && Contains(i, i.ub.n);
    } else if i.lb.Fin? {
      assert Contains(i, i.lb.n) && Contains(i, i.lb.n + 1.0);
    } else if i.ub.Fin? {
      assert Contains(i, i.ub.n) && Contains(i, i.ub.n - 1.0);
    } else {
      assert Contains(i, 0.0) && Contains(i, 1.0);
    }
  }

  /** lower_half_line: everything up to ub. */
  function LowerHalfLine(i: Interval): (r: Interval)
    ensures forall a :: Contains(r, a) <==> Le(Fin(a), i.ub)
  {
    Make(NInf, i.ub)
  }

  /** upper_half_line: everything from lb on. */
  function UpperHalfLine(i: Interval): (r: Interval)
    ensures forall a :: Contains(r, a) <==> Le(i.lb, Fin(a))
  {
    Make(i.lb, PInf)
  }

  // ---------------------------------------------------------------------
  // Lattice

  /** operator<=: bottom is below everything, nothing non-empty is below
      bottom, otherwise the ranges nest. */
  predicate Leq(x: Interval, y: Interval) {
    if IsBottom(x) then true
    else if IsBottom(y) then false
    else Le(y.lb, x.lb) && Le(x.ub, y.ub)
  }

  /** On well-formed ranges the order is inclusion of the numbers held. */
  lemma LeqMeaning(x: Interval, y: Interval)
    requires WF(x) && WF(y)
    ensures Leq(x, y) <==> forall a :: Contains(x, a) ==> Contains(y, a)
  {
    if !Leq(x, y) {
      var a := Escapee(x, y);
      assert Contains(x, a) && !Contains(y, a);
    }
  }

  /** A number of x outside y, for x not below y. */
  function Escapee(x: Interval, y: Interval): (a: real)
    requires WF(x) && WF(y) && !Leq(x, y)
    ensures Contains(x, a) && !Contains(y, a)
  {
    WFMeaning(x);
    if IsBottom(y) then Witness(x)
    else if Lt(x.lb, y.lb) then
      if x.lb.Fin? then x.lb.n
      else if x.ub.Fin? && x.ub.n < y.lb.n then x.ub.n
      else y.lb.n - 1.0
    else
      if x.ub.Fin? then x.ub.n
      else if x.lb.Fin? && y.ub.n < x.lb.n then x.lb.n
      else y.ub.n + 1.0
  }

  /** operator==: two bottoms are equal, otherwise the bounds must agree. On
      well-formed ranges this is <= both ways. */
  predicate Eq(x: Interval, y: Interval): (b: bool)
    ensures WF(x) && WF(y) ==> (b <==> Leq(x, y) && Leq(y, x))
  {
    if IsBottom(x) then IsBottom(y) else x.lb == y.lb && x.ub == y.ub
  }

  /** operator| (join): bottom is the identity, otherwise the smallest range
      holding both. */
  function Join(x: Interval, y: Interval): (r: Interval)
    ensures Leq(x, r) && Leq(y, r)
    ensures IsBottom(x) ==> r == y
    ensures IsBottom(y) && !IsBottom(x) ==> r == x
    ensures WF(x) && WF(y) ==> WF(r)
    ensures IsZ(x) && IsZ(y) ==> IsZ(r)
    ensures forall a :: Contains(x, a) || Contains(y, a) ==> Contains(r, a)
  {
    if IsBottom(x) then y
    else if IsBottom(y) then x
    else Make(Min(x.lb, y.lb), Max(x.ub, y.ub))
  }

  /** The join is the least upper bound. */
  lemma JoinLeast(x: Interval, y: Interval, z: Interval)
    requires Leq(x, z) && Leq(y, z)
    ensures Leq(Join(x, y), z)
  {
  }

  /** On well-formed ranges the join is commutative, associative and
      idempotent. */
  lemma JoinLaws(x: Interval, y: Interval, z: Interval)
    requires WF(x) && WF(y) && WF(z)
    ensures Join(x, y) == Join(y, x)
    ensures Join(Join(x, y), z) == Join(x, Join(y, z))
    ensures Join(x, x) == x
  {
    JoinCommutes(x, y);
    JoinAssociates(x, y, z);
    JoinIdempotent(x);
  }

  lemma JoinCommutes(x: Interval, y: Interval)
    requires WF(x) && WF(y)
    ensures Join(x, y) == Join(y, x)
  {
    if !IsBottom(x) && !IsBottom(y) {
      LeTotalOrder(x.lb, y.lb, y.lb);
      LeTotalOrder(x.ub, y.ub, y.ub);
    }
  }

  lemma JoinAssociates(x: Interval, y: Interval, z: Interval)
    requires WF(x) && WF(y) && WF(z)
    ensures Join(Join(x, y), z) == Join(x, Join(y, z))
  {
    if !IsBottom(x) && !IsBottom(y) && !IsBottom(z) {
      JoinOfRanges(x, y);
      JoinOfRanges(y, z);
      JoinOfRanges(Join(x, y), z);
      JoinOfRanges(x, Join(y, z));
      LeTotalOrder(x.lb, y.lb, z.lb);
      LeTotalOrder(x.ub, y.ub, z.ub);
    }
  }

  /** The join of two non-empty ranges is the range from the lesser lower
      bound to the greater upper bound. */
  lemma JoinOfRanges(x: Interval, y: Interval)
    requires !IsBottom(x) && !IsBottom(y)
    ensures Join(x, y) == Interval(Min(x.lb, y.lb), Max(x.ub, y.ub))
  {
    LeTotalOrder(Min(x.lb, y.lb), x.lb, x.ub);
    LeTotalOrder(x.ub, x.ub, Max(x.ub, y.ub));
    LeTotalOrder(Min(x.lb, y.lb), x.ub, Max(x.ub, y.ub));
  }

  lemma JoinIdempotent(x: Interval)
    requires WF(x)
    ensures Join(x, x) == x
  {
  }

  /** operator& (meet): bottom absorbs, otherwise the overlap of the two
      ranges, which holds exactly the numbers both hold. */
  function Meet(x: Interval, y: Interval): (r: Interval)
    ensures Leq(r, x) && Leq(r, y)
    ensures IsBottom(x) || IsBottom(y) ==> r == Bottom()
    ensures forall a :: Contains(r, a) <==> Contains(x, a) && Contains(y, a)
    ensures WF(x) && WF(y) ==> WF(r)
    ensures IsZ(x) && IsZ(y) ==> IsZ(r)
  {
    if IsBottom(x) || IsBottom(y) then Bottom()
    else Make(Max(x.lb, y.lb), Min(x.ub, y.ub))
  }

  /** The meet is the greatest lower bound. */
  lemma MeetGreatest(x: Interval, y: Interval, z: Interval)
    requires Leq(z, x) && Leq(z, y)
    ensures Leq(z, Meet(x, y))
  {
  }

  /** Two well-formed ranges holding the same numbers are the same range. */
  lemma Extensionality(x: Interval, y: Interval)
    requires WF(x) && WF(y)
    requires forall a :: Contains(x, a) <==> Contains(y, a)
    ensures x == y
  {
    LeqMeaning(x, y);
    LeqMeaning(y, x);
    LeTotalOrder(x.lb, y.lb, x.lb);
    LeTotalOrder(x.ub, y.ub, x.ub);
  }

  /** On well-formed ranges the meet is commutative, associative and
      idempotent. */
  lemma MeetLaws(x: Interval, y: Interval, z: Interval)
    requires WF(x) && WF(y) && WF(z)
    ensures Meet(x, y) == Meet(y, x)
    ensures Meet(Meet(x, y), z) == Meet(x, Meet(y, z))
    ensures Meet(x, x) == x
  {
    Extensionality(Meet(x, y), Meet(y, x));
    Extensionality(Meet(Meet(x, y), z), Meet(x, Meet(y, z)));
    Extensionality(Meet(x, x), x);
  }

  /** operator|| (widening): a bound of x that y exceeds jumps to the
      matching infinity, a bound y does not exceed stays. */
  function Widen(x: Interval, y: Interval): (r: Interval)
    ensures Leq(x, r) && Leq(y, r)
    ensures !IsBottom(x) && !IsBottom(y) ==> (r.lb == x.lb || r.lb == NInf) && (r.ub == x.ub || r.ub == PInf)
    ensures !IsBottom(x) && !IsBottom(y) ==> r.lb == (if Lt(y.lb, x.lb) then NInf else x.lb)
    ensures !IsBottom(x) && !IsBottom(y) ==> r.ub == (if Lt(x.ub, y.ub) then PInf else x.ub)
    ensures WF(x) && WF(y) ==> WF(r)
    ensures IsZ(x) && IsZ(y) ==> IsZ(r)
  {
    if IsBottom(x) then y
    else if IsBottom(y) then x
    else Make(if Lt(y.lb, x.lb) then NInf else x.lb,
              if Lt(x.ub, y.ub) then PInf else x.ub)
  }

  /** The number of finite bounds of a non-empty range. */
  function FiniteBounds(i: Interval): nat {
    (if i.lb.Fin? then 1 else 0) + (if i.ub.Fin? then 1 else 0)
  }

  /** Widening stabilises: once y adds nothing to x the result is x, and
      otherwise x loses a finite bound, which can happen at most twice. */
  lemma WidenStabilises(x: Interval, y: Interval)
    requires WF(x) && WF(y) && !IsBottom(x)
    ensures Leq(y, x) ==> Widen(x, y) == x
    ensures !Leq(y, x) ==> !IsBottom(Widen(x, y)) && FiniteBounds(Widen(x, y)) < FiniteBounds(x)
  {
  }

  /** widening_thresholds: like widening, but a bound that grows moves to the
      next threshold beyond y's bound (prev below, next above) instead of the
      infinity. */
  function WidenThresholds(x: Interval, y: Interval, prev: Bound -> Bound, next: Bound -> Bound): (r: Interval)
    ensures IsBottom(x) ==> r == y
    ensures (forall b :: Le(prev(b), b)) && (forall b :: Le(b, next(b))) ==> Leq(x, r) && Leq(y, r)
    ensures (forall b :: prev(b) == NInf) && (forall b :: next(b) == PInf) ==> r == Widen(x, y)
    ensures WF(x) && WF(y) && (forall b :: Le(prev(b), b)) && (forall b :: Le(b, next(b))) ==> Leq(r, Widen(x, y))
  {
    if IsBottom(x) then y
    else if IsBottom(y) then x
    else Make(if Lt(y.lb, x.lb) then prev(y.lb) else x.lb,
              if Lt(x.ub, y.ub) then next(y.ub) else x.ub)
  }

  /** operator&& (narrowing): an infinite bound of x is replaced by y's
      finite one; finite bounds of x stay. The result lies between the meet
      and x. */
  function Narrow(x: Interval, y: Interval): (r: Interval)
    ensures IsBottom(x) || IsBottom(y) ==> r == Bottom()
    ensures !IsBottom(x) && !IsBottom(y) && x.lb.Fin? && x.ub.Fin? ==> r == x
    ensures !IsBottom(r) ==> (x.lb.Fin? ==> r.lb == x.lb) && (x.ub.Fin? ==> r.ub == x.ub)
    ensures !IsBottom(r) && IsInfinite(x.lb) ==> r.lb == (if y.lb.Fin? then y.lb else x.lb)
    ensures !IsBottom(r) && IsInfinite(x.ub) ==> r.ub == (if y.ub.Fin? then y.ub else x.ub)
    ensures WF(x) ==> Leq(r, x)
    ensures WF(x) && WF(y) ==> Leq(Meet(x, y), r) && WF(r)
    ensures IsZ(x) && IsZ(y) ==> IsZ(r)
  {
    if IsBottom(x) || IsBottom(y) then Bottom()
    else Make(if IsInfinite(x.lb) && y.lb.Fin? then y.lb else x.lb,
              if IsInfinite(x.ub) && y.ub.Fin? then y.ub else x.ub)
  }

  // ---------------------------------------------------------------------
  // Arithmetic

  /** The sum reaches the fatal -oo + +oo only on a pair the well-formed
      shapes exclude. */
  predicate AddSafe(x: Interval, y: Interval) {
    IsBottom(x) || IsBottom(y) || (CanAdd(x.lb, y.lb) && CanAdd(x.ub, y.ub))
  }

  lemma AddSafeOnWF(x: Interval, y: Interval)
    requires WF(x) && WF(y)
    ensures AddSafe(x, y)
  {
  }

  /** operator+: the bounds add. */
  function Add(x: Interval, y: Interval): (r: Interval)
    requires AddSafe(x, y)
    ensures IsBottom(x) || IsBottom(y) ==> r == Bottom()
    ensures WF(x) && WF(y) ==> WF(r)
    ensures IsZ(x) && IsZ(y) ==> IsZ(r)
  {
    if IsBottom(x) || IsBottom(y) then Bottom()
    else
      IntBoundClosed(x.lb, y.lb);
      IntBoundClosed(x.ub, y.ub);
      Make(Bounds.Add(x.lb, y.lb), Bounds.Add(x.ub, y.ub))
  }

  /** a in x and b in y imply a + b in x + y. */
  lemma AddSound(x: Interval, y: Interval, a: real, b: real)
    requires AddSafe(x, y)
    requires Contains(x, a) && Contains(y, b)
    ensures Contains(Add(x, y), a + b)
  {
  }

  /** Unary operator-: the bounds swap and negate. */
  function Neg(x: Interval): (r: Interval)
    ensures IsBottom(x) ==> r == Bottom()
    ensures forall a :: Contains(x, a) <==> Contains(r, -a)
    ensures WF(x) ==> WF(r)
    ensures IsZ(x) ==> IsZ(r)
  {
    if IsBottom(x) then Bottom()
    else
      IntBoundClosed(x.lb, x.lb);
      IntBoundClosed(x.ub, x.ub);
      var r := Make(Bounds.Neg(x.ub), Bounds.Neg(x.lb));
      assert forall a :: Contains(x, a) <==> Contains(r, -a) by {
        forall a ensures Contains(x, a) <==> Contains(r, -a) {
          NegContains(x, a);
        }
      }
      r
  }

  /** Negation reverses the order, so a lies in x exactly when -a lies
      between the negated bounds. */
  lemma NegContains(x: Interval, a: real)
    requires !IsBottom(x)
    ensures Contains(x, a) <==> Le(Bounds.Neg(x.ub), Fin(-a)) && Le(Fin(-a), Bounds.Neg(x.lb))
  {
    NegOrder(x.lb, Fin(a));
    NegOrder(Fin(a), x.ub);
    assert Bounds.Neg(Fin(a)) == Fin(-a);
  }

  /** The difference reaches the fatal case only outside the well-formed
      shapes. */
  predicate SubSafe(x: Interval, y: Interval) {
    IsBottom(x) || IsBottom(y) || (CanSub(x.lb, y.ub) && CanSub(x.ub, y.lb))
  }

  lemma SubSafeOnWF(x: Interval, y: Interval)
    requires WF(x) && WF(y)
    ensures SubSafe(x, y)
  {
  }

  /** Binary operator-: lb - y.ub and ub - y.lb. */
  function Sub(x: Interval, y: Interval): (r: Interval)
    requires SubSafe(x, y)
    ensures IsBottom(x) || IsBottom(y) ==> r == Bottom()
    ensures WF(x) && WF(y) ==> WF(r)
    ensures IsZ(x) && IsZ(y) ==> IsZ(r)
  {
    if IsBottom(x) || IsBottom(y) then Bottom()
    else
      IntBoundClosed(x.lb, y.ub);
      IntBoundClosed(x.ub, y.lb);
      Make(Bounds.Sub(x.lb, y.ub), Bounds.Sub(x.ub, y.lb))
  }

  /** a in x and b in y imply a - b in x - y. */
  lemma SubSound(x: Interval, y: Interval, a: real, b: real)
    requires SubSafe(x, y)
    requires Contains(x, a) && Contains(y, b)
    ensures Contains(Sub(x, y), a - b)
  {
  }

  /** operator*: least and greatest of the four corner products. */
  function Mul(x: Interval, y: Interval): (r: Interval)
    ensures IsBottom(x) || IsBottom(y) ==> r == Bottom()
    ensures WF(x) && WF(y) ==> WF(r)
    ensures IsZ(x) && IsZ(y) ==> IsZ(r)
  {
    if IsBottom(x) || IsBottom(y) then Bottom()
    else
      MulShape(x, y);
      Make(Min4(Bounds.Mul(x.lb, y.lb), Bounds.Mul(x.lb, y.ub), Bounds.Mul(x.ub, y.lb), Bounds.Mul(x.ub, y.ub)),
           Max4(Bounds.Mul(x.lb, y.lb), Bounds.Mul(x.lb, y.ub), Bounds.Mul(x.ub, y.lb), Bounds.Mul(x.ub, y.ub)))
  }

  lemma MulShape(x: Interval, y: Interval)
    requires !IsBottom(x) && !IsBottom(y)
    ensures var lo := Min4(Bounds.Mul(x.lb, y.lb), Bounds.Mul(x.lb, y.ub), Bounds.Mul(x.ub, y.lb), Bounds.Mul(x.ub, y.ub));
      var hi := Max4(Bounds.Mul(x.lb, y.lb), Bounds.Mul(x.lb, y.ub), Bounds.Mul(x.ub, y.lb), Bounds.Mul(x.ub, y.ub));
      (WF(x) && WF(y) ==> lo != PInf && hi != NInf) &&
      (IsZ(x) && IsZ(y) ==> IntBound(lo) && IntBound(hi))
  {
    if IsZ(x) && IsZ(y) {
      IntBoundClosed(x.lb, y.lb);
      IntBoundClosed(x.lb, y.ub);
      IntBoundClosed(x.ub, y.lb);
      IntBoundClosed(x.ub, y.ub);
      CornersInt(Bounds.Mul(x.lb, y.lb), Bounds.Mul(x.lb, y.ub), Bounds.Mul(x.ub, y.lb), Bounds.Mul(x.ub, y.ub));
    }
    if WF(x) && WF(y) {
      MulNotEmpty(x, y);
    }
  }

  lemma CornersInt(a: Bound, b: Bound, c: Bound, d: Bound)
    requires IntBound(a) && IntBound(b) && IntBound(c) && IntBound(d)
    ensures IntBound(Min4(a, b, c, d)) && IntBound(Max4(a, b, c, d))
  {
  }

  lemma MulNotEmpty(x: Interval, y: Interval)
    requires WF(x) && WF(y) && !IsBottom(x) && !IsBottom(y)
    ensures Min4(Bounds.Mul(x.lb, y.lb), Bounds.Mul(x.lb, y.ub), Bounds.Mul(x.ub, y.lb), Bounds.Mul(x.ub, y.ub)) != PInf
    ensures Max4(Bounds.Mul(x.lb, y.lb), Bounds.Mul(x.lb, y.ub), Bounds.Mul(x.ub, y.lb), Bounds.Mul(x.ub, y.ub)) != NInf
  {
    WFMeaning(x);
    WFMeaning(y);
    CornersBetween(x, y, Witness(x), Witness(y));
  }

  /** The product of members of x and y lies between the least and the
      greatest corner product. */
  lemma CornersBetween(x: Interval, y: Interval, a: real, b: real)
    requires Contains(x, a) && Contains(y, b)
    ensures var ll := Bounds.Mul(x.lb, y.lb);
      var lu := Bounds.Mul(x.lb, y.ub);
      var ul := Bounds.Mul(x.ub, y.lb);
      var uu := Bounds.Mul(x.ub, y.ub);
      Le(Min4(ll, lu, ul, uu), Fin(a * b)) && Le(Fin(a * b), Max4(ll, lu, ul, uu))
  {
    assert Fin(a * b) == Bounds.Mul(Fin(a), Fin(b));
    MulCornersLow(Fin(a), Fin(b), x.lb, x.ub, y.lb, y.ub);
    MulCornersHigh(Fin(a), Fin(b), x.lb, x.ub, y.lb, y.ub);
  }

  /** a in x and b in y imply a * b in x * y, infinite bounds included. */
  lemma MulSound(x: Interval, y: Interval, a: real, b: real)
    requires Contains(x, a) && Contains(y, b)
    ensures Contains(Mul(x, y), a * b)
  {
    CornersBetween(x, y, a, b);
  }

  /** The operators crab gives no precise meaning for an
      instantiation (UDiv, and for rationals SRem, URem, And, Or, Xor, Shl,
      LShr and AShr): bottom if either side is bottom, top otherwise, which
      holds whatever the concrete result is. */
  function TopUnlessBottom(x: Interval, y: Interval): (r: Interval)
    ensures IsBottom(x) || IsBottom(y) ==> r == Bottom()
    ensures !IsBottom(x) && !IsBottom(y) ==> forall a :: Contains(r, a)
    ensures WF(r) && IsZ(r)
  {
    if IsBottom(x) || IsBottom(y) then Bottom() else Top()
  }
}

=== FILE: interval_bitwise.dfy ===
/** The bitwise and shift operators of z_interval. Integers are read as
    two's-complement numbers of unbounded width, as GMP does; a result is
    sound when it holds the operator's value on every pair of members. */
module IntervalBitwise {
  import opened Numbers
  import opened Options
  import opened Bounds
  import opened Intervals
  import IntervalDivision

  /** Shift amounts above this bound are not computed: the result is top. */
  const MaxShift: nat := 128

  /** The integer of a singleton z_interval. */
  function Point(i: Interval): (n: int)
    requires IsZ(i) && Singleton(i).Some?
    ensures Contains(i, n as real)
  {
    Singleton(i).value.Floor
  }

  lemma PointIsMember(i: Interval, a: int)
    requires IsZ(i) && Singleton(i).Some? && Contains(i, a as real)
    ensures Point(i) == a
  {
  }

  /** z_interval::And: for two singletons the bitwise and; for two
      non-negative operands [0, min of the upper bounds]; top otherwise. */
  function And(x: Interval, y: Interval): (r: Interval)
    requires IsZ(x) && IsZ(y)
    ensures WF(r) && IsZ(r)
    ensures IsBottom(x) || IsBottom(y) ==> r == Bottom()
    ensures Singleton(x).Some? && Singleton(y).Some? ==> r == FromNumber(BitAnd(Point(x), Point(y)) as real)
    ensures !IsBottom(x) && !IsBottom(y) && !(Singleton(x).Some? && Singleton(y).Some?) ==>
      if Ge(x.lb, Fin(0.0)) && Ge(y.lb, Fin(0.0)) then
        forall t :: Contains(r, t) <==> 0.0 <= t && Le(Fin(t), Min(x.ub, y.ub))
      else r == Top()
  {
    IntOfInt(0);
    if IsBottom(x) || IsBottom(y) then Bottom()
    else if Singleton(x).Some? && Singleton(y).Some? then
      IntOfInt(BitAnd(Point(x), Point(y)));
      FromNumber(BitAnd(Point(x), Point(y)) as real)
    else if Ge(x.lb, Fin(0.0)) && Ge(y.lb, Fin(0.0)) then
      Make(Fin(0.0), Min(x.ub, y.ub))
    else Top()
  }

  /** The bitwise and of members is in the result. */
  lemma AndSound(x: Interval, y: Interval, a: int, b: int)
    requires IsZ(x) && IsZ(y)
    requires Contains(x, a as real) && Contains(y, b as real)
    ensures Contains(And(x, y), BitAnd(a, b) as real)
  {
    if Singleton(x).Some? && Singleton(y).Some? {
      PointIsMember(x, a);
      PointIsMember(y, b);
    } else if Ge(x.lb, Fin(0.0)) && Ge(y.lb, Fin(0.0)) {
      BitAndRange(a, b);
    }
  }

  /** z_interval::Or: for two singletons the bitwise or; for two
      non-negative operands with finite upper bounds [0, fill_ones of the
      larger one], with an infinite one [0, +oo]; top otherwise. */
  function Or(x: Interval, y: Interval): (r: Interval)
    requires IsZ(x) && IsZ(y)
    ensures WF(r) && IsZ(r)
    ensures IsBottom(x) || IsBottom(y) ==> r == Bottom()
    ensures Singleton(x).Some? && Singleton(y).Some? ==> r == FromNumber(BitOr(Point(x), Point(y)) as real)
    ensures !IsBottom(x) && !IsBottom(y) && !(Singleton(x).Some? && Singleton(y).Some?) ==>
      if Ge(x.lb, Fin(0.0)) && Ge(y.lb, Fin(0.0)) then
        if x.ub.Fin? && y.ub.Fin? then
          var m := if x.ub.n > y.ub.n then x.ub.n else y.ub.n;
          forall t :: Contains(r, t) <==> 0.0 <= t <= FillOnes(m.Floor) as real
        else
          forall t :: Contains(r, t) <==> 0.0 <= t
      else r == Top()
  {
    IntOfInt(0);
    if IsBottom(x) || IsBottom(y) then Bottom()
    else if Singleton(x).Some? && Singleton(y).Some? then
      IntOfInt(BitOr(Point(x), Point(y)));
      FromNumber(BitOr(Point(x), Point(y)) as real)
    else if Ge(x.lb, Fin(0.0)) && Ge(y.lb, Fin(0.0)) then
      OrRange(x, y)
    else Top()
  }

  /** The non-negative path of Or: [0, fill_ones of the larger upper
      bound], or [0, +oo] when an upper bound is infinite. */
  function OrRange(x: Interval, y: Interval): (r: Interval)
    requires IsZ(x) && IsZ(y) && !IsBottom(x) && !IsBottom(y)
    requires Ge(x.lb, Fin(0.0)) && Ge(y.lb, Fin(0.0))
    ensures WF(r) && IsZ(r)
    ensures x.ub.Fin? && y.ub.Fin? ==>
      var m := if x.ub.n > y.ub.n then x.ub.n else y.ub.n;
      forall t :: Contains(r, t) <==> 0.0 <= t <= FillOnes(m.Floor) as real
    ensures !(x.ub.Fin? && y.ub.Fin?) ==> forall t :: Contains(r, t) <==> 0.0 <= t
  {
    IntOfInt(0);
    if x.ub.Fin? && y.ub.Fin? then
      var m := if x.ub.n > y.ub.n then x.ub.n else y.ub.n;
      IntOfInt(FillOnes(m.Floor));
      Make(Fin(0.0), Fin(FillOnes(m.Floor) as real))
    else Make(Fin(0.0), PInf)
  }

  /** The bitwise or of members is in the result. */
  lemma OrSound(x: Interval, y: Interval, a: int, b: int)
    requires IsZ(x) && IsZ(y)
    requires Contains(x, a as real) && Contains(y, b as real)
    ensures Contains(Or(x, y), BitOr(a, b) as real)
  {
    if Singleton(x).Some? && Singleton(y).Some? {
      PointIsMember(x, a);
      PointIsMember(y, b);
    } else if Ge(x.lb, Fin(0.0)) && Ge(y.lb, Fin(0.0)) {
      NonNegativeBelow(x, y, a, b);
    }
  }

  /** For non-negative members, both the or and the exclusive or lie within
      the range Or gives on the non-singleton path. */
  lemma NonNegativeBelow(x: Interval, y: Interval, a: int, b: int)
    requires IsZ(x) && IsZ(y)
    requires Contains(x, a as real) && Contains(y, b as real)
    requires Ge(x.lb, Fin(0.0)) && Ge(y.lb, Fin(0.0))
    ensures a >= 0 && b >= 0
    ensures x.ub.Fin? && y.ub.Fin? ==>
      var m := if x.ub.n > y.ub.n then x.ub.n else y.ub.n;
      0 <= BitXor(a, b) <= BitOr(a, b) <= FillOnes(m.Floor)
    ensures 0 <= BitXor(a, b) <= BitOr(a, b)
  {
    BitOrRange(a, b);
    BitXorRange(a, b);
    if x.ub.Fin? && y.ub.Fin? {
      var m := if x.ub.n > y.ub.n then x.ub.n else y.ub.n;
      var ab := if a > b then a else b;
      assert ab as real <= m;
      assert ab <= m.Floor;
      FillOnesMonotone(ab, m.Floor);
    }
  }

  /** z_interval::Xor: for two singletons the exclusive or, otherwise the
      result of Or. */
  function Xor(x: Interval, y: Interval): (r: Interval)
    requires IsZ(x) && IsZ(y)
    ensures WF(r) && IsZ(r)
    ensures IsBottom(x) || IsBottom(y) ==> r == Bottom()
    ensures Singleton(x).Some? && Singleton(y).Some? ==> r == FromNumber(BitXor(Point(x), Point(y)) as real)
    ensures !(Singleton(x).Some? && Singleton(y).Some?) ==> r == Or(x, y)
  {
    if IsBottom(x) || IsBottom(y) then Bottom()
    else if Singleton(x).Some? && Singleton(y).Some? then
      IntOfInt(BitXor(Point(x), Point(y)));
      FromNumber(BitXor(Point(x), Point(y)) as real)
    else Or(x, y)
  }

  /** The exclusive or of members is in the result. */
  lemma XorSound(x: Interval, y: Interval, a: int, b: int)
    requires IsZ(x) && IsZ(y)
    requires Contains(x, a as real) && Contains(y, b as real)
    ensures Contains(Xor(x, y), BitXor(a, b) as real)
  {
    if Singleton(x).Some? && Singleton(y).Some? {
      PointIsMember(x, a);
      PointIsMember(y, b);
    } else if Ge(x.lb, Fin(0.0)) && Ge(y.lb, Fin(0.0)) {
      NonNegativeBelow(x, y, a, b);
    }
  }

  // ---------------------------------------------------------------------
  // Shifts

  /** The shift amount: the amount interval's single value when it is a number in
      [0, MaxShift], nothing otherwise (the operators then give top). */
  function ShiftAmount(y: Interval): (k: Option<nat>)
    requires IsZ(y)
    ensures k.Some? ==> k.value <= MaxShift && Contains(y, k.value as real)
    ensures k.Some? ==> forall a :: Contains(y, a) ==> a == k.value as real
    ensures k.None? && !IsBottom(y) ==> Singleton(y).None? || Point(y) < 0 || Point(y) > MaxShift
  {
    if !IsBottom(y) && Singleton(y).Some? && 0 <= Point(y) <= MaxShift then Some(Point(y)) else None
  }

  /** z_interval::Shl: multiplication by 2^k for a singleton amount k in
      [0, 128]; top for any other amount. */
  function Shl(x: Interval, y: Interval): (r: Interval)
    requires IsZ(x) && IsZ(y)
    ensures IsZ(r)
    ensures WF(x) ==> WF(r)
    ensures IsBottom(x) || IsBottom(y) ==> r == Bottom()
    ensures !IsBottom(x) && !IsBottom(y) && ShiftAmount(y).None? ==> r == Top()
    ensures !IsBottom(x) && ShiftAmount(y).Some? ==>
      var p := Fin(Pow2(ShiftAmount(y).value) as real);
      r == Interval(Bounds.Mul(x.lb, p), Bounds.Mul(x.ub, p))
  {
    if IsBottom(x) || IsBottom(y) then Bottom()
    else
      match ShiftAmount(y)
      case Some(k) =>
        IntOfInt(Pow2(k));
        MulByPositive(x, Pow2(k) as real);
        Intervals.Mul(x, FromNumber(Pow2(k) as real))
      case None => Top()
  }

  /** Multiplying a non-empty range by a positive one-point interval scales
      both of its bounds. */
  lemma MulByPositive(x: Interval, p: real)
    requires !IsBottom(x) && p > 0.0
    ensures Intervals.Mul(x, FromNumber(p)) == Interval(Bounds.Mul(x.lb, Fin(p)), Bounds.Mul(x.ub, Fin(p)))
  {
    var lo, hi := Bounds.Mul(x.lb, Fin(p)), Bounds.Mul(x.ub, Fin(p));
    MulCommutes(x.lb, Fin(p));
    MulCommutes(x.ub, Fin(p));
    MulMonotone(Fin(p), x.lb, x.ub);
    LeTotalOrder(lo, hi, lo);
    assert Min4(lo, lo, hi, hi) == lo;
    assert Max4(lo, lo, hi, hi) == hi;
  }

  /** a << k, which is a * 2^k, is in the result for members a and k >= 0. */
  lemma ShlSound(x: Interval, y: Interval, a: int, k: int)
    requires IsZ(x) && IsZ(y)
    requires Contains(x, a as real) && Contains(y, k as real) && k >= 0
    ensures Contains(Shl(x, y), (a * Pow2(k)) as real)
  {
    var s := ShiftAmount(y);
    if s.Some? {
      assert s.value == k;
      ScaledMember(x, a, Pow2(k));
    }
  }

  lemma ScaledMember(x: Interval, a: int, p: int)
    requires Contains(x, a as real)
    ensures Contains(Intervals.Mul(x, FromNumber(p as real)), (a * p) as real)
  {
    ScaledMemberReal(x, a, p);
    IntProduct(a, p);
  }

  lemma ScaledMemberReal(x: Interval, a: int, p: int)
    requires Contains(x, a as real)
    ensures Contains(Intervals.Mul(x, FromNumber(p as real)), (a as real) * (p as real))
  {
    MulSound(x, FromNumber(p as real), a as real, p as real);
  }

  /** The arithmetic right shift of an integer, rounding toward -oo. */
  function ShiftRight(a: int, k: nat): (r: int)
    ensures k == 0 ==> r == a
    ensures r * Pow2(k) <= a < (r + 1) * Pow2(k)
  {
    a / Pow2(k)
  }

  /** A bound shifted right by k: infinities stay. */
  function ShrBound(b: Bound, k: nat): (r: Bound)
    requires IntBound(b)
    ensures IntBound(r)
    ensures IsInfinite(b) ==> r == b
    ensures b.Fin? ==> r == Fin(ShiftRight(b.n.Floor, k) as real)
  {
    match b
    case Fin(n) =>
      IntOfInt(ShiftRight(n.Floor, k));
      Fin(ShiftRight(n.Floor, k) as real)
    case _ => b
  }

  lemma ShrBoundMonotone(b1: Bound, b2: Bound, k: nat)
    requires IntBound(b1) && IntBound(b2) && Le(b1, b2)
    ensures Le(ShrBound(b1, k), ShrBound(b2, k))
  {
    if b1.Fin? && b2.Fin? {
      FloorDivMonotone(b1.n.Floor, b2.n.Floor, Pow2(k));
    }
  }

  /** z_interval::AShr as crab writes it: the interval divided by the
      singleton 2^k with the z_interval division, which truncates toward
      zero. This is the defect recorded under Findings: an arithmetic shift
      rounds toward -oo. */
  function AShrAsWritten(x: Interval, y: Interval): (r: Interval)
    requires WF(x) && WF(y) && IsZ(x) && IsZ(y)
    ensures IsZ(r)
    ensures IsBottom(x) || IsBottom(y) ==> r == Bottom()
  {
    if IsBottom(x) || IsBottom(y) then Bottom()
    else
      match ShiftAmount(y)
      case Some(k) =>
        IntOfInt(Pow2(k));
        IntervalDivision.ZDivAsWritten(x, FromNumber(Pow2(k) as real))
      case None => Top()
  }

  /** As written, [-1, -1] shifted right by 1 is [0, 0], but -1 >> 1 is -1. */
  lemma AShrAsWrittenRoundsTowardZero()
    ensures IsZ(FromNumber(-1.0)) && IsZ(FromNumber(1.0))
    ensures AShrAsWritten(FromNumber(-1.0), FromNumber(1.0)) == FromNumber(0.0)
    ensures ShiftRight(-1, 1) == -1
    ensures !Contains(AShrAsWritten(FromNumber(-1.0), FromNumber(1.0)), ShiftRight(-1, 1) as real)
    ensures AShr(FromNumber(-1.0), FromNumber(1.0)) == FromNumber(-1.0)
  {
    IntOfInt(-1);
    IntOfInt(1);
    IntOfInt(2);
    assert ShiftAmount(FromNumber(1.0)) == Some(1);
    assert Singleton(FromNumber(2.0)) == Some(2.0);
    assert DivAsWritten(Z, Fin(-1.0), Fin(2.0)) == Fin(0.0);
  }

  /** z_interval::AShr, corrected: both bounds shifted right, rounding
      toward -oo, for a singleton amount k in [0, 128]; top for any other
      amount. */
  function AShr(x: Interval, y: Interval): (r: Interval)
    requires IsZ(x) && IsZ(y)
    ensures IsZ(r)
    ensures WF(x) ==> WF(r)
    ensures IsBottom(x) || IsBottom(y) ==> r == Bottom()
    ensures !IsBottom(x) && !IsBottom(y) ==> !IsBottom(r)
    ensures !IsBottom(x) && !IsBottom(y) && ShiftAmount(y).None? ==> r == Top()
    ensures !IsBottom(x) && ShiftAmount(y).Some? ==>
      r == Interval(ShrBound(x.lb, ShiftAmount(y).value), ShrBound(x.ub, ShiftAmount(y).value))
  {
    if IsBottom(x) || IsBottom(y) then Bottom()
    else
      match ShiftAmount(y)
      case Some(k) =>
        ShrBoundMonotone(x.lb, x.ub, k);
        Make(ShrBound(x.lb, k), ShrBound(x.ub, k))
      case None => Top()
  }

  /** a >> k is in the result for members a and k >= 0. */
  lemma AShrSound(x: Interval, y: Interval, a: int, k: int)
    requires IsZ(x) && IsZ(y)
    requires Contains(x, a as real) && Contains(y, k as real) && k >= 0
    ensures Contains(AShr(x, y), ShiftRight(a, k) as real)
  {
    var s := ShiftAmount(y);
    if s.Some? {
      assert s.value == k;
      IntOfInt(a);
      ShrBoundMonotone(x.lb, Fin(a as real), k);
      ShrBoundMonotone(Fin(a as real), x.ub, k);
    }
  }

  /** z_interval::LShr: for a singleton amount k in [0, 128] and a
      non-negative dividend with a finite upper bound, both bounds shifted
      right; top otherwise, since a negative number's unsigned reading
      depends on a width the domain does not know. */
  function LShr(x: Interval, y: Interval): (r: Interval)
    requires IsZ(x) && IsZ(y)
    ensures WF(r) && IsZ(r)
    ensures IsBottom(x) || IsBottom(y) ==> r == Bottom()
    ensures !IsBottom(x) && !IsBottom(y) && (ShiftAmount(y).None? || Lt(x.lb, Fin(0.0)) || IsInfinite(x.ub)) ==> r == Top()
    ensures !IsBottom(x) && ShiftAmount(y).Some? && Ge(x.lb, Fin(0.0)) && x.ub.Fin? ==>
      r == Interval(ShrBound(x.lb, ShiftAmount(y).value), ShrBound(x.ub, ShiftAmount(y).value))
  {
    if IsBottom(x) || IsBottom(y) then Bottom()
    else
      match ShiftAmount(y)
      case Some(k) =>
        if Ge(x.lb, Fin(0.0)) && x.ub.Fin? then
          ShrBoundMonotone(x.lb, x.ub, k);
          Make(ShrBound(x.lb, k), ShrBound(x.ub, k))
        else Top()
      case None => Top()
  }

  /** For a non-negative member a the logical shift a >> k is in the
      result; a negative member makes the result top. */
  lemma LShrSound(x: Interval, y: Interval, a: int, k: int)
    requires IsZ(x) && IsZ(y)
    requires Contains(x, a as real) && Contains(y, k as real) && k >= 0
    ensures a >= 0 ==> Contains(LShr(x, y), ShiftRight(a, k) as real)
    ensures a < 0 ==> LShr(x, y) == Top()
  {
    var s := ShiftAmount(y);
    if s.Some? {
      assert s.value == k;
      IntOfInt(a);
      ShrBoundMonotone(x.lb, Fin(a as real), k);
      ShrBoundMonotone(Fin(a as real), x.ub, k);
    }
  }
}

=== FILE: interval_division.dfy ===
/** Division of intervals: operator/ of q_interval and z_interval, and the
    z_interval remainders SRem and URem. A quotient is sound when it holds
    a / b for every a of the dividend and every non-zero b of the divisor
    (exact division for rationals, truncation toward zero for integers). */
module IntervalDivision {
  import opened Numbers
  import opened Options
  import opened Bounds
  import opened Intervals

  /** A non-empty interval that does not hold zero: all its members, and
      both its bounds, have one strict sign. */
  predicate ExcludesZero(y: Interval) {
    !IsBottom(y) && !Contains(y, 0.0)
  }

  lemma ExcludesZeroSign(y: Interval)
    requires ExcludesZero(y)
    ensures Sign(y.lb) > 0 || Sign(y.ub) < 0
    ensures y.lb != Fin(0.0) && y.ub != Fin(0.0)
  {
  }

  /** The interval spanned by the four corner quotients, as crab
      computes it when the divisor excludes zero, with the corrected bound
      division. */
  function Corners(k: NumKind, x: Interval, y: Interval): (r: Interval)
    requires ExcludesZero(y)
    requires k == Z ==> IsZ(x) && IsZ(y)
    ensures k == Z ==> IsZ(r)
  {
    ExcludesZeroSign(y);
    var ll := Div(k, x.lb, y.lb);
    var lu := Div(k, x.lb, y.ub);
    var ul := Div(k, x.ub, y.lb);
    var uu := Div(k, x.ub, y.ub);
    if k == Z then
      CornersInt(ll, lu, ul, uu);
      Make(Min4(ll, lu, ul, uu), Max4(ll, lu, ul, uu))
    else
      Make(Min4(ll, lu, ul, uu), Max4(ll, lu, ul, uu))
  }

  /** The corner quotients bound every quotient of members; so a
      well-formed non-empty dividend gives a well-formed non-empty result. */
  lemma CornersSound(k: NumKind, x: Interval, y: Interval, a: real, b: real)
    requires ExcludesZero(y)
    requires k == Z ==> IsZ(x) && IsZ(y) && IsInt(a) && IsInt(b)
    requires Contains(x, a) && Contains(y, b)
    ensures b != 0.0
    ensures Contains(Corners(k, x, y), NumDiv(k, a, b))
  {
    ExcludesZeroSign(y);
    DivCornersLow(k, Fin(a), Fin(b), x.lb, x.ub, y.lb, y.ub);
    DivCornersHigh(k, Fin(a), Fin(b), x.lb, x.ub, y.lb, y.ub);
  }

  lemma CornersWF(k: NumKind, x: Interval, y: Interval)
    requires ExcludesZero(y) && WF(x) && WF(y)
    requires k == Z ==> IsZ(x) && IsZ(y)
    ensures WF(Corners(k, x, y))
    ensures !IsBottom(x) ==> !IsBottom(Corners(k, x, y))
  {
    if !IsBottom(x) {
      WFMeaning(x);
      WFMeaning(y);
      var a, b := Witness(x), Witness(y);
      if k == Z {
        assert IsInt(a) && IsInt(b);
      }
      CornersSound(k, x, y, a, b);
    } else {
      ExcludesZeroSign(y);
    }
  }

  /** The corner interval with bound division as crab writes it. */
  function CornersAsWritten(k: NumKind, x: Interval, y: Interval): (r: Interval)
    requires ExcludesZero(y)
    requires k == Z ==> IsZ(x) && IsZ(y)
    ensures k == Z ==> IsZ(r)
  {
    ExcludesZeroSign(y);
    var ll := DivAsWritten(k, x.lb, y.lb);
    var lu := DivAsWritten(k, x.lb, y.ub);
    var ul := DivAsWritten(k, x.ub, y.lb);
    var uu := DivAsWritten(k, x.ub, y.ub);
    if k == Z then
      CornersInt(ll, lu, ul, uu);
      Make(Min4(ll, lu, ul, uu), Max4(ll, lu, ul, uu))
    else
      Make(Min4(ll, lu, ul, uu), Max4(ll, lu, ul, uu))
  }

  // ---------------------------------------------------------------------
  // q_interval::operator/

  /** q_interval division, corrected: a divisor that is exactly zero gives
      bottom; a divisor holding zero gives top, except that zero divided by
      anything is zero; otherwise the corner quotients. */
  function QDiv(x: Interval, y: Interval): (r: Interval)
    ensures IsBottom(x) || IsBottom(y) || y == FromNumber(0.0) ==> r == Bottom()
    ensures !IsBottom(x) && !IsBottom(y) && y != FromNumber(0.0) && Contains(y, 0.0) ==>
      if x == FromNumber(0.0) then forall t :: Contains(r, t) <==> t == 0.0 else r == Top()
    ensures !IsBottom(x) && ExcludesZero(y) ==> r == Corners(Q, x, y)
    ensures WF(x) && WF(y) ==> WF(r)
  {
    if IsBottom(x) || IsBottom(y) then Bottom()
    else if Singleton(y) == Some(0.0) then Bottom()
    else if Contains(y, 0.0) then
      if Singleton(x) == Some(0.0) then FromNumber(0.0) else Top()
    else if WF(x) && WF(y) then
      CornersWF(Q, x, y);
      Corners(Q, x, y)
    else Corners(Q, x, y)
  }

  /** Every quotient a / b of members, b non-zero, is in the result. */
  lemma QDivSound(x: Interval, y: Interval, a: real, b: real)
    requires Contains(x, a) && Contains(y, b) && b != 0.0
    ensures Contains(QDiv(x, y), a / b)
  {
    if !Contains(y, 0.0) {
      CornersSound(Q, x, y, a, b);
    } else if Singleton(y) != Some(0.0) && Singleton(x) == Some(0.0) {
      assert a == 0.0;
    }
  }

  /** q_interval division as crab writes it, with the bound division
      that sends a finite value over an infinity to that infinity. */
  function QDivAsWritten(x: Interval, y: Interval): (r: Interval)
    ensures IsBottom(x) || IsBottom(y) ==> r == Bottom()
  {
    if IsBottom(x) || IsBottom(y) then Bottom()
    else if Singleton(y) == Some(0.0) then Bottom()
    else if Contains(y, 0.0) then
      if Singleton(x) == Some(0.0) then FromNumber(0.0) else Top()
    else CornersAsWritten(Q, x, y)
  }

  /** As written, [5, 10] / [-oo, -1] is [-oo, -5], which misses 5 / -10.
      The corrected division gives [-10, 0], which holds it. */
  lemma QDivAsWrittenMissesQuotient()
    ensures Contains(Interval(Fin(5.0), Fin(10.0)), 5.0)
    ensures Contains(Interval(NInf, Fin(-1.0)), -10.0)
    ensures QDivAsWritten(Interval(Fin(5.0), Fin(10.0)), Interval(NInf, Fin(-1.0))) == Interval(NInf, Fin(-5.0))
    ensures !Contains(QDivAsWritten(Interval(Fin(5.0), Fin(10.0)), Interval(NInf, Fin(-1.0))), 5.0 / -10.0)
    ensures QDiv(Interval(Fin(5.0), Fin(10.0)), Interval(NInf, Fin(-1.0))) == Interval(Fin(-10.0), Fin(0.0))
  {
    var x, y := Interval(Fin(5.0), Fin(10.0)), Interval(NInf, Fin(-1.0));
    assert !Contains(y, 0.0);
    assert Singleton(y) == None;
    assert DivAsWritten(Q, Fin(5.0), Fin(-1.0)) == Fin(-5.0);
    assert DivAsWritten(Q, Fin(10.0), Fin(-1.0)) == Fin(-10.0);
    assert Div(Q, Fin(5.0), Fin(-1.0)) == Fin(-5.0);
    assert Div(Q, Fin(10.0), Fin(-1.0)) == Fin(-10.0);
  }

  // ---------------------------------------------------------------------
  // z_interval::operator/

  /** The measure of the z_interval division's recursion: splitting the
      divisor at zero, then the dividend, each removes zero from a side. */
  function ZeroSides(x: Interval, y: Interval): nat {
    (if Contains(y, 0.0) then 2 else 0) + (if Contains(x, 0.0) then 1 else 0)
  }

  /** The part of an interval below zero, [lb, -1], and above, [1, ub]. */
  function Negatives(x: Interval): (r: Interval)
    requires WF(x) && IsZ(x) && Contains(x, 0.0)
    ensures WF(r) && IsZ(r) && !Contains(r, 0.0)
    ensures forall a :: Contains(r, a) <==> Contains(x, a) && a <= -1.0
  {
    IntOfInt(-1);
    Make(x.lb, Fin(-1.0))
  }

  function Positives(x: Interval): (r: Interval)
    requires WF(x) && IsZ(x) && Contains(x, 0.0)
    ensures WF(r) && IsZ(r) && !Contains(r, 0.0)
    ensures forall a :: Contains(r, a) <==> Contains(x, a) && a >= 1.0
  {
    IntOfInt(1);
    Make(Fin(1.0), x.ub)
  }

  /** z_interval division, corrected. A singleton divisor c is handled
      directly (1 keeps the dividend, a positive c divides both bounds, a
      negative c divides and swaps them); a divisor holding zero is split
      into its negative and positive parts; a dividend holding zero is
      split likewise and zero added back; otherwise the corner quotients of
      the dividend itself. */
  function ZDiv(x: Interval, y: Interval): (r: Interval)
    requires WF(x) && WF(y) && IsZ(x) && IsZ(y)
    ensures WF(r) && IsZ(r)
    ensures IsBottom(x) || IsBottom(y) || y == FromNumber(0.0) ==> r == Bottom()
    decreases ZeroSides(x, y), 1
  {
    IntOfInt(0);
    IntOfInt(1);
    if IsBottom(x) || IsBottom(y) then Bottom()
    else
      var s := Singleton(y);
      if s.Some? && s.value != 0.0 then
        ScaleZ(x, s.value)
      else if Contains(y, 0.0) then
        ZDivSplitDivisor(x, y)
      else if Contains(x, 0.0) then
        ZDivSplitDividend(x, y)
      else
        CornersWF(Z, x, y);
        Corners(Z, x, y)
  }

  /** The result of each branch of z division: a non-zero singleton
      divisor scales the dividend; a divisor holding zero is split into its
      negative and positive parts; a dividend holding zero is split
      likewise and zero added back; otherwise the corner quotients. */
  lemma ZDivBranches(x: Interval, y: Interval)
    requires WF(x) && WF(y) && IsZ(x) && IsZ(y) && !IsBottom(x) && !IsBottom(y)
    ensures Singleton(y).Some? && Singleton(y).value != 0.0 ==> ZDiv(x, y) == ScaleZ(x, Singleton(y).value)
    ensures Singleton(y).None? && Contains(y, 0.0) ==>
      ZDiv(x, y) == Join(ZDiv(x, Negatives(y)), ZDiv(x, Positives(y)))
    ensures Singleton(y).None? && !Contains(y, 0.0) && Contains(x, 0.0) ==>
      ZDiv(x, y) == Join(Join(ZDiv(Negatives(x), y), ZDiv(Positives(x), y)), FromNumber(0.0))
    ensures Singleton(y).None? && !Contains(y, 0.0) && !Contains(x, 0.0) ==> ZDiv(x, y) == Corners(Z, x, y)
  {
  }

  /** A divisor holding zero: the join of the quotients by its negative
      and by its positive part. */
  function ZDivSplitDivisor(x: Interval, y: Interval): (r: Interval)
    requires WF(x) && WF(y) && IsZ(x) && IsZ(y) && Contains(y, 0.0)
    ensures WF(r) && IsZ(r)
    decreases ZeroSides(x, y), 0
  {
    Join(ZDiv(x, Negatives(y)), ZDiv(x, Positives(y)))
  }

  /** A dividend holding zero (the divisor does not): the join of the
      quotients of its negative and of its positive part, and zero. */
  function ZDivSplitDividend(x: Interval, y: Interval): (r: Interval)
    requires WF(x) && WF(y) && IsZ(x) && IsZ(y) && Contains(x, 0.0) && !Contains(y, 0.0)
    ensures WF(r) && IsZ(r)
    decreases ZeroSides(x, y), 0
  {
    IntOfInt(0);
    Join(Join(ZDiv(Negatives(x), y), ZDiv(Positives(x), y)), FromNumber(0.0))
  }

  /** The singleton-divisor path: division of both bounds by c. */
  function ScaleZ(x: Interval, c: real): (r: Interval)
    requires WF(x) && IsZ(x) && !IsBottom(x) && IsInt(c) && c != 0.0
    ensures WF(r) && IsZ(r)
    ensures c == 1.0 ==> r == x
    ensures c > 0.0 ==> !IsBottom(r) && TruncatedBound(r.lb, x.lb, c) && TruncatedBound(r.ub, x.ub, c)
    ensures c < 0.0 ==> !IsBottom(r) && TruncatedBound(r.lb, x.ub, c) && TruncatedBound(r.ub, x.lb, c)
    ensures forall a: int :: Contains(x, a as real) ==> Contains(r, TDiv(a, c.Floor) as real)
  {
    var r :=
      if c == 1.0 then x
      else if c > 0.0 then Make(Div(Z, x.lb, Fin(c)), Div(Z, x.ub, Fin(c)))
      else Make(Div(Z, x.ub, Fin(c)), Div(Z, x.lb, Fin(c)));
    ScaleZShape(x, c);
    assert forall a: int :: Contains(x, a as real) ==> Contains(r, TDiv(a, c.Floor) as real) by {
      forall a: int | Contains(x, a as real)
        ensures Contains(r, TDiv(a, c.Floor) as real)
      {
        ScaleZMember(x, c, a);
      }
    }
    r
  }

  /** q is the bound b divided by the integer c with truncation toward
      zero: a finite quotient of a finite bound, and for an infinite bound
      the infinity whose sign is the product of the signs. */
  predicate TruncatedBound(q: Bound, b: Bound, c: real)
    requires IsInt(c) && c != 0.0
  {
    match b
    case Fin(n) => q == Fin(TDiv(n.Floor, c.Floor) as real)
    case PInf => q == (if c > 0.0 then PInf else NInf)
    case NInf => q == (if c > 0.0 then NInf else PInf)
  }

  /** Division of a z bound by a non-zero integer truncates toward zero. */
  lemma DivIsTruncated(b: Bound, c: real)
    requires IntBound(b) && IsInt(c) && c != 0.0
    ensures TruncatedBound(Div(Z, b, Fin(c)), b, c)
  {
  }

  /** The bounds of the singleton-divisor path: [lb / c, ub / c] for a
      positive c, [ub / c, lb / c] for a negative one, never empty; c = 1
      gives the dividend back, bound for bound. */
  lemma ScaleZShape(x: Interval, c: real)
    requires WF(x) && IsZ(x) && !IsBottom(x) && IsInt(c) && c != 0.0
    ensures c > 0.0 ==> var r := Make(Div(Z, x.lb, Fin(c)), Div(Z, x.ub, Fin(c)));
      !IsBottom(r) && TruncatedBound(r.lb, x.lb, c) && TruncatedBound(r.ub, x.ub, c)
    ensures c < 0.0 ==> var r := Make(Div(Z, x.ub, Fin(c)), Div(Z, x.lb, Fin(c)));
      !IsBottom(r) && TruncatedBound(r.lb, x.ub, c) && TruncatedBound(r.ub, x.lb, c)
    ensures c == 1.0 ==> TruncatedBound(x.lb, x.lb, c) && TruncatedBound(x.ub, x.ub, c)
  {
    DivDividend(Z, x.lb, x.ub, Fin(c));
    DivIsTruncated(x.lb, c);
    DivIsTruncated(x.ub, c);
    if c == 1.0 {
      TDivByOne(x.lb);
      TDivByOne(x.ub);
    }
  }

  lemma TDivByOne(b: Bound)
    requires IntBound(b)
    ensures TruncatedBound(b, b, 1.0)
  {
    if b.Fin? {
      ZDivTruncates(b.n.Floor, 1);
    }
  }

  /** Every truncated quotient of a member by c is in the singleton-divisor
      result. */
  lemma ScaleZMember(x: Interval, c: real, a: int)
    requires WF(x) && IsZ(x) && !IsBottom(x) && IsInt(c) && c != 0.0
    requires Contains(x, a as real)
    ensures c == 1.0 ==> TDiv(a, c.Floor) == a
    ensures c != 1.0 && c > 0.0 ==> Contains(Make(Div(Z, x.lb, Fin(c)), Div(Z, x.ub, Fin(c))), TDiv(a, c.Floor) as real)
    ensures c < 0.0 ==> Contains(Make(Div(Z, x.ub, Fin(c)), Div(Z, x.lb, Fin(c))), TDiv(a, c.Floor) as real)
  {
    var b := c.Floor;
    IntOfInt(a);
    ZDivTruncates(a, b);
    var q := Fin(TDiv(a, b) as real);
    assert Div(Z, Fin(a as real), Fin(c)) == q;
    DivDividend(Z, x.lb, Fin(a as real), Fin(c));
    DivDividend(Z, Fin(a as real), x.ub, Fin(c));
  }

  /** Every truncated quotient TDiv(a, b) of members, b non-zero, is in the
      result. */
  lemma {:induction false} ZDivSound(x: Interval, y: Interval, a: int, b: int)
    requires WF(x) && WF(y) && IsZ(x) && IsZ(y)
    requires Contains(x, a as real) && Contains(y, b as real) && b != 0
    ensures Contains(ZDiv(x, y), TDiv(a, b) as real)
    decreases ZeroSides(x, y)
  {
    IntOfInt(0);
    IntOfInt(1);
    IntOfInt(a);
    IntOfInt(b);
    var s := Singleton(y);
    if s.Some? && s.value != 0.0 {
      assert s.value == b as real;
    } else if Contains(y, 0.0) {
      if b < 0 {
        ZDivSound(x, Negatives(y), a, b);
      } else {
        ZDivSound(x, Positives(y), a, b);
      }
    } else if Contains(x, 0.0) {
      if a < 0 {
        ZDivSound(Negatives(x), y, a, b);
      } else if a > 0 {
        ZDivSound(Positives(x), y, a, b);
      } else {
        assert TDiv(a, b) == 0;
      }
    } else {
      CornersSound(Z, x, y, a as real, b as real);
    }
  }

  /** z_interval division as crab writes it. Besides the bound
      division that sends a finite value over an infinity to that
      infinity, a dividend below zero is first shifted by y + 1 (divisor
      below zero) or 1 - y (divisor above zero) before the corner quotients
      are taken. */
  function ZDivAsWritten(x: Interval, y: Interval): (r: Interval)
    requires WF(x) && WF(y) && IsZ(x) && IsZ(y)
    ensures IsZ(r)
    ensures IsBottom(x) || IsBottom(y) ==> r == Bottom()
    decreases ZeroSides(x, y), 1
  {
    IntOfInt(0);
    IntOfInt(1);
    if IsBottom(x) || IsBottom(y) then Bottom()
    else
      var s := Singleton(y);
      if s.Some? && s.value != 0.0 then
        ScaleZAsWritten(x, s.value)
      else if Contains(y, 0.0) then
        ZDivAsWrittenSplitDivisor(x, y)
      else if Contains(x, 0.0) then
        ZDivAsWrittenSplitDividend(x, y)
      else
        CornersAsWritten(Z, ShiftedDividend(x, y), y)
  }

  function ZDivAsWrittenSplitDivisor(x: Interval, y: Interval): (r: Interval)
    requires WF(x) && WF(y) && IsZ(x) && IsZ(y) && Contains(y, 0.0)
    ensures IsZ(r)
    decreases ZeroSides(x, y), 0
  {
    Join(ZDivAsWritten(x, Negatives(y)), ZDivAsWritten(x, Positives(y)))
  }

  function ZDivAsWrittenSplitDividend(x: Interval, y: Interval): (r: Interval)
    requires WF(x) && WF(y) && IsZ(x) && IsZ(y) && Contains(x, 0.0) && !Contains(y, 0.0)
    ensures IsZ(r)
    decreases ZeroSides(x, y), 0
  {
    IntOfInt(0);
    Join(Join(ZDivAsWritten(Negatives(x), y), ZDivAsWritten(Positives(x), y)), FromNumber(0.0))
  }

  /** The singleton-divisor path as written: bound division by c. */
  function ScaleZAsWritten(x: Interval, c: real): (r: Interval)
    requires IsZ(x) && IsInt(c) && c != 0.0
    ensures IsZ(r)
  {
    if c == 1.0 then x
    else if c > 0.0 then Make(DivAsWritten(Z, x.lb, Fin(c)), DivAsWritten(Z, x.ub, Fin(c)))
    else Make(DivAsWritten(Z, x.ub, Fin(c)), DivAsWritten(Z, x.lb, Fin(c)))
  }

  /** The dividend operator/ hands to the corner quotients: unchanged
      unless it lies below zero, in which case it is moved by y + 1 (divisor
      below zero) or by 1 - y (divisor above zero). Both moves shift it
      further below zero: they are the defect recorded under Findings. */
  function ShiftedDividend(x: Interval, y: Interval): (r: Interval)
    requires WF(x) && WF(y) && IsZ(x) && IsZ(y)
    ensures IsZ(r)
    ensures !Lt(x.ub, Fin(0.0)) ==> r == x
  {
    IntOfInt(1);
    var one := FromNumber(1.0);
    if Lt(x.ub, Fin(0.0)) then
      Intervals.Add(x, if Lt(y.ub, Fin(0.0)) then Intervals.Add(y, one) else Intervals.Sub(one, y))
    else x
  }

  /** As written, [-5, -5] / [-3, -2] is [2, 3]; but -5 / -3 truncates to
      1, as it also floors to 1. The corrected division gives [1, 2]. */
  lemma ZDivAsWrittenShiftMissesQuotient()
    ensures IsZ(Interval(Fin(-5.0), Fin(-5.0))) && IsZ(Interval(Fin(-3.0), Fin(-2.0)))
    ensures ZDivAsWritten(Interval(Fin(-5.0), Fin(-5.0)), Interval(Fin(-3.0), Fin(-2.0))) == Interval(Fin(2.0), Fin(3.0))
    ensures TDiv(-5, -3) == 1
    ensures !Contains(ZDivAsWritten(Interval(Fin(-5.0), Fin(-5.0)), Interval(Fin(-3.0), Fin(-2.0))), 1.0)
    ensures ZDiv(Interval(Fin(-5.0), Fin(-5.0)), Interval(Fin(-3.0), Fin(-2.0))) == Interval(Fin(1.0), Fin(2.0))
  {
    ShiftExampleAsWritten();
    ShiftExampleCorrected();
  }

  /** The as-written path of the example: [-5, -5] is shifted by
      [-3, -2] + 1 to [-7, -6], whose corner quotients span [2, 3]. */
  lemma ShiftExampleAsWritten()
    ensures IsZ(Interval(Fin(-5.0), Fin(-5.0))) && IsZ(Interval(Fin(-3.0), Fin(-2.0)))
    ensures ZDivAsWritten(Interval(Fin(-5.0), Fin(-5.0)), Interval(Fin(-3.0), Fin(-2.0))) == Interval(Fin(2.0), Fin(3.0))
  {
    IntOfInt(-5);
    IntOfInt(-3);
    IntOfInt(-2);
    var x, y := Interval(Fin(-5.0), Fin(-5.0)), Interval(Fin(-3.0), Fin(-2.0));
    assert Singleton(y) == None && !Contains(y, 0.0) && !Contains(x, 0.0);
    ShiftExample();
    ShiftedCornersExample();
  }

  lemma ShiftExample()
    ensures IsZ(Interval(Fin(-5.0), Fin(-5.0))) && IsZ(Interval(Fin(-3.0), Fin(-2.0)))
    ensures ShiftedDividend(Interval(Fin(-5.0), Fin(-5.0)), Interval(Fin(-3.0), Fin(-2.0))) == Interval(Fin(-7.0), Fin(-6.0))
  {
    IntOfInt(-5);
    IntOfInt(-3);
    IntOfInt(-2);
    IntOfInt(1);
    var y := Interval(Fin(-3.0), Fin(-2.0));
    assert Intervals.Add(y, FromNumber(1.0)) == Interval(Fin(-2.0), Fin(-1.0));
  }

  lemma ShiftedCornersExample()
    ensures IsZ(Interval(Fin(-7.0), Fin(-6.0))) && IsZ(Interval(Fin(-3.0), Fin(-2.0)))
    ensures ExcludesZero(Interval(Fin(-3.0), Fin(-2.0)))
    ensures CornersAsWritten(Z, Interval(Fin(-7.0), Fin(-6.0)), Interval(Fin(-3.0), Fin(-2.0))) == Interval(Fin(2.0), Fin(3.0))
  {
    IntOfInt(-7);
    IntOfInt(-6);
    IntOfInt(-3);
    IntOfInt(-2);
    assert DivAsWritten(Z, Fin(-7.0), Fin(-3.0)) == Fin(2.0);
    assert DivAsWritten(Z, Fin(-7.0), Fin(-2.0)) == Fin(3.0);
    assert DivAsWritten(Z, Fin(-6.0), Fin(-3.0)) == Fin(2.0);
    assert DivAsWritten(Z, Fin(-6.0), Fin(-2.0)) == Fin(3.0);
  }

  /** The corrected path of the example: the corner quotients of [-5, -5]
      itself span [1, 2]. */
  lemma ShiftExampleCorrected()
    ensures IsZ(Interval(Fin(-5.0), Fin(-5.0))) && IsZ(Interval(Fin(-3.0), Fin(-2.0)))
    ensures TDiv(-5, -3) == 1
    ensures ZDiv(Interval(Fin(-5.0), Fin(-5.0)), Interval(Fin(-3.0), Fin(-2.0))) == Interval(Fin(1.0), Fin(2.0))
  {
    IntOfInt(-5);
    IntOfInt(-3);
    IntOfInt(-2);
    var x, y := Interval(Fin(-5.0), Fin(-5.0)), Interval(Fin(-3.0), Fin(-2.0));
    assert Singleton(y) == None && !Contains(y, 0.0) && !Contains(x, 0.0);
    assert Div(Z, Fin(-5.0), Fin(-3.0)) == Fin(1.0);
    assert Div(Z, Fin(-5.0), Fin(-2.0)) == Fin(2.0);
  }

  /** As written, [5, 10] / [-oo, -1] over the integers is [-oo, -5], which
      misses 5 / -6, truncated to 0. */
  lemma ZDivAsWrittenMissesZero()
    ensures IsZ(Interval(Fin(5.0), Fin(10.0))) && IsZ(Interval(NInf, Fin(-1.0)))
    ensures TDiv(5, -6) == 0
    ensures ZDivAsWritten(Interval(Fin(5.0), Fin(10.0)), Interval(NInf, Fin(-1.0))) == Interval(NInf, Fin(-5.0))
    ensures Contains(ZDiv(Interval(Fin(5.0), Fin(10.0)), Interval(NInf, Fin(-1.0))), 0.0)
  {
    IntOfInt(5);
    IntOfInt(10);
    IntOfInt(-1);
    IntOfInt(-6);
    var x, y := Interval(Fin(5.0), Fin(10.0)), Interval(NInf, Fin(-1.0));
    assert Singleton(y) == None;
    assert DivAsWritten(Z, Fin(5.0), Fin(-1.0)) == Fin(-5.0);
    assert DivAsWritten(Z, Fin(10.0), Fin(-1.0)) == Fin(-10.0);
    ZDivSound(x, y, 5, -6);
  }

  // ---------------------------------------------------------------------
  // Remainders

  function RAbs(a: real): real {
    if a < 0.0 then -a else a
  }

  /** z_interval::SRem: for two singletons the remainder itself (bottom for
      a zero divisor); for a divisor with finite bounds, the range
      (-m, m) cut to the dividend's sign, m being the larger magnitude of
      the divisor's bounds; top otherwise. */
  function SRem(x: Interval, y: Interval): (r: Interval)
    requires IsZ(x) && IsZ(y)
    ensures WF(r) && IsZ(r)
    ensures IsBottom(x) || IsBottom(y) ==> r == Bottom()
  {
    IntOfInt(0);
    if IsBottom(x) || IsBottom(y) then Bottom()
    else if Singleton(x).Some? && Singleton(y).Some? then
      RemainderOf(Singleton(x).value, Singleton(y).value)
    else if y.ub.Fin? && y.lb.Fin? then
      var i := MaxMagnitude(y);
      IntOfInt(i);
      SRemRange(x, RMax(RAbs(y.lb.n), RAbs(y.ub.n)))
    else Top()
  }

  /** The two-singleton path of SRem: the remainder, or bottom for a zero
      divisor. */
  function RemainderOf(dividend: real, divisor: real): (r: Interval)
    requires IsInt(dividend) && IsInt(divisor)
    ensures WF(r) && IsZ(r)
    ensures divisor == 0.0 <==> r == Bottom()
    ensures divisor != 0.0 ==> r == FromNumber(TRem(dividend.Floor, divisor.Floor) as real)
  {
    if divisor == 0.0 then Bottom()
    else
      var t := TRem(dividend.Floor, divisor.Floor);
      IntOfInt(t);
      FromNumber(t as real)
  }

  /** The bounded-divisor path of SRem, m being the larger magnitude of the
      divisor's bounds: bottom when m is 0, otherwise (-m, m) cut to the
      signs the dividend can take. */
  function SRemRange(x: Interval, m: real): (r: Interval)
    requires IsInt(m) && m >= 0.0
    ensures WF(r) && IsZ(r)
    ensures m == 0.0 ==> r == Bottom()
    ensures m != 0.0 ==> forall t: real :: Contains(r, t) <==>
      RAbs(t) <= m - 1.0 && (t < 0.0 ==> Lt(x.lb, Fin(0.0))) && (t > 0.0 ==> Ge(x.lb, Fin(0.0)) || Gt(x.ub, Fin(0.0)))
  {
    IntOfInt(0);
    if m == 0.0 then Bottom()
    else
      var i := m.Floor;
      IntOfInt(i - 1);
      IntOfInt(-(i - 1));
      assert m - 1.0 == (i - 1) as real;
      if Lt(x.lb, Fin(0.0)) then
        if Gt(x.ub, Fin(0.0)) then Make(Fin(-(m - 1.0)), Fin(m - 1.0))
        else Make(Fin(-(m - 1.0)), Fin(0.0))
      else Make(Fin(0.0), Fin(m - 1.0))
  }

  function RMax(a: real, b: real): real {
    if a > b then a else b
  }

  /** Every remainder TRem(a, b) of members, b non-zero, is in the result. */
  lemma SRemSound(x: Interval, y: Interval, a: int, b: int)
    requires IsZ(x) && IsZ(y)
    requires Contains(x, a as real) && Contains(y, b as real) && b != 0
    ensures Contains(SRem(x, y), TRem(a, b) as real)
  {
    IntOfInt(a);
    IntOfInt(b);
    var t := TRem(a, b);
    if Singleton(x).Some? && Singleton(y).Some? {
      assert Singleton(x).value == a as real;
      assert Singleton(y).value == b as real;
    } else if y.ub.Fin? && y.lb.Fin? {
      var m := RMax(RAbs(y.lb.n), RAbs(y.ub.n));
      RemainderWithin(y, b, t, m);
      assert t < 0 ==> a < 0;
      assert t > 0 ==> a > 0;
    }
  }

  /** A remainder smaller in magnitude than a divisor b of y is at most m - 1
      in magnitude, m being the larger magnitude of y's finite bounds. */
  lemma RemainderWithin(y: Interval, b: int, t: int, m: real)
    requires IsZ(y) && y.lb.Fin? && y.ub.Fin? && Contains(y, b as real)
    requires Abs(t) < Abs(b)
    requires m == RMax(RAbs(y.lb.n), RAbs(y.ub.n))
    ensures RAbs(t as real) <= m - 1.0
  {
    var i := MaxMagnitude(y);
    var lo, hi := y.lb.n.Floor, y.ub.n.Floor;
    assert y.lb.n == lo as real && y.ub.n == hi as real;
    assert lo <= b <= hi;
    assert Abs(b) <= i;
    assert Abs(t) <= i - 1;
    assert RAbs(t as real) == Abs(t) as real;
  }

  /** The larger magnitude of the finite bounds of a z_interval, as an
      integer. */
  function MaxMagnitude(y: Interval): (i: int)
    requires IsZ(y) && y.lb.Fin? && y.ub.Fin?
    ensures RMax(RAbs(y.lb.n), RAbs(y.ub.n)) == i as real
    ensures i >= 0 && Abs(y.lb.n.Floor) <= i && Abs(y.ub.n.Floor) <= i
  {
    var lo, hi := y.lb.n.Floor, y.ub.n.Floor;
    assert y.lb.n == lo as real && y.ub.n == hi as real;
    assert RAbs(y.lb.n) == Abs(lo) as real;
    assert RAbs(y.ub.n) == Abs(hi) as real;
    if Abs(lo) > Abs(hi) then Abs(lo) else Abs(hi)
  }

  /** z_interval::URem: two singletons give bottom for a zero divisor, top
      for a negative one, [0, divisor - 1] for a negative dividend (whose
      unsigned reading depends on a width the domain does not know) and
      the remainder otherwise; a divisor with finite non-negative bounds
      gives [0, ub - 1] (bottom when ub is 0); anything else is top. */
  function URem(x: Interval, y: Interval): (r: Interval)
    requires IsZ(x) && IsZ(y)
    ensures WF(r) && IsZ(r)
    ensures IsBottom(x) || IsBottom(y) ==> r == Bottom()
    ensures Singleton(x).Some? && Singleton(y).Some? ==>
      var a, b := Singleton(x).value, Singleton(y).value;
      (b < 0.0 ==> r == Top()) && (b == 0.0 ==> r == Bottom()) &&
      (b > 0.0 && a < 0.0 ==> forall t :: Contains(r, t) <==> 0.0 <= t <= b - 1.0) &&
      (b > 0.0 && a >= 0.0 ==> r == FromNumber((a.Floor % b.Floor) as real))
    ensures !IsBottom(x) && !IsBottom(y) && !(Singleton(x).Some? && Singleton(y).Some?) ==>
      if y.lb.Fin? && y.ub.Fin? then
        (Lt(y.lb, Fin(0.0)) || Lt(y.ub, Fin(0.0)) ==> r == Top()) &&
        (Ge(y.lb, Fin(0.0)) && y.ub == Fin(0.0) ==> r == Bottom()) &&
        (Ge(y.lb, Fin(0.0)) && Gt(y.ub, Fin(0.0)) ==> forall t :: Contains(r, t) <==> 0.0 <= t <= y.ub.n - 1.0)
      else r == Top()
  {
    if IsBottom(x) || IsBottom(y) then Bottom()
    else if Singleton(x).Some? && Singleton(y).Some? then
      URemPoints(Singleton(x).value, Singleton(y).value)
    else if y.ub.Fin? && y.lb.Fin? then
      URemRange(y)
    else Top()
  }

  /** The two-singleton path of URem: top for a negative divisor, bottom
      for a zero one, [0, divisor - 1] for a negative dividend, else the
      remainder, which for non-negative operands is the ordinary one. */
  function URemPoints(dividend: real, divisor: real): (r: Interval)
    requires IsInt(dividend) && IsInt(divisor)
    ensures WF(r) && IsZ(r)
    ensures divisor < 0.0 ==> r == Top()
    ensures divisor == 0.0 ==> r == Bottom()
    ensures divisor > 0.0 && dividend < 0.0 ==> forall t :: Contains(r, t) <==> 0.0 <= t <= divisor - 1.0
    ensures divisor > 0.0 && dividend >= 0.0 ==> r == FromNumber((dividend.Floor % divisor.Floor) as real)
  {
    IntOfInt(0);
    if divisor < 0.0 then Top()
    else if divisor == 0.0 then Bottom()
    else if dividend < 0.0 then
      IntOfInt(divisor.Floor - 1);
      assert divisor - 1.0 == (divisor.Floor - 1) as real;
      Make(Fin(0.0), Fin(divisor - 1.0))
    else
      var t := TRem(dividend.Floor, divisor.Floor);
      IntOfInt(t);
      TRemNonNeg(dividend.Floor, divisor.Floor);
      FromNumber(t as real)
  }

  /** The bounded-divisor path of URem: top when the divisor can be
      negative, bottom when its upper bound is 0, else [0, ub - 1]. */
  function URemRange(y: Interval): (r: Interval)
    requires IsZ(y) && y.lb.Fin? && y.ub.Fin?
    ensures WF(r) && IsZ(r)
    ensures Lt(y.lb, Fin(0.0)) || Lt(y.ub, Fin(0.0)) ==> r == Top()
    ensures Ge(y.lb, Fin(0.0)) && y.ub == Fin(0.0) ==> r == Bottom()
    ensures Ge(y.lb, Fin(0.0)) && Gt(y.ub, Fin(0.0)) ==> forall t :: Contains(r, t) <==> 0.0 <= t <= y.ub.n - 1.0
  {
    IntOfInt(0);
    var m := y.ub.n;
    if Lt(y.lb, Fin(0.0)) || Lt(y.ub, Fin(0.0)) then Top()
    else if m == 0.0 then Bottom()
    else
      IntOfInt(m.Floor - 1);
      assert m - 1.0 == (m.Floor - 1) as real;
      Make(Fin(0.0), Fin(m - 1.0))
  }

  /** A negative singleton dividend is read as an unknown unsigned number:
      [-10,-10] URem [3,3] is [0,2], not top. */
  lemma URemNegativeDividend()
    ensures URem(FromNumber(-10.0), FromNumber(3.0)) == Interval(Fin(0.0), Fin(2.0))
  {
    IntOfInt(-10);
    IntOfInt(3);
    assert Singleton(FromNumber(-10.0)) == Some(-10.0);
    assert Singleton(FromNumber(3.0)) == Some(3.0);
  }

  /** Unsigned remainder of members, b non-zero: for a non-negative
      dividend and positive divisor the remainder a % b is in the result;
      for a negative dividend, whose unsigned value is a + 2^w for a width w
      not known here, every value in [0, b) is; for a negative divisor
      everything is. */
  lemma URemSound(x: Interval, y: Interval, a: int, b: int)
    requires IsZ(x) && IsZ(y)
    requires Contains(x, a as real) && Contains(y, b as real) && b != 0
    ensures b > 0 && a >= 0 ==> Contains(URem(x, y), (a % b) as real)
    ensures b > 0 && a < 0 ==> forall v: real :: 0.0 <= v <= (b - 1) as real ==> Contains(URem(x, y), v)
    ensures b < 0 ==> URem(x, y) == Top()
  {
    IntOfInt(a);
    IntOfInt(b);
    var r := URem(x, y);
    if Singleton(x).Some? && Singleton(y).Some? {
      var p, q := Singleton(x).value, Singleton(y).value;
      assert p == a as real && q == b as real;
      assert r == URemPoints(p, q);
    } else if y.ub.Fin? && y.lb.Fin? {
      assert r == URemRange(y);
      if b > 0 && !Lt(y.lb, Fin(0.0)) {
        assert Gt(y.ub, Fin(0.0)) && b as real <= y.ub.n;
      }
    }
  }
}

=== FILE: interval_domain.dfy ===
/** Class `interval_domain<Number, VariableName>`: the non-relational
    abstract domain that maps each program variable to an interval through
    a separate domain, and interprets assignments, arithmetic, bitwise and
    division operations and linear constraints on it. */
module IntervalDomains {
  import opened Numbers
  import opened Options
  import opened Bounds
  import I = Intervals
  import S = SeparateDomains
  import D = IntervalDivision
  import B = IntervalBitwise

  /** An abstract state: the number kind it is instantiated with and the
      environment. */
  datatype IntervalDomain<V> = IntervalDomain(kind: NumKind, env: S.SeparateDomain<V>)

  /** A number of the instantiation's kind: z_number values are integers. */
  predicate Fits(k: NumKind, n: real) {
    k == Z ==> IsInt(n)
  }

  /** What every operation keeps: the environment's invariant, and over the
      integers only integral intervals. */
  predicate Valid<V(!new)>(d: IntervalDomain<V>) {
    S.Inv(d.env) && (d.kind == Z ==> forall v :: v in d.env.tree ==> I.IsZ(d.env.tree[v]))
  }

  /** The concrete states of a domain: rho satisfies every interval, and
      over the integers gives every variable an integer. */
  ghost predicate Models<V(!new)>(d: IntervalDomain<V>, rho: V -> real) {
    S.Models(d.env, rho) && forall v :: Fits(d.kind, rho(v))
  }

  /** rho with x bound to a. */
  function Update<V(==,!new)>(rho: V -> real, x: V, a: real): (r: V -> real)
    ensures r(x) == a
    ensures forall y :: y != x ==> r(y) == rho(y)
  {
    y => if y == x then a else rho(y)
  }

  // ---------------------------------------------------------------------
  // Construction, lattice operations and variable access

  /** top(): no constraint on any variable. */
  function Top<V(!new)>(k: NumKind): IntervalDomain<V> {
    IntervalDomain(k, S.Top())
  }

  /** bottom(): no concrete state. */
  function Bottom<V(!new)>(k: NumKind): IntervalDomain<V> {
    IntervalDomain(k, S.Bottom())
  }

  /** Top is valid and is_top, and models every state of its number kind. */
  lemma TopMeaning<V(!new)>(k: NumKind, rho: V -> real)
    ensures Valid(Top<V>(k)) && IsTop(Top<V>(k)) && Top<V>(k).kind == k
    ensures (forall v :: Fits(k, rho(v))) ==> Models(Top<V>(k), rho)
  {
  }

  /** Bottom is valid and models no state. */
  lemma BottomMeaning<V(!new)>(k: NumKind, rho: V -> real)
    ensures Valid(Bottom<V>(k)) && IsBottom(Bottom<V>(k)) && Bottom<V>(k).kind == k
    ensures !Models(Bottom<V>(k), rho)
  {
  }

  predicate IsBottom<V(!new)>(d: IntervalDomain<V>) {
    d.env.isBottom
  }

  predicate IsTop<V(!new)>(d: IntervalDomain<V>) {
    S.IsTop(d.env)
  }

  /** operator[](v). */
  function Get<V(!new)>(d: IntervalDomain<V>, v: V): (i: I.Interval)
    requires Valid(d)
    ensures I.WF(i) && (d.kind == Z ==> I.IsZ(i))
    ensures forall rho :: S.Models(d.env, rho) ==> I.Contains(i, rho(v))
    ensures IsBottom(d) ==> i == I.Bottom()
  {
    S.Lookup(d.env, v)
  }

  /** begin()/end(): the bindings, none on bottom. */
  function Bindings<V(!new)>(d: IntervalDomain<V>): (r: Option<map<V, I.Interval>>)
    ensures r.None? <==> IsBottom(d)
    ensures r.Some? ==> forall v :: v in r.value ==> S.Lookup(d.env, v) == r.value[v]
  {
    S.Bindings(d.env)
  }

  /** operator<=. */
  predicate Leq<V(!new)>(d1: IntervalDomain<V>, d2: IntervalDomain<V>) {
    S.Leq(d1.env, d2.env)
  }

  /** The order is inclusion of concrete states. */
  lemma LeqSound<V(!new)>(d1: IntervalDomain<V>, d2: IntervalDomain<V>, rho: V -> real)
    requires Valid(d1) && Valid(d2) && d1.kind == d2.kind
    requires Leq(d1, d2) && Models(d1, rho)
    ensures Models(d2, rho)
  {
    S.LeqMeaning(d1.env, d2.env);
    S.ModelsMeaning(d1.env, rho);
    S.ModelsMeaning(d2.env, rho);
    forall v ensures I.Contains(S.Lookup(d2.env, v), rho(v)) {
      assert I.Contains(S.Lookup(d1.env, v), rho(v));
      I.LeqMeaning(S.Lookup(d1.env, v), S.Lookup(d2.env, v));
    }
  }

  /** operator|. */
  function Join<V(!new)>(d1: IntervalDomain<V>, d2: IntervalDomain<V>): (r: IntervalDomain<V>)
    requires Valid(d1) && Valid(d2) && d1.kind == d2.kind
    ensures Valid(r) && r.kind == d1.kind
    ensures Leq(d1, r) && Leq(d2, r)
    ensures forall v :: Get(r, v) == I.Join(Get(d1, v), Get(d2, v))
    ensures forall rho :: Models(d1, rho) || Models(d2, rho) ==> Models(r, rho)
  {
    var e := S.Join(d1.env, d2.env);
    S.JoinMeetBounds(d1.env, d2.env);
    ZPreserved(d1, d2, e, S.JoinOp);
    assert forall rho :: Models(d1, rho) || Models(d2, rho) ==> Models(IntervalDomain(d1.kind, e), rho) by {
      forall rho | Models(d1, rho) || Models(d2, rho) ensures Models(IntervalDomain(d1.kind, e), rho) {
        S.ModelsJoinMeet(d1.env, d2.env, rho);
      }
    }
    IntervalDomain(d1.kind, e)
  }

  /** operator&. */
  function Meet<V(!new)>(d1: IntervalDomain<V>, d2: IntervalDomain<V>): (r: IntervalDomain<V>)
    requires Valid(d1) && Valid(d2) && d1.kind == d2.kind
    ensures Valid(r) && r.kind == d1.kind
    ensures Leq(r, d1) && Leq(r, d2)
    ensures !IsBottom(r) ==> forall v :: Get(r, v) == I.Meet(Get(d1, v), Get(d2, v))
    ensures forall rho :: Models(r, rho) <==> Models(d1, rho) && Models(d2, rho)
  {
    var e := S.Meet(d1.env, d2.env);
    S.JoinMeetBounds(d1.env, d2.env);
    ZPreserved(d1, d2, e, S.MeetOp);
    assert forall rho :: Models(IntervalDomain(d1.kind, e), rho) <==> Models(d1, rho) && Models(d2, rho) by {
      forall rho ensures Models(IntervalDomain(d1.kind, e), rho) <==> Models(d1, rho) && Models(d2, rho) {
        S.ModelsJoinMeet(d1.env, d2.env, rho);
      }
    }
    IntervalDomain(d1.kind, e)
  }

  /** operator||. */
  function Widen<V(!new)>(d1: IntervalDomain<V>, d2: IntervalDomain<V>): (r: IntervalDomain<V>)
    requires Valid(d1) && Valid(d2) && d1.kind == d2.kind
    ensures Valid(r) && r.kind == d1.kind
    ensures Leq(d1, r) && Leq(d2, r)
    ensures IsBottom(d1) ==> r == IntervalDomain(d1.kind, d2.env)
    ensures !IsBottom(d1) ==> forall v :: Get(r, v) == I.Widen(Get(d1, v), Get(d2, v))
  {
    var e := S.Widen(d1.env, d2.env);
    S.WidenUpper(d1.env, d2.env);
    ZPreserved(d1, d2, e, S.WidenOp);
    IntervalDomain(d1.kind, e)
  }

  /** operator&&. */
  function Narrow<V(!new)>(d1: IntervalDomain<V>, d2: IntervalDomain<V>): (r: IntervalDomain<V>)
    requires Valid(d1) && Valid(d2) && d1.kind == d2.kind
    ensures Valid(r) && r.kind == d1.kind
    ensures Leq(r, d1) && Leq(Meet(d1, d2), r)
    ensures IsBottom(r) <==> IsBottom(d1) || IsBottom(d2) || exists v :: I.IsBottom(I.Narrow(Get(d1, v), Get(d2, v)))
    ensures !IsBottom(r) ==> forall v :: Get(r, v) == I.Narrow(Get(d1, v), Get(d2, v))
  {
    var e := S.Narrow(d1.env, d2.env);
    S.NarrowBetween(d1.env, d2.env);
    NarrowPointwise(d1, d2);
    IntervalDomain(d1.kind, e)
  }

  lemma NarrowPointwise<V(!new)>(d1: IntervalDomain<V>, d2: IntervalDomain<V>)
    requires Valid(d1) && Valid(d2) && d1.kind == d2.kind
    ensures var r := IntervalDomain(d1.kind, S.Narrow(d1.env, d2.env));
      Valid(r) &&
      (IsBottom(r) <==> IsBottom(d1) || IsBottom(d2) || exists v :: I.IsBottom(I.Narrow(Get(d1, v), Get(d2, v)))) &&
      (!IsBottom(r) ==> forall v :: Get(r, v) == I.Narrow(Get(d1, v), Get(d2, v)))
  {
    var e := S.Narrow(d1.env, d2.env);
    ZPreserved(d1, d2, e, S.NarrowOp);
    assert forall v :: Get(d1, v) == S.Lookup(d1.env, v) && Get(d2, v) == S.Lookup(d2.env, v);
  }

  /** Every lattice operation of integral environments is integral. */
  lemma ZPreserved<V(!new)>(d1: IntervalDomain<V>, d2: IntervalDomain<V>, e: S.SeparateDomain<V>, op: S.MergeOp)
    requires Valid(d1) && Valid(d2) && d1.kind == d2.kind && S.Inv(e)
    requires !e.isBottom ==> forall v :: S.Lookup(e, v) == S.Combine(op, S.Lookup(d1.env, v), S.Lookup(d2.env, v))
    ensures Valid(IntervalDomain(d1.kind, e))
  {
    if d1.kind == Z && !e.isBottom {
      forall v | v in e.tree ensures I.IsZ(e.tree[v]) {
        assert S.Lookup(e, v) == e.tree[v];
        var x, y := S.Lookup(d1.env, v), S.Lookup(d2.env, v);
        assert I.IsZ(x) && I.IsZ(y);
      }
    }
  }

  /** set(v, i) and set(v, n). */
  function Set<V(!new)>(d: IntervalDomain<V>, x: V, i: I.Interval): (r: IntervalDomain<V>)
    requires Valid(d) && I.WF(i) && (d.kind == Z ==> I.IsZ(i))
    ensures Valid(r) && r.kind == d.kind
    ensures IsBottom(r) <==> IsBottom(d) || I.IsBottom(i)
    ensures !IsBottom(r) ==> Get(r, x) == i && forall y :: y != x ==> Get(r, y) == Get(d, y)
    ensures forall rho, a :: Models(d, rho) && I.Contains(i, a) && Fits(d.kind, a) ==> Models(r, Update(rho, x, a))
  {
    var r := IntervalDomain(d.kind, S.Set(d.env, x, i));
    assert forall rho, a :: Models(d, rho) && I.Contains(i, a) && Fits(d.kind, a) ==> Models(r, Update(rho, x, a)) by {
      forall rho, a | Models(d, rho) && I.Contains(i, a) && Fits(d.kind, a) ensures Models(r, Update(rho, x, a)) {
        SetSound(d, x, i, rho, a);
      }
    }
    r
  }

  lemma SetSound<V(!new)>(d: IntervalDomain<V>, x: V, i: I.Interval, rho: V -> real, a: real)
    requires Valid(d) && I.WF(i)
    requires Models(d, rho) && I.Contains(i, a) && Fits(d.kind, a)
    ensures Models(IntervalDomain(d.kind, S.Set(d.env, x, i)), Update(rho, x, a))
  {
    var e := S.Set(d.env, x, i);
    var rho' := Update(rho, x, a);
    S.ModelsMeaning(d.env, rho);
    S.ModelsMeaning(e, rho');
    forall v ensures I.Contains(S.Lookup(e, v), rho'(v)) {
      if v != x {
        assert I.Contains(S.Lookup(d.env, v), rho(v));
      }
    }
  }

  /** set(v, n): the variable becomes the single value n. */
  function SetNumber<V(!new)>(d: IntervalDomain<V>, x: V, n: real): (r: IntervalDomain<V>)
    requires Valid(d) && Fits(d.kind, n)
    ensures Valid(r) && r.kind == d.kind
    ensures forall rho :: Models(d, rho) ==> Models(r, Update(rho, x, n))
    ensures !IsBottom(d) ==> !IsBottom(r) && forall a :: I.Contains(Get(r, x), a) <==> a == n
  {
    Set(d, x, I.FromNumber(n))
  }

  /** operator-=: forget everything about x. */
  function Forget<V(!new)>(d: IntervalDomain<V>, x: V): (r: IntervalDomain<V>)
    requires Valid(d)
    ensures Valid(r) && r.kind == d.kind && IsBottom(r) == IsBottom(d)
    ensures !IsBottom(d) ==> Get(r, x) == I.Top()
    ensures forall y :: y != x ==> Get(r, y) == Get(d, y)
    ensures forall rho, a :: Models(d, rho) && Fits(d.kind, a) ==> Models(r, Update(rho, x, a))
  {
    var r := IntervalDomain(d.kind, S.Remove(d.env, x));
    assert forall rho, a :: Models(d, rho) && Fits(d.kind, a) ==> Models(r, Update(rho, x, a)) by {
      forall rho, a | Models(d, rho) && Fits(d.kind, a) ensures Models(r, Update(rho, x, a)) {
        ForgetSound(d, x, rho, a);
      }
    }
    r
  }

  lemma ForgetSound<V(!new)>(d: IntervalDomain<V>, x: V, rho: V -> real, a: real)
    requires Valid(d) && Models(d, rho) && Fits(d.kind, a)
    ensures Models(IntervalDomain(d.kind, S.Remove(d.env, x)), Update(rho, x, a))
  {
    var e := S.Remove(d.env, x);
    var rho' := Update(rho, x, a);
    S.ModelsMeaning(d.env, rho);
    S.ModelsMeaning(e, rho');
    forall v ensures I.Contains(S.Lookup(e, v), rho'(v)) {
      if v != x {
        assert I.Contains(S.Lookup(d.env, v), rho(v));
      }
    }
  }

  // ---------------------------------------------------------------------
  // Linear expressions

  /** c * v. */
  datatype Term<V> = Term(coef: real, variable: V)

  /** constant + sum of terms. */
  datatype LinExp<V> = LinExp(constant: real, terms: seq<Term<V>>)

  predicate ExpFits<V(!new)>(k: NumKind, e: LinExp<V>) {
    Fits(k, e.constant) && CoefsFit(k, e.terms)
  }

  predicate CoefsFit<V(!new)>(k: NumKind, ts: seq<Term<V>>) {
    forall j :: 0 <= j < |ts| ==> Fits(k, ts[j].coef)
  }

  /** The value of a linear expression in rho: the constant plus the
      terms' values, summed left to right. */
  function Value<V(!new)>(e: LinExp<V>, rho: V -> real): real {
    Sum(TermValues(e.terms, rho), 0, e.constant)
  }

  /** The value of each term, in order. */
  function TermValues<V(!new)>(ts: seq<Term<V>>, rho: V -> real): (vs: seq<real>)
    ensures |vs| == |ts|
    ensures forall j :: 0 <= j < |ts| ==> vs[j] == TermValue(ts[j], rho)
  {
    seq(|ts|, j requires 0 <= j < |ts| => TermValue(ts[j], rho))
  }

  /** acc plus the values from index i on. */
  function Sum(vs: seq<real>, i: nat, acc: real): real
    requires i <= |vs|
    decreases |vs| - i
  {
    if i == |vs| then acc else Sum(vs, i + 1, acc + vs[i])
  }

  /** The value of one term: its coefficient times its variable's value. */
  function TermValue<V(!new)>(t: Term<V>, rho: V -> real): real {
    t.coef * rho(t.variable)
  }

  /** A one-term sum. */
  lemma SumOne<V(!new)>(t: Term<V>, acc: real)
    ensures forall rho :: Value(LinExp(acc, [t]), rho) == acc + t.coef * rho(t.variable)
  {
    forall rho ensures Value(LinExp(acc, [t]), rho) == acc + t.coef * rho(t.variable) {
      var vs := TermValues([t], rho);
      assert vs == [TermValue(t, rho)];
      assert Sum(vs, 1, acc + vs[0]) == acc + vs[0];
    }
  }

  /** operator[](expr): the interval of the constant, plus each term's
      interval(c) * env[v], added in order. */
  function Eval<V(!new)>(d: IntervalDomain<V>, e: LinExp<V>): (i: I.Interval)
    requires Valid(d) && ExpFits(d.kind, e)
    ensures I.WF(i) && (d.kind == Z ==> I.IsZ(i))
  {
    Fold(d.kind, Scaled(d, e.terms), 0, I.FromNumber(e.constant))
  }

  /** The product interval(c) * env[v] of each term c * v. */
  function Scaled<V(!new)>(d: IntervalDomain<V>, ts: seq<Term<V>>): (ps: seq<I.Interval>)
    requires Valid(d) && CoefsFit(d.kind, ts)
    ensures |ps| == |ts|
    ensures forall j :: 0 <= j < |ts| ==> ps[j] == Scale(ts[j].coef, Get(d, ts[j].variable))
    ensures AllWF(d.kind, ps)
  {
    seq(|ts|, j requires 0 <= j < |ts| => Scale(ts[j].coef, Get(d, ts[j].variable)))
  }

  predicate AllWF(k: NumKind, ps: seq<I.Interval>) {
    forall j :: 0 <= j < |ps| ==> I.WF(ps[j]) && (k == Z ==> I.IsZ(ps[j]))
  }

  /** interval(c) * x. */
  function Scale(c: real, x: I.Interval): (r: I.Interval)
    requires I.WF(x)
    ensures I.WF(r)
    ensures IsInt(c) && I.IsZ(x) ==> I.IsZ(r)
  {
    I.Mul(I.FromNumber(c), x)
  }

  /** b in x implies c * b in interval(c) * x. */
  lemma ScaleSound(c: real, x: I.Interval, b: real, p: real)
    requires I.WF(x) && I.Contains(x, b) && p == c * b
    ensures I.Contains(Scale(c, x), p)
  {
    I.MulSound(I.FromNumber(c), x, c, b);
  }

  /** ScaleSound for one term of an expression. */
  lemma TermScaleSound<V(!new)>(t: Term<V>, x: I.Interval, rho: V -> real)
    requires I.WF(x) && I.Contains(x, rho(t.variable))
    ensures I.Contains(Scale(t.coef, x), TermValue(t, rho))
  {
    var c, b, p := t.coef, rho(t.variable), TermValue(t, rho);
    assert p == c * b;
    ScaleSound(c, x, b, p);
  }

  /** r += p over the products from index i on. */
  function Fold(k: NumKind, ps: seq<I.Interval>, i: nat, acc: I.Interval): (r: I.Interval)
    requires i <= |ps| && AllWF(k, ps)
    requires I.WF(acc) && (k == Z ==> I.IsZ(acc))
    ensures I.WF(r) && (k == Z ==> I.IsZ(r))
    decreases |ps| - i
  {
    if i == |ps| then acc
    else Fold(k, ps, i + 1, I.Add(acc, ps[i]))
  }

  /** The interval of an expression holds its value in every state the
      domain models. */
  lemma EvalSound<V(!new)>(d: IntervalDomain<V>, e: LinExp<V>, rho: V -> real)
    requires Valid(d) && ExpFits(d.kind, e) && S.Models(d.env, rho)
    ensures I.Contains(Eval(d, e), Value(e, rho))
  {
    var ps, vs := Scaled(d, e.terms), TermValues(e.terms, rho);
    forall j | 0 <= j < |e.terms| ensures I.Contains(ps[j], vs[j]) {
      var t := e.terms[j];
      TermScaleSound(t, Get(d, t.variable), rho);
    }
    FoldSound(d.kind, ps, vs, 0, I.FromNumber(e.constant), e.constant);
  }

  /** If each product holds its term's value and acc holds a, the fold
      from index i holds a plus the values of the terms from i on. */
  lemma {:induction false} FoldSound(k: NumKind, ps: seq<I.Interval>, vs: seq<real>, i: nat, acc: I.Interval, a: real)
    requires i <= |ps| && |ps| == |vs| && AllWF(k, ps)
    requires I.WF(acc) && (k == Z ==> I.IsZ(acc))
    requires forall j :: 0 <= j < |vs| ==> I.Contains(ps[j], vs[j])
    requires I.Contains(acc, a)
    ensures I.Contains(Fold(k, ps, i, acc), Sum(vs, i, a))
    decreases |ps| - i
  {
    if i < |ps| {
      I.AddSound(acc, ps[i], a, vs[i]);
      FoldSound(k, ps, vs, i + 1, I.Add(acc, ps[i]), a + vs[i]);
    }
  }

  /** get_variable(): the expression is one variable, with coefficient 1
      and no constant. */
  function AsVariable<V(!new)>(e: LinExp<V>): (r: Option<V>)
    ensures r.Some? ==> forall rho :: Value(e, rho) == rho(r.value)
  {
    if e.constant == 0.0 && |e.terms| == 1 && e.terms[0].coef == 1.0 then
      assert e == LinExp(0.0, [e.terms[0]]);
      SumOne(e.terms[0], 0.0);
      Some(e.terms[0].variable)
    else None
  }

  /** The expression made of one variable. */
  function VarExp<V(!new)>(v: V): (e: LinExp<V>)
    ensures AsVariable(e) == Some(v)
  {
    LinExp(0.0, [Term(1.0, v)])
  }

  /** The value of an integral expression in an integral state is an
      integer. */
  lemma ValueFits<V(!new)>(d: IntervalDomain<V>, e: LinExp<V>, rho: V -> real)
    requires ExpFits(d.kind, e) && Models(d, rho)
    ensures Fits(d.kind, Value(e, rho))
  {
    var vs := TermValues(e.terms, rho);
    forall j | 0 <= j < |vs| ensures Fits(d.kind, vs[j]) {
      TermFits(d.kind, e.terms[j], rho);
    }
    SumFits(d.kind, vs, 0, e.constant);
  }

  lemma {:induction false} SumFits(k: NumKind, vs: seq<real>, i: nat, a: real)
    requires i <= |vs| && Fits(k, a)
    requires forall j :: 0 <= j < |vs| ==> Fits(k, vs[j])
    ensures Fits(k, Sum(vs, i, a))
    decreases |vs| - i
  {
    if i < |vs| {
      FitsAdd(k, a, vs[i]);
      SumFits(k, vs, i + 1, a + vs[i]);
    }
  }

  /** An integral coefficient times an integral value is integral. */
  lemma TermFits<V(!new)>(k: NumKind, t: Term<V>, rho: V -> real)
    requires Fits(k, t.coef) && Fits(k, rho(t.variable))
    ensures Fits(k, TermValue(t, rho))
  {
    FitsMul(k, t.coef, rho(t.variable), TermValue(t, rho));
  }

  lemma FitsMul(k: NumKind, c: real, v: real, p: real)
    requires Fits(k, c) && Fits(k, v) && p == c * v
    ensures Fits(k, p)
  {
    if k == Z {
      IntClosed(c, v);
    }
  }

  lemma FitsAdd(k: NumKind, a: real, b: real)
    requires Fits(k, a) && Fits(k, b)
    ensures Fits(k, a + b)
  {
    if k == Z {
      IntClosed(a, b);
    }
  }

  /** assign(x, e): x takes the interval of e (the variable's own interval
      when e is a variable), the rest is kept. */
  function Assign<V(!new)>(d: IntervalDomain<V>, x: V, e: LinExp<V>): (r: IntervalDomain<V>)
    requires Valid(d) && ExpFits(d.kind, e)
    ensures Valid(r) && r.kind == d.kind
    ensures IsBottom(r) <==> IsBottom(d) || I.IsBottom(if AsVariable(e).Some? then Get(d, AsVariable(e).value) else Eval(d, e))
    ensures !IsBottom(r) ==> Get(r, x) == (if AsVariable(e).Some? then Get(d, AsVariable(e).value) else Eval(d, e))
    ensures !IsBottom(r) ==> forall w :: w != x ==> Get(r, w) == Get(d, w)
    ensures forall rho :: Models(d, rho) ==> Models(r, Update(rho, x, Value(e, rho)))
  {
    var i := match AsVariable(e) case Some(v) => Get(d, v) case None => Eval(d, e);
    var r := Set(d, x, i);
    assert forall rho :: Models(d, rho) ==> Models(r, Update(rho, x, Value(e, rho))) by {
      forall rho | Models(d, rho) ensures Models(r, Update(rho, x, Value(e, rho))) {
        ValueFits(d, e, rho);
        EvalSound(d, e, rho);
      }
    }
    r
  }

  /** Integer conversions (trunc, sext, zext) ignore the widths: the
      destination gets the interval of src. */
  function IntConv<V(!new)>(d: IntervalDomain<V>, dst: V, src: V): (r: IntervalDomain<V>)
    requires Valid(d)
    ensures Valid(r) && r.kind == d.kind
    ensures forall rho :: Models(d, rho) ==> Models(r, Update(rho, dst, rho(src)))
    ensures IsBottom(r) <==> IsBottom(d) || I.IsBottom(Get(d, src))
    ensures !IsBottom(r) ==> Get(r, dst) == Get(d, src)
    ensures !IsBottom(r) ==> forall w :: w != dst ==> Get(r, w) == Get(d, w)
  {
    Assign(d, dst, VarExp(src))
  }

  // ---------------------------------------------------------------------
  // Operations on variables and constants

  /** The right-hand operand of apply: a variable or a number. */
  datatype Operand<V> = Var(v: V) | Const(n: real)

  predicate OperandFits<V(!new)>(k: NumKind, z: Operand<V>) {
    z.Const? ==> Fits(k, z.n)
  }

  function OperandInterval<V(!new)>(d: IntervalDomain<V>, z: Operand<V>): (i: I.Interval)
    requires Valid(d) && OperandFits(d.kind, z)
    ensures I.WF(i) && (d.kind == Z ==> I.IsZ(i))
    ensures forall rho :: Models(d, rho) ==> I.Contains(i, OperandValue(z, rho))
  {
    match z
    case Var(v) => Get(d, v)
    case Const(n) => I.FromNumber(n)
  }

  function OperandValue<V(!new)>(z: Operand<V>, rho: V -> real): real {
    match z
    case Var(v) => rho(v)
    case Const(n) => n
  }

  lemma OperandValueFits<V(!new)>(d: IntervalDomain<V>, z: Operand<V>, rho: V -> real)
    requires OperandFits(d.kind, z) && Models(d, rho)
    ensures Fits(d.kind, OperandValue(z, rho))
  {
  }

  /** operation_t. */
  datatype ArithOp = Addition | Subtraction | Multiplication | Division

  /** The interval operator for each arithmetic operation; division is the
      instantiation's operator/. */
  function Arith(k: NumKind, op: ArithOp, x: I.Interval, y: I.Interval): (r: I.Interval)
    requires I.WF(x) && I.WF(y) && (k == Z ==> I.IsZ(x) && I.IsZ(y))
    ensures I.WF(r) && (k == Z ==> I.IsZ(r))
    ensures I.IsBottom(x) || I.IsBottom(y) ==> r == I.Bottom()
  {
    match op
    case Addition => I.Add(x, y)
    case Subtraction => I.Sub(x, y)
    case Multiplication => I.Mul(x, y)
    case Division => if k == Q then D.QDiv(x, y) else D.ZDiv(x, y)
  }

  /** The concrete operation, with the instantiation's division: exact over
      the rationals, truncating over the integers. */
  function ArithValue(k: NumKind, op: ArithOp, a: real, b: real): real
    requires op == Division ==> b != 0.0
    requires k == Z ==> IsInt(a) && IsInt(b)
  {
    match op
    case Addition => a + b
    case Subtraction => a - b
    case Multiplication => a * b
    case Division => NumDiv(k, a, b)
  }

  /** Each interval operation holds the concrete result of any of its
      members. */
  lemma ArithSound(k: NumKind, op: ArithOp, x: I.Interval, y: I.Interval, a: real, b: real)
    requires I.WF(x) && I.WF(y) && (k == Z ==> I.IsZ(x) && I.IsZ(y))
    requires I.Contains(x, a) && I.Contains(y, b)
    requires op == Division ==> b != 0.0
    requires k == Z ==> IsInt(a) && IsInt(b)
    ensures I.Contains(Arith(k, op, x, y), ArithValue(k, op, a, b))
    ensures k == Z ==> IsInt(ArithValue(k, op, a, b))
  {
    ArithContains(k, op, x, y, a, b);
    if k == Z {
      ArithFits(op, a, b);
    }
  }

  lemma ArithContains(k: NumKind, op: ArithOp, x: I.Interval, y: I.Interval, a: real, b: real)
    requires I.WF(x) && I.WF(y) && (k == Z ==> I.IsZ(x) && I.IsZ(y))
    requires I.Contains(x, a) && I.Contains(y, b)
    requires op == Division ==> b != 0.0
    requires k == Z ==> IsInt(a) && IsInt(b)
    ensures I.Contains(Arith(k, op, x, y), ArithValue(k, op, a, b))
  {
    match op
    case Addition => I.AddSound(x, y, a, b);
    case Subtraction => I.SubSound(x, y, a, b);
    case Multiplication => I.MulSound(x, y, a, b);
    case Division => DivContains(k, x, y, a, b);
  }

  lemma DivContains(k: NumKind, x: I.Interval, y: I.Interval, a: real, b: real)
    requires I.WF(x) && I.WF(y) && (k == Z ==> I.IsZ(x) && I.IsZ(y))
    requires I.Contains(x, a) && I.Contains(y, b) && b != 0.0
    requires k == Z ==> IsInt(a) && IsInt(b)
    ensures I.Contains(Arith(k, Division, x, y), ArithValue(k, Division, a, b))
  {
    if k == Q {
      D.QDivSound(x, y, a, b);
    } else {
      D.ZDivSound(x, y, a.Floor, b.Floor);
    }
  }

  /** Over the integers every arithmetic operation stays integral. */
  lemma ArithFits(op: ArithOp, a: real, b: real)
    requires op == Division ==> b != 0.0
    requires IsInt(a) && IsInt(b)
    ensures IsInt(ArithValue(Z, op, a, b))
  {
    if op == Division {
      IntOfInt(TDiv(a.Floor, b.Floor));
    } else {
      IntClosed(a, b);
    }
  }

  /** apply(op, x, y, z) and apply(op, x, y, k): x := y op z. */
  function ApplyArith<V(!new)>(d: IntervalDomain<V>, op: ArithOp, x: V, y: V, z: Operand<V>): (r: IntervalDomain<V>)
    requires Valid(d) && OperandFits(d.kind, z)
    ensures Valid(r) && r.kind == d.kind
    ensures IsBottom(r) <==> IsBottom(d) || I.IsBottom(Arith(d.kind, op, Get(d, y), OperandInterval(d, z)))
    ensures !IsBottom(r) ==> Get(r, x) == Arith(d.kind, op, Get(d, y), OperandInterval(d, z))
    ensures !IsBottom(r) ==> forall w :: w != x ==> Get(r, w) == Get(d, w)
    ensures forall rho :: Models(d, rho) && (op == Division ==> OperandValue(z, rho) != 0.0) ==>
      Models(r, Update(rho, x, ArithValue(d.kind, op, rho(y), OperandValue(z, rho))))
  {
    var yi, zi := Get(d, y), OperandInterval(d, z);
    var xi := Arith(d.kind, op, yi, zi);
    var r := Set(d, x, xi);
    assert forall rho :: Models(d, rho) && (op == Division ==> OperandValue(z, rho) != 0.0) ==>
      Models(r, Update(rho, x, ArithValue(d.kind, op, rho(y), OperandValue(z, rho)))) by {
      forall rho | Models(d, rho) && (op == Division ==> OperandValue(z, rho) != 0.0)
        ensures Models(r, Update(rho, x, ArithValue(d.kind, op, rho(y), OperandValue(z, rho))))
      {
        OperandValueFits(d, z, rho);
        assert Fits(d.kind, rho(y));
        ArithSound(d.kind, op, yi, zi, rho(y), OperandValue(z, rho));
      }
    }
    r
  }

  /** bitwise_operation_t. */
  datatype BitOp = And | Or | Xor | Shl | LShr | AShr

  /** The interval operator for each bitwise operation: the integral
      operators, and top (or bottom) over the rationals. */
  function Bitwise(k: NumKind, op: BitOp, x: I.Interval, y: I.Interval): (r: I.Interval)
    requires I.WF(x) && I.WF(y) && (k == Z ==> I.IsZ(x) && I.IsZ(y))
    ensures I.WF(r) && (k == Z ==> I.IsZ(r))
    ensures I.IsBottom(x) || I.IsBottom(y) ==> r == I.Bottom()
    ensures k == Q && !I.IsBottom(x) && !I.IsBottom(y) ==> r == I.Top()
  {
    if k == Q then I.TopUnlessBottom(x, y)
    else
      match op
      case And => B.And(x, y)
      case Or => B.Or(x, y)
      case Xor => B.Xor(x, y)
      case Shl => B.Shl(x, y)
      case LShr => B.LShr(x, y)
      case AShr => B.AShr(x, y)
  }

  /** The concrete bitwise operation on unbounded two's-complement
      integers; None where it has no width-independent value (a negative
      shift amount, or a logical shift of a negative number). */
  function BitValue(op: BitOp, a: int, b: int): Option<int> {
    match op
    case And => Some(BitAnd(a, b))
    case Or => Some(BitOr(a, b))
    case Xor => Some(BitXor(a, b))
    case Shl => if b >= 0 then Some(a * Pow2(b)) else None
    case LShr => if b >= 0 && a >= 0 then Some(B.ShiftRight(a, b)) else None
    case AShr => if b >= 0 then Some(B.ShiftRight(a, b)) else None
  }

  /** Each integral bitwise operator holds every defined concrete result of
      its members. */
  lemma BitwiseSound(op: BitOp, x: I.Interval, y: I.Interval, a: int, b: int)
    requires I.WF(x) && I.WF(y) && I.IsZ(x) && I.IsZ(y)
    requires I.Contains(x, a as real) && I.Contains(y, b as real)
    ensures BitValue(op, a, b).Some? ==> I.Contains(Bitwise(Z, op, x, y), BitValue(op, a, b).value as real)
  {
    match op
    case And => B.AndSound(x, y, a, b);
    case Or => B.OrSound(x, y, a, b);
    case Xor => B.XorSound(x, y, a, b);
    case Shl => if b >= 0 { B.ShlSound(x, y, a, b); }
    case LShr => if b >= 0 { B.LShrSound(x, y, a, b); }
    case AShr => if b >= 0 { B.AShrSound(x, y, a, b); }
  }

  /** apply(bitwise op, x, y, z) and apply(bitwise op, x, y, k). Over the
      rationals x becomes unconstrained. */
  function ApplyBitwise<V(!new)>(d: IntervalDomain<V>, op: BitOp, x: V, y: V, z: Operand<V>): (r: IntervalDomain<V>)
    requires Valid(d) && OperandFits(d.kind, z)
    ensures Valid(r) && r.kind == d.kind
    ensures IsBottom(r) <==> IsBottom(d) || I.IsBottom(Bitwise(d.kind, op, Get(d, y), OperandInterval(d, z)))
    ensures !IsBottom(r) ==> Get(r, x) == Bitwise(d.kind, op, Get(d, y), OperandInterval(d, z))
    ensures !IsBottom(r) ==> forall w :: w != x ==> Get(r, w) == Get(d, w)
    ensures d.kind == Z ==> forall rho :: Models(d, rho) && BitValue(op, rho(y).Floor, OperandValue(z, rho).Floor).Some? ==>
      Models(r, Update(rho, x, BitValue(op, rho(y).Floor, OperandValue(z, rho).Floor).value as real))
    ensures d.kind == Q ==> forall rho, a :: Models(d, rho) ==> Models(r, Update(rho, x, a))
  {
    var yi, zi := Get(d, y), OperandInterval(d, z);
    var xi := Bitwise(d.kind, op, yi, zi);
    var r := Set(d, x, xi);
    assert d.kind == Z ==> forall rho :: Models(d, rho) && BitValue(op, rho(y).Floor, OperandValue(z, rho).Floor).Some? ==>
      Models(r, Update(rho, x, BitValue(op, rho(y).Floor, OperandValue(z, rho).Floor).value as real)) by {
      if d.kind == Z {
        forall rho | Models(d, rho) && BitValue(op, rho(y).Floor, OperandValue(z, rho).Floor).Some?
          ensures Models(r, Update(rho, x, BitValue(op, rho(y).Floor, OperandValue(z, rho).Floor).value as real))
        {
          var a, b := rho(y), OperandValue(z, rho);
          OperandValueFits(d, z, rho);
          assert Fits(d.kind, a);
          BitwiseSound(op, yi, zi, a.Floor, b.Floor);
          IntOfInt(BitValue(op, a.Floor, b.Floor).value);
        }
      }
    }
    assert d.kind == Q ==> forall rho, a :: Models(d, rho) ==> Models(r, Update(rho, x, a)) by {
      if d.kind == Q {
        forall rho, a | Models(d, rho) ensures Models(r, Update(rho, x, a)) {
          assert I.Contains(yi, rho(y)) && I.Contains(zi, OperandValue(z, rho));
        }
      }
    }
    r
  }

  /** div_operation_t. */
  datatype DivOp = SDiv | UDiv | SRem | URem

  /** The interval operator for each division operation: operator/, the
      integral remainders, and top (or bottom) for unsigned division and,
      over the rationals, for the remainders. */
  function Divide(k: NumKind, op: DivOp, x: I.Interval, y: I.Interval): (r: I.Interval)
    requires I.WF(x) && I.WF(y) && (k == Z ==> I.IsZ(x) && I.IsZ(y))
    ensures I.WF(r) && (k == Z ==> I.IsZ(r))
    ensures I.IsBottom(x) || I.IsBottom(y) ==> r == I.Bottom()
    ensures op == UDiv || (k == Q && op != SDiv) ==> r == I.TopUnlessBottom(x, y)
  {
    match op
    case SDiv => Arith(k, Division, x, y)
    case UDiv => I.TopUnlessBottom(x, y)
    case SRem => if k == Q then I.TopUnlessBottom(x, y) else D.SRem(x, y)
    case URem => if k == Q then I.TopUnlessBottom(x, y) else D.URem(x, y)
  }

  /** The concrete signed division and remainders on unbounded integers;
      None for a zero divisor, for unsigned division, and for an unsigned
      remainder with a negative operand, whose values depend on the
      width. */
  function DivValue(op: DivOp, a: int, b: int): Option<int> {
    if b == 0 then None
    else
      match op
      case SDiv => Some(TDiv(a, b))
      case UDiv => None
      case SRem => Some(TRem(a, b))
      case URem => if a >= 0 && b > 0 then Some(a % b) else None
  }

  /** Each integral division operator holds every defined concrete result
      of its members. */
  lemma DivisionSound(op: DivOp, x: I.Interval, y: I.Interval, a: int, b: int)
    requires I.WF(x) && I.WF(y) && I.IsZ(x) && I.IsZ(y)
    requires I.Contains(x, a as real) && I.Contains(y, b as real)
    ensures DivValue(op, a, b).Some? ==> I.Contains(Divide(Z, op, x, y), DivValue(op, a, b).value as real)
  {
    if b != 0 {
      match op
      case SDiv => D.ZDivSound(x, y, a, b);
      case UDiv =>
      case SRem => D.SRemSound(x, y, a, b);
      case URem => D.URemSound(x, y, a, b);
    }
  }

  /** apply(div op, x, y, z) and apply(div op, x, y, k). Over the
      rationals signed division is exact division and the rest leave x
      unconstrained. */
  function ApplyDivision<V(!new)>(d: IntervalDomain<V>, op: DivOp, x: V, y: V, z: Operand<V>): (r: IntervalDomain<V>)
    requires Valid(d) && OperandFits(d.kind, z)
    ensures Valid(r) && r.kind == d.kind
    ensures IsBottom(r) <==> IsBottom(d) || I.IsBottom(Divide(d.kind, op, Get(d, y), OperandInterval(d, z)))
    ensures !IsBottom(r) ==> Get(r, x) == Divide(d.kind, op, Get(d, y), OperandInterval(d, z))
    ensures !IsBottom(r) ==> forall w :: w != x ==> Get(r, w) == Get(d, w)
    ensures d.kind == Z ==> forall rho :: Models(d, rho) && DivValue(op, rho(y).Floor, OperandValue(z, rho).Floor).Some? ==>
      Models(r, Update(rho, x, DivValue(op, rho(y).Floor, OperandValue(z, rho).Floor).value as real))
    ensures d.kind == Q && op == SDiv ==> forall rho :: Models(d, rho) && OperandValue(z, rho) != 0.0 ==>
      Models(r, Update(rho, x, rho(y) / OperandValue(z, rho)))
    ensures d.kind == Q && op != SDiv ==> forall rho, a :: Models(d, rho) ==> Models(r, Update(rho, x, a))
  {
    var yi, zi := Get(d, y), OperandInterval(d, z);
    var xi := Divide(d.kind, op, yi, zi);
    var r := Set(d, x, xi);
    assert d.kind == Z ==> forall rho :: Models(d, rho) && DivValue(op, rho(y).Floor, OperandValue(z, rho).Floor).Some? ==>
      Models(r, Update(rho, x, DivValue(op, rho(y).Floor, OperandValue(z, rho).Floor).value as real)) by {
      if d.kind == Z {
        forall rho | Models(d, rho) && DivValue(op, rho(y).Floor, OperandValue(z, rho).Floor).Some?
          ensures Models(r, Update(rho, x, DivValue(op, rho(y).Floor, OperandValue(z, rho).Floor).value as real))
        {
          DivisionStep(d, op, y, z, rho);
        }
      }
    }
    assert d.kind == Q && op == SDiv ==> forall rho :: Models(d, rho) && OperandValue(z, rho) != 0.0 ==>
      Models(r, Update(rho, x, rho(y) / OperandValue(z, rho))) by {
      if d.kind == Q && op == SDiv {
        forall rho | Models(d, rho) && OperandValue(z, rho) != 0.0 ensures Models(r, Update(rho, x, rho(y) / OperandValue(z, rho))) {
          QDivisionStep(d, y, z, rho);
        }
      }
    }
    assert d.kind == Q && op != SDiv ==> forall rho, a :: Models(d, rho) ==> Models(r, Update(rho, x, a)) by {
      if d.kind == Q && op != SDiv {
        forall rho, a | Models(d, rho) ensures Models(r, Update(rho, x, a)) {
          assert I.Contains(yi, rho(y)) && I.Contains(zi, OperandValue(z, rho));
        }
      }
    }
    r
  }

  /** The integral division operator applied to y's and z's intervals
      holds the concrete result. */
  lemma DivisionStep<V(!new)>(d: IntervalDomain<V>, op: DivOp, y: V, z: Operand<V>, rho: V -> real)
    requires Valid(d) && d.kind == Z && OperandFits(d.kind, z) && Models(d, rho)
    requires DivValue(op, rho(y).Floor, OperandValue(z, rho).Floor).Some?
    ensures I.Contains(Divide(Z, op, Get(d, y), OperandInterval(d, z)), DivValue(op, rho(y).Floor, OperandValue(z, rho).Floor).value as real)
    ensures Fits(Z, DivValue(op, rho(y).Floor, OperandValue(z, rho).Floor).value as real)
  {
    var a, b := rho(y), OperandValue(z, rho);
    OperandValueFits(d, z, rho);
    assert Fits(d.kind, a);
    DivisionSound(op, Get(d, y), OperandInterval(d, z), a.Floor, b.Floor);
    IntOfInt(DivValue(op, a.Floor, b.Floor).value);
  }

  /** The rational division operator applied to y's and z's intervals
      holds the exact quotient. */
  lemma QDivisionStep<V(!new)>(d: IntervalDomain<V>, y: V, z: Operand<V>, rho: V -> real)
    requires Valid(d) && d.kind == Q && OperandFits(d.kind, z) && Models(d, rho)
    requires OperandValue(z, rho) != 0.0
    ensures I.Contains(Divide(Q, SDiv, Get(d, y), OperandInterval(d, z)), rho(y) / OperandValue(z, rho))
  {
    var x, w := Get(d, y), OperandInterval(d, z);
    var a, b := rho(y), OperandValue(z, rho);
    assert Divide(Q, SDiv, x, w) == D.QDiv(x, w);
    D.QDivSound(x, w, a, b);
  }

  // ---------------------------------------------------------------------
  // Linear constraints

  /** The kinds of linear constraint: e == 0, e != 0, e <= 0. */
  datatype ConstraintKind = Equality | Disequation | Inequality

  datatype LinearConstraint<V> = LinearConstraint(exp: LinExp<V>, kind: ConstraintKind, isUnsigned: bool)

  predicate Satisfies<V(!new)>(c: LinearConstraint<V>, rho: V -> real) {
    match c.kind
    case Equality => Value(c.exp, rho) == 0.0
    case Disequation => Value(c.exp, rho) != 0.0
    case Inequality => Value(c.exp, rho) <= 0.0
  }

  /** The constraints add() hands to the solver: every one but the unsigned
      inequalities, in order. */
  function SignedOnly<V(!new)>(cs: seq<LinearConstraint<V>>): (r: seq<LinearConstraint<V>>)
    ensures |r| <= |cs|
    ensures forall c :: c in r <==> c in cs && !(c.kind == Inequality && c.isUnsigned)
    ensures (forall i :: 0 <= i < |cs| ==> !(cs[i].kind == Inequality && cs[i].isUnsigned)) ==> r == cs
  {
    if |cs| == 0 then []
    else
      var rest := SignedOnly(cs[1..]);
      assert forall c :: c in cs <==> c == cs[0] || c in cs[1..];
      if cs[0].kind == Inequality && cs[0].isUnsigned then rest else [cs[0]] + rest
  }

  /** One constraint is kept unless it is an unsigned inequality. */
  lemma SignedOnlyOne<V(!new)>(c: LinearConstraint<V>)
    ensures SignedOnly([c]) == if c.kind == Inequality && c.isUnsigned then [] else [c]
  {
    assert [c][1..] == [];
  }

  /** The filter works constraint by constraint: it keeps the order and the
      repetitions of the constraints it keeps. */
  lemma {:induction false} SignedOnlyAppend<V(!new)>(a: seq<LinearConstraint<V>>, b: seq<LinearConstraint<V>>)
    ensures SignedOnly(a + b) == SignedOnly(a) + SignedOnly(b)
    decreases |a|
  {
    if |a| == 0 {
      assert a + b == b;
    } else {
      assert (a + b)[0] == a[0];
      assert (a + b)[1..] == a[1..] + b;
      SignedOnlyAppend(a[1..], b);
    }
  }

  /** add(csts, threshold) and operator+=: on a non-bottom state, run the
      linear interval solver (a parameter here) on the signed constraints
      with the given reduction-cycle bound. */
  function AddConstraints<V(!new)>(d: IntervalDomain<V>, cs: seq<LinearConstraint<V>>, threshold: nat,
                                   solve: (seq<LinearConstraint<V>>, nat, S.SeparateDomain<V>) -> S.SeparateDomain<V>): (r: IntervalDomain<V>)
    ensures IsBottom(d) ==> r == d
    ensures r.kind == d.kind
    ensures !IsBottom(d) ==> r.env == solve(SignedOnly(cs), threshold, d.env)
  {
    if IsBottom(d) then d
    else IntervalDomain(d.kind, solve(SignedOnly(cs), threshold, d.env))
  }

  /** max_reduction_cycles, the domain's template parameter and the default
      threshold of add. */
  const MaxReductionCycles: nat := 10

  /** operator+= and operator+: add with the default threshold. */
  function Constrain<V(!new)>(d: IntervalDomain<V>, cs: seq<LinearConstraint<V>>,
                              solve: (seq<LinearConstraint<V>>, nat, S.SeparateDomain<V>) -> S.SeparateDomain<V>): (r: IntervalDomain<V>)
    ensures IsBottom(d) ==> r == d
    ensures r.kind == d.kind
    ensures !IsBottom(d) ==> r.env == solve(SignedOnly(cs), 10, d.env)
  {
    AddConstraints(d, cs, MaxReductionCycles, solve)
  }

  /** v >= n as the constraint n - v <= 0. */
  function AtLeast<V(!new)>(v: V, n: real): (c: LinearConstraint<V>)
    ensures forall rho :: Satisfies(c, rho) <==> rho(v) >= n
  {
    SumOne(Term(-1.0, v), n);
    LinearConstraint(LinExp(n, [Term(-1.0, v)]), Inequality, false)
  }

  /** v <= n as the constraint v - n <= 0. */
  function AtMost<V(!new)>(v: V, n: real): (c: LinearConstraint<V>)
    ensures forall rho :: Satisfies(c, rho) <==> rho(v) <= n
  {
    SumOne(Term(1.0, v), -n);
    LinearConstraint(LinExp(-n, [Term(1.0, v)]), Inequality, false)
  }

  /** A constraint nothing satisfies: 1 <= 0. */
  function False<V(!new)>(): LinearConstraint<V> {
    LinearConstraint(LinExp(1.0, []), Inequality, false)
  }

  /** No state satisfies the false constraint. */
  lemma FalseUnsatisfiable<V(!new)>(rho: V -> real)
    ensures !Satisfies(False<V>(), rho)
  {
    assert Value(False<V>().exp, rho) == 1.0;
  }

  /** to_linear_constraint_system: false for bottom, otherwise each finite
      bound of each stored interval. */
  function ToConstraints<V(!new)>(d: IntervalDomain<V>): (cs: set<LinearConstraint<V>>)
    requires Valid(d)
    ensures IsBottom(d) ==> cs == {False()}
    ensures IsTop(d) ==> cs == {}
  {
    if IsBottom(d) then {False()}
    else
      var t := d.env.tree;
      (set v | v in t && t[v].lb.Fin? :: AtLeast(v, t[v].lb.n)) +
      (set v | v in t && t[v].ub.Fin? :: AtMost(v, t[v].ub.n))
  }

  /** The constraint system describes exactly the interval environment: a
      state satisfies all of it iff the environment models it. */
  lemma ToConstraintsMeaning<V(!new)>(d: IntervalDomain<V>, rho: V -> real)
    requires Valid(d)
    ensures (forall c :: c in ToConstraints(d) ==> Satisfies(c, rho)) <==> S.Models(d.env, rho)
  {
    var cs := ToConstraints(d);
    if IsBottom(d) {
      assert False() in cs;
    } else {
      var t := d.env.tree;
      if forall c :: c in cs ==> Satisfies(c, rho) {
        forall v | v in t ensures I.Contains(t[v], rho(v)) {
          if t[v].lb.Fin? {
            assert AtLeast(v, t[v].lb.n) in cs;
          }
          if t[v].ub.Fin? {
            assert AtMost(v, t[v].ub.n) in cs;
          }
        }
      }
    }
  }
}

=== FILE: interval_precision.dfy ===
/** Precision of the arithmetic of class `interval<Number>`: operator+,
    binary operator- and operator* give the least range that holds every
    concrete result of their members, so none of them loses more than the
    shape of a range forces it to. */
module IntervalPrecision {
  import opened Bounds
  import opened Intervals

  /** A member of a range unbounded below, at or below t. */
  function Below(x: Interval, t: real): (a: real)
    requires WF(x) && !IsBottom(x) && x.lb == NInf
    ensures Contains(x, a) && a <= t
  {
    if x.ub.Fin? && x.ub.n < t then x.ub.n else t
  }

  /** A member of a range unbounded above, at or above t. */
  function Above(x: Interval, t: real): (a: real)
    requires WF(x) && !IsBottom(x) && x.ub == PInf
    ensures Contains(x, a) && a >= t
  {
    if x.lb.Fin? && x.lb.n > t then x.lb.n else t
  }

  /** Any range holding every sum of members holds x + y. */
  lemma AddLeast(x: Interval, y: Interval, j: Interval)
    requires WF(x) && WF(y) && WF(j)
    requires forall a, b :: Contains(x, a) && Contains(y, b) ==> Contains(j, a + b)
    ensures Leq(Intervals.Add(x, y), j)
  {
    if !IsBottom(x) && !IsBottom(y) {
      WitnessIn(x);
      WitnessIn(y);
      assert Contains(j, Witness(x) + Witness(y));
      AddLow(x, y, j);
      AddHigh(x, y, j);
    }
  }

  /** The finite lower bound of j, or 0 when it has none. */
  function LowOr0(j: Interval): real {
    if j.lb.Fin? then j.lb.n else 0.0
  }

  /** The finite upper bound of j, or 0 when it has none. */
  function HighOr0(j: Interval): real {
    if j.ub.Fin? then j.ub.n else 0.0
  }

  lemma AddLow(x: Interval, y: Interval, j: Interval)
    requires WF(x) && WF(y) && WF(j) && !IsBottom(x) && !IsBottom(y) && !IsBottom(j)
    requires forall a, b :: Contains(x, a) && Contains(y, b) ==> Contains(j, a + b)
    ensures Le(j.lb, Bounds.Add(x.lb, y.lb))
  {
    WitnessIn(x);
    WitnessIn(y);
    if x.lb.Fin? && y.lb.Fin? {
      assert Contains(x, x.lb.n) && Contains(y, y.lb.n);
      assert Contains(j, x.lb.n + y.lb.n);
    } else if x.lb == NInf {
      var b := Witness(y);
      var a := Below(x, LowOr0(j) - b - 1.0);
      assert Contains(j, a + b);
    } else {
      var a := Witness(x);
      var b := Below(y, LowOr0(j) - a - 1.0);
      assert Contains(j, a + b);
    }
  }

  lemma AddHigh(x: Interval, y: Interval, j: Interval)
    requires WF(x) && WF(y) && WF(j) && !IsBottom(x) && !IsBottom(y) && !IsBottom(j)
    requires forall a, b :: Contains(x, a) && Contains(y, b) ==> Contains(j, a + b)
    ensures Le(Bounds.Add(x.ub, y.ub), j.ub)
  {
    WitnessIn(x);
    WitnessIn(y);
    if x.ub.Fin? && y.ub.Fin? {
      assert Contains(x, x.ub.n) && Contains(y, y.ub.n);
      assert Contains(j, x.ub.n + y.ub.n);
    } else if x.ub == PInf {
      var b := Witness(y);
      var a := Above(x, HighOr0(j) - b + 1.0);
      assert Contains(j, a + b);
    } else {
      var a := Witness(x);
      var b := Above(y, HighOr0(j) - a + 1.0);
      assert Contains(j, a + b);
    }
  }

  /** Any range holding every difference of members holds x - y. */
  lemma SubLeast(x: Interval, y: Interval, j: Interval)
    requires WF(x) && WF(y) && WF(j)
    requires forall a, b :: Contains(x, a) && Contains(y, b) ==> Contains(j, a - b)
    ensures Leq(Intervals.Sub(x, y), j)
  {
    if !IsBottom(x) && !IsBottom(y) {
      WitnessIn(x);
      WitnessIn(y);
      assert Contains(j, Witness(x) - Witness(y));
      SubLow(x, y, j);
      SubHigh(x, y, j);
    }
  }

  lemma SubLow(x: Interval, y: Interval, j: Interval)
    requires WF(x) && WF(y) && WF(j) && !IsBottom(x) && !IsBottom(y) && !IsBottom(j)
    requires forall a, b :: Contains(x, a) && Contains(y, b) ==> Contains(j, a - b)
    ensures Le(j.lb, Bounds.Sub(x.lb, y.ub))
  {
    WitnessIn(x);
    WitnessIn(y);
    if x.lb.Fin? && y.ub.Fin? {
      assert Contains(x, x.lb.n) && Contains(y, y.ub.n);
      assert Contains(j, x.lb.n - y.ub.n);
    } else if x.lb == NInf {
      var b := Witness(y);
      var a := Below(x, LowOr0(j) + b - 1.0);
      assert Contains(j, a - b);
    } else {
      var a := Witness(x);
      var b := Above(y, a - LowOr0(j) + 1.0);
      assert Contains(j, a - b);
    }
  }

  lemma SubHigh(x: Interval, y: Interval, j: Interval)
    requires WF(x) && WF(y) && WF(j) && !IsBottom(x) && !IsBottom(y) && !IsBottom(j)
    requires forall a, b :: Contains(x, a) && Contains(y, b) ==> Contains(j, a - b)
    ensures Le(Bounds.Sub(x.ub, y.lb), j.ub)
  {
    WitnessIn(x);
    WitnessIn(y);
    if x.ub.Fin? && y.lb.Fin? {
      assert Contains(x, x.ub.n) && Contains(y, y.lb.n);
      assert Contains(j, x.ub.n - y.lb.n);
    } else if x.ub == PInf {
      var b := Witness(y);
      var a := Above(x, HighOr0(j) + b + 1.0);
      assert Contains(j, a - b);
    } else {
      var a := Witness(x);
      var b := Below(y, a - HighOr0(j) - 1.0);
      assert Contains(j, a - b);
    }
  }

  /** Any range holding every product of members holds x * y: each corner
      product is reached, or approached without bound, by products of
      members. */
  lemma MulLeast(x: Interval, y: Interval, j: Interval)
    requires WF(x) && WF(y) && WF(j)
    requires forall a, b :: Contains(x, a) && Contains(y, b) ==> Contains(j, a * b)
    ensures Leq(Intervals.Mul(x, y), j)
  {
    if !IsBottom(x) && !IsBottom(y) {
      WitnessIn(x);
      WitnessIn(y);
      assert Contains(j, Witness(x) * Witness(y));
      CornerWithin(x, y, j, x.lb, y.lb);
      CornerWithin(x, y, j, x.lb, y.ub);
      CornerWithin(x, y, j, x.ub, y.lb);
      CornerWithin(x, y, j, x.ub, y.ub);
    }
  }

  /** A corner product lies within any range holding every product of
      members. */
  lemma CornerWithin(x: Interval, y: Interval, j: Interval, cx: Bound, cy: Bound)
    requires WF(x) && WF(y) && WF(j) && !IsBottom(x) && !IsBottom(y) && !IsBottom(j)
    requires (cx == x.lb || cx == x.ub) && (cy == y.lb || cy == y.ub)
    requires forall a, b :: Contains(x, a) && Contains(y, b) ==> Contains(j, a * b)
    ensures Le(j.lb, Bounds.Mul(cx, cy)) && Le(Bounds.Mul(cx, cy), j.ub)
  {
    BoundEnd(x, cx);
    BoundEnd(y, cy);
    var lo, hi := LowOr0(j), HighOr0(j);
    if cx == Fin(0.0) || cy == Fin(0.0) || (cx.Fin? && cy.Fin?) {
      var a, b := FiniteCorner(x, y, cx, cy, lo, hi);
      Bracketed(j, Bounds.Mul(cx, cy), a * b);
    } else if cx.Fin? {
      var a, b := OneInfinite(x, y, cx, cy, lo, hi);
      Bracketed(j, Bounds.Mul(cx, cy), a * b);
    } else if cy.Fin? {
      var a, b := InfiniteOne(x, y, cx, cy, lo, hi);
      Bracketed(j, Bounds.Mul(cx, cy), a * b);
    } else {
      var a, b := StretchBoth(x, y, cx, cy, lo, hi);
      Bracketed(j, Bounds.Mul(cx, cy), a * b);
    }
  }

  /** A member of j that stands for p puts p within j. */
  lemma Bracketed(j: Interval, p: Bound, v: real)
    requires WF(j) && !IsBottom(j) && Contains(j, v) && Reaches(p, v, LowOr0(j), HighOr0(j))
    ensures Le(j.lb, p) && Le(p, j.ub)
  {
  }

  /** v is the finite bound p, or lies below lo when p is -oo and above hi
      when p is +oo: the product of members that stands for a corner
      product p. */
  predicate Reaches(p: Bound, v: real, lo: real, hi: real) {
    match p
    case Fin(n) => n == v
    case NInf => v < lo
    case PInf => v > hi
  }

  /** A finite bound of a non-empty range is a member, and an infinite one
      is the end it stands for. */
  lemma BoundEnd(x: Interval, c: Bound)
    requires WF(x) && !IsBottom(x) && (c == x.lb || c == x.ub)
    ensures c.Fin? ==> Contains(x, c.n)
    ensures !c.Fin? ==> (c == NInf && x.lb == NInf) || (c == PInf && x.ub == PInf)
  {
  }

  /** A corner of a finite non-zero bound of x and an infinite bound of
      y. */
  lemma OneInfinite(x: Interval, y: Interval, cx: Bound, cy: Bound, lo: real, hi: real) returns (a: real, b: real)
    requires WF(y) && !IsBottom(y)
    requires cx.Fin? && cx.n != 0.0 && Contains(x, cx.n)
    requires (cy == NInf && y.lb == NInf) || (cy == PInf && y.ub == PInf)
    ensures Contains(x, a) && Contains(y, b)
    ensures Reaches(Bounds.Mul(cx, cy), a * b, lo, hi)
  {
    a := cx.n;
    b := Stretch(y, cx.n, cy, lo, hi);
  }

  /** The mirror case: an infinite bound of x and a finite non-zero bound
      of y. */
  lemma InfiniteOne(x: Interval, y: Interval, cx: Bound, cy: Bound, lo: real, hi: real) returns (a: real, b: real)
    requires WF(x) && !IsBottom(x)
    requires cy.Fin? && cy.n != 0.0 && Contains(y, cy.n)
    requires (cx == NInf && x.lb == NInf) || (cx == PInf && x.ub == PInf)
    ensures Contains(x, a) && Contains(y, b)
    ensures Reaches(Bounds.Mul(cx, cy), a * b, lo, hi)
  {
    b := cy.n;
    a := Stretch(x, cy.n, cx, lo, hi);
  }

  /** A corner with a zero or two finite bounds is the product of two
      members. */
  lemma FiniteCorner(x: Interval, y: Interval, cx: Bound, cy: Bound, lo: real, hi: real) returns (a: real, b: real)
    requires WF(x) && WF(y) && !IsBottom(x) && !IsBottom(y)
    requires cx.Fin? ==> Contains(x, cx.n)
    requires cy.Fin? ==> Contains(y, cy.n)
    requires cx == Fin(0.0) || cy == Fin(0.0) || (cx.Fin? && cy.Fin?)
    ensures Contains(x, a) && Contains(y, b)
    ensures Reaches(Bounds.Mul(cx, cy), a * b, lo, hi)
  {
    WitnessIn(x);
    WitnessIn(y);
    if cx == Fin(0.0) {
      a, b := 0.0, Witness(y);
    } else if cy == Fin(0.0) {
      a, b := Witness(x), 0.0;
    } else {
      a, b := cx.n, cy.n;
    }
  }

  /** A non-empty well-formed range holds its witness. */
  lemma WitnessIn(i: Interval)
    requires WF(i) && !IsBottom(i)
    ensures Contains(i, Witness(i))
  {
  }

  lemma ScaleLe(u: real, v: real, c: real)
    requires u <= v && c >= 0.0
    ensures u * c <= v * c
  {
  }

  /** A member b toward the infinite end e of y whose product with a
      non-zero c lies below lo (when c * e is -oo) or above hi. */
  lemma Stretch(y: Interval, c: real, e: Bound, lo: real, hi: real) returns (b: real)
    requires WF(y) && !IsBottom(y) && c != 0.0
    requires (e == NInf && y.lb == NInf) || (e == PInf && y.ub == PInf)
    ensures Contains(y, b)
    ensures Reaches(Bounds.Mul(Fin(c), e), c * b, lo, hi)
    ensures Reaches(Bounds.Mul(e, Fin(c)), b * c, lo, hi)
  {
    MulFiniteInfinite(c, e);
    if (c > 0.0) == (e == PInf) {
      b := StretchUp(y, c, e, hi);
    } else {
      b := StretchDown(y, c, e, lo);
    }
    assert b * c == c * b;
  }

  /** A non-zero number times an infinity is the infinity signed by both,
      in either order. */
  lemma MulFiniteInfinite(c: real, e: Bound)
    requires c != 0.0 && IsInfinite(e)
    ensures Bounds.Mul(Fin(c), e) == (if (c > 0.0) == (e == PInf) then PInf else NInf)
    ensures Bounds.Mul(e, Fin(c)) == Bounds.Mul(Fin(c), e)
  {
    MulCommutes(Fin(c), e);
  }

  lemma StretchUp(y: Interval, c: real, e: Bound, hi: real) returns (b: real)
    requires WF(y) && !IsBottom(y)
    requires (e == PInf && y.ub == PInf && c > 0.0) || (e == NInf && y.lb == NInf && c < 0.0)
    ensures Contains(y, b) && c * b > hi
  {
    var q := (hi + 1.0) / c;
    assert q * c == hi + 1.0;
    if c > 0.0 {
      b := Above(y, q);
      ScaleLe(q, b, c);
    } else {
      b := Below(y, q);
      ScaleLe(b, q, -c);
    }
  }

  lemma StretchDown(y: Interval, c: real, e: Bound, lo: real) returns (b: real)
    requires WF(y) && !IsBottom(y)
    requires (e == NInf && y.lb == NInf && c > 0.0) || (e == PInf && y.ub == PInf && c < 0.0)
    ensures Contains(y, b) && c * b < lo
  {
    var q := (lo - 1.0) / c;
    assert q * c == lo - 1.0;
    if c > 0.0 {
      b := Below(y, q);
      ScaleLe(b, q, c);
    } else {
      b := Above(y, q);
      ScaleLe(q, b, -c);
    }
  }

  lemma MulOfInfinities(u: Bound, v: Bound)
    requires IsInfinite(u) && IsInfinite(v)
    ensures Bounds.Mul(u, v) == (if u == v then PInf else NInf)
  {
  }

  /** Members toward two infinite ends whose product lies below lo or
      above hi, as the sign of the corner product says. */
  lemma StretchBoth(x: Interval, y: Interval, cx: Bound, cy: Bound, lo: real, hi: real) returns (a: real, b: real)
    requires WF(x) && WF(y) && !IsBottom(x) && !IsBottom(y)
    requires (cx == NInf && x.lb == NInf) || (cx == PInf && x.ub == PInf)
    requires (cy == NInf && y.lb == NInf) || (cy == PInf && y.ub == PInf)
    ensures Contains(x, a) && Contains(y, b)
    ensures Reaches(Bounds.Mul(cx, cy), a * b, lo, hi)
  {
    MulOfInfinities(cx, cy);
    var m := Span(lo, hi);
    a := if cx == NInf then Below(x, -1.0) else Above(x, 1.0);
    b := if cy == NInf then Below(y, -m) else Above(y, m);
    FarProduct(a, b, m);
  }

  /** A number above both |lo| and |hi|. */
  function Span(lo: real, hi: real): (m: real)
    ensures m > 0.0 && -m < lo && m > hi
  {
    (if lo >= 0.0 then lo else -lo) + (if hi >= 0.0 then hi else -hi) + 1.0
  }

  /** |a| >= 1 and |b| >= m give |a * b| >= m, with the sign of the signs. */
  lemma FarProduct(a: real, b: real, m: real)
    requires (a <= -1.0 || a >= 1.0) && (b <= -m || b >= m) && m > 0.0
    ensures (a < 0.0) == (b < 0.0) ==> a * b >= m
    ensures (a < 0.0) != (b < 0.0) ==> a * b <= -m
  {
    if a < 0.0 && b < 0.0 {
      ScaleLe(a, -1.0, -b);
    } else if a < 0.0 {
      ScaleLe(a, -1.0, b);
    } else if b < 0.0 {
      ScaleLe(1.0, a, -b);
    } else {
      ScaleLe(1.0, a, b);
    }
  }
}

=== FILE: numbers.dfy ===
/** Arithmetic of the arbitrary-precision integers (z_number) the interval
    domain is instantiated with: division and remainder rounding toward zero,
    powers of two, two's-complement bitwise operations and fill_ones.
    A z_number is carried inside a bound as a `real` without fractional part. */
module Numbers {

  /** A real that is an integer: how a z_number sits inside a bound. */
  predicate IsInt(r: real) {
    r.Floor as real == r
  }

  function Abs(a: int): nat {
    if a < 0 then -a else a
  }

  lemma IntClosed(a: real, b: real)
    requires IsInt(a) && IsInt(b)
    ensures IsInt(a + b) && IsInt(a - b) && IsInt(-a) && IsInt(a * b)
  {
    var i, j := a.Floor, b.Floor;
    IntOfInt(i + j);
    IntOfInt(i - j);
    IntOfInt(-i);
    var p := i * j;
    IntOfInt(p);
    IntProduct(i, j);
    assert a * b == p as real by {
      assert a == i as real && b == j as real;
    }
  }

  lemma IntProduct(i: int, j: int)
    ensures (i * j) as real == (i as real) * (j as real)
  {
  }

  lemma IntOfInt(k: int)
    ensures IsInt(k as real)
  {
  }

  /** Division rounding toward zero, as GMP's mpz_tdiv_q behind the
      z_number `/` operator does. */
  function TDiv(a: int, b: int): int
    requires b != 0
  {
    if (a >= 0) == (b > 0) then Abs(a) / Abs(b) else -(Abs(a) / Abs(b))
  }

  /** The remainder that goes with TDiv (the z_number `%`): it has the sign of
      the dividend and is smaller in magnitude than the divisor, which together
      with a == q * b + r pins truncated division down. */
  function TRem(a: int, b: int): (r: int)
    requires b != 0
    ensures a == TDiv(a, b) * b + r
    ensures Abs(r) < Abs(b)
    ensures a >= 0 ==> r >= 0
    ensures a <= 0 ==> r <= 0
  {
    TDivRemainder(a, b);
    a - TDiv(a, b) * b
  }

  /** On a non-negative dividend and a positive divisor the truncated and
      the Euclidean remainder agree. */
  lemma TRemNonNeg(a: int, b: int)
    requires a >= 0 && b > 0
    ensures TRem(a, b) == a % b
  {
    TDivBySign(a, b);
  }

  lemma TDivRemainder(a: int, b: int)
    requires b != 0
    ensures Abs(a - TDiv(a, b) * b) < Abs(b)
    ensures a >= 0 ==> a - TDiv(a, b) * b >= 0
    ensures a <= 0 ==> a - TDiv(a, b) * b <= 0
  {
    var A: int, B: int := Abs(a), Abs(b);
    var q: int := A / B;
    var p: int := q * B;
    assert 0 <= A - p < B;
    var t := TDiv(a, b);
    if b > 0 {
      assert b == B;
      if a >= 0 {
        assert t == q;
      } else {
        assert t == -q;
        NegTimes(q, B);
      }
    } else {
      assert b == -B;
      NegTimes(q, B);
      NegTimesNeg(q, B);
      if a >= 0 {
        assert t == -q;
      } else {
        assert t == q;
      }
    }
    assert t * b == (if (a >= 0) then p else -p);
  }

  lemma NegTimes(x: int, y: int)
    ensures (-x) * y == -(x * y) && x * (-y) == -(x * y)
  {
  }

  lemma NegTimesNeg(x: int, y: int)
    ensures (-x) * (-y) == x * y
  {
  }

  /** Truncated division is determined by its remainder's properties: any
      quotient whose remainder has the dividend's sign and is smaller than the
      divisor is the truncated quotient. */
  lemma {:induction false} TDivUnique(a: int, b: int, q: int)
    requires b != 0
    requires Abs(a - q * b) < Abs(b)
    requires a >= 0 ==> a - q * b >= 0
    requires a <= 0 ==> a - q * b <= 0
    ensures q == TDiv(a, b)
  {
    var t := TDiv(a, b);
    TDivRemainder(a, b);
    if t != q {
      var tb, qb, kb := t * b, q * b, (t - q) * b;
      DistributeSub(t, q, b, tb, qb, kb);
      MulAtLeast(t - q, b, kb);
      assert false;
    }
  }

  lemma DistributeSub(t: int, q: int, b: int, tb: int, qb: int, kb: int)
    requires tb == t * b && qb == q * b && kb == (t - q) * b
    ensures kb == tb - qb
  {
  }

  lemma MulAtLeast(k: int, b: int, kb: int)
    requires k != 0 && kb == k * b
    ensures Abs(kb) >= Abs(b)
  {
    if k > 0 {
      if b >= 0 { assert k * b >= b; } else { assert k * b <= b; }
    } else {
      if b >= 0 { assert k * b <= -b; } else { assert k * b >= -b; }
    }
  }

  /** Euclidean (floor) division by a positive number is monotone in the
      dividend. */
  lemma FloorDivMonotone(a1: int, a2: int, b: int)
    requires a1 <= a2 && b > 0
    ensures a1 / b <= a2 / b
  {
    var q1, q2 := a1 / b, a2 / b;
    if q1 > q2 {
      assert q1 * b >= (q2 + 1) * b by {
        MulLeInt(b, q2 + 1, q1);
      }
      assert false;
    }
  }

  /** Euclidean division of a non-negative number is antitone in a positive
      divisor. */
  lemma FloorDivAntitone(a: int, b1: int, b2: int)
    requires a >= 0 && 0 < b1 <= b2
    ensures a / b2 <= a / b1
  {
    var q1, q2 := a / b1, a / b2;
    assert q2 >= 0;
    MulLeInt(q2, b1, b2);
    assert q2 * b1 <= q2 * b2 <= a;
    if q1 < q2 {
      assert (q1 + 1) * b1 <= q2 * b1 by {
        MulLeInt(b1, q1 + 1, q2);
      }
      assert false;
    }
  }

  lemma MulLeInt(c: int, a: int, b: int)
    requires c >= 0 && a <= b
    ensures c * a <= c * b && a * c <= b * c
  {
    assert c * b - c * a == c * (b - a);
  }

  /** Truncated division is monotone in the dividend for a positive divisor
      and antitone for a negative one. */
  lemma TDivMonotone(a1: int, a2: int, b: int)
    requires a1 <= a2 && b != 0
    ensures b > 0 ==> TDiv(a1, b) <= TDiv(a2, b)
    ensures b < 0 ==> TDiv(a2, b) <= TDiv(a1, b)
  {
    TDivMagnitude(a1, a2, Abs(b));
    TDivBySign(a1, b);
    TDivBySign(a2, b);
  }

  /** Truncated division is the signed quotient of the magnitudes. */
  lemma TDivBySign(a: int, b: int)
    requires b != 0
    ensures (a >= 0) == (b > 0) ==> TDiv(a, b) == Abs(a) / Abs(b)
    ensures (a >= 0) != (b > 0) ==> TDiv(a, b) == -(Abs(a) / Abs(b))
  {
  }

  lemma TDivMagnitude(a1: int, a2: int, d: int)
    requires a1 <= a2 && d > 0
    ensures Abs(a1) / d >= 0 && Abs(a2) / d >= 0
    ensures a1 >= 0 ==> Abs(a1) / d <= Abs(a2) / d
    ensures a2 < 0 ==> Abs(a2) / d <= Abs(a1) / d
  {
    var n1, n2 := Abs(a1), Abs(a2);
    NonNegDiv(n1, d);
    NonNegDiv(n2, d);
    if a1 >= 0 {
      assert n1 <= n2;
      FloorDivMonotone(n1, n2, d);
    } else if a2 < 0 {
      assert n2 <= n1;
      FloorDivMonotone(n2, n1, d);
    }
  }

  lemma NonNegDiv(n: int, d: int)
    requires n >= 0 && d > 0
    ensures n / d >= 0
  {
  }

  /** For divisors of one sign, truncated division of a non-negative number
      is antitone in the divisor, and of a non-positive one monotone. */
  lemma TDivDivisor(a: int, b1: int, b2: int)
    requires b1 <= b2 && (0 < b1 || b2 < 0)
    ensures a >= 0 ==> TDiv(a, b2) <= TDiv(a, b1)
    ensures a <= 0 ==> TDiv(a, b1) <= TDiv(a, b2)
  {
    if 0 < b1 {
      FloorDivAntitone(Abs(a), b1, b2);
    } else {
      FloorDivAntitone(Abs(a), Abs(b2), Abs(b1));
    }
  }

  /** 2^k. */
  function Pow2(k: nat): (p: nat)
    ensures p >= 1
  {
    if k == 0 then 1 else 2 * Pow2(k - 1)
  }

  /** The loop of the shift operators that builds the factor 2^k by doubling. */
  method PowerOfTwo(k: nat) returns (factor: int)
    ensures factor == Pow2(k)
  {
    factor := 1;
    var i := 0;
    while k > i
      invariant 0 <= i <= k
      invariant factor == Pow2(i)
      decreases k - i
    {
      factor := factor * 2;
      i := i + 1;
    }
  }

  /** Halving an integer other than 0 and -1 strictly shrinks its magnitude,
      and halving never grows it. */
  lemma HalfShrinks(a: int)
    ensures Abs(a / 2) <= Abs(a)
    ensures a != 0 && a != -1 ==> Abs(a / 2) < Abs(a)
  {
  }

  /** Bitwise and on two's-complement integers of unbounded width (GMP's
      mpz_and): bit 0 is the Euclidean remainder by 2, the other bits are
      those of the floor half. */
  function BitAnd(a: int, b: int): int
    decreases Abs(a) + Abs(b)
  {
    if (a == 0 || a == -1) && (b == 0 || b == -1) then
      (if a == -1 && b == -1 then -1 else 0)
    else
      HalfShrinks(a); HalfShrinks(b);
      2 * BitAnd(a / 2, b / 2) + (if a % 2 == 1 && b % 2 == 1 then 1 else 0)
  }

  /** Bitwise inclusive or (mpz_ior). */
  function BitOr(a: int, b: int): int
    decreases Abs(a) + Abs(b)
  {
    if (a == 0 || a == -1) && (b == 0 || b == -1) then
      (if a == -1 || b == -1 then -1 else 0)
    else
      HalfShrinks(a); HalfShrinks(b);
      2 * BitOr(a / 2, b / 2) + (if a % 2 == 1 || b % 2 == 1 then 1 else 0)
  }

  /** Bitwise exclusive or (mpz_xor). */
  function BitXor(a: int, b: int): int
    decreases Abs(a) + Abs(b)
  {
    if (a == 0 || a == -1) && (b == 0 || b == -1) then
      (if a != b then -1 else 0)
    else
      HalfShrinks(a); HalfShrinks(b);
      2 * BitXor(a / 2, b / 2) + (a % 2 + b % 2) % 2
  }

  /** z_number::fill_ones: the all-ones number with as many bits as n, that
      is the least 2^k - 1 that is at least n. */
  function FillOnes(n: nat): nat {
    if n == 0 then 0 else 2 * FillOnes(n / 2) + 1
  }

  /** fill_ones yields a number of the form 2^k - 1 that is at least n. */
  lemma {:induction false} FillOnesShape(n: nat)
    ensures n <= FillOnes(n)
    ensures exists k: nat :: FillOnes(n) == Pow2(k) - 1
  {
    if n == 0 {
      assert FillOnes(n) == Pow2(0) - 1;
    } else {
      FillOnesShape(n / 2);
      var k: nat :| FillOnes(n / 2) == Pow2(k) - 1;
      assert FillOnes(n) == Pow2(k + 1) - 1;
    }
  }

  /** fill_ones is monotone. */
  lemma {:induction false} FillOnesMonotone(n: nat, m: nat)
    requires n <= m
    ensures FillOnes(n) <= FillOnes(m)
  {
    if n != 0 {
      FillOnesMonotone(n / 2, m / 2);
    }
  }

  /** On non-negative operands `and` is non-negative and below both operands. */
  lemma {:induction false} BitAndRange(a: int, b: int)
    requires a >= 0 && b >= 0
    ensures 0 <= BitAnd(a, b) <= a
    ensures BitAnd(a, b) <= b
    decreases a + b
  {
    if !((a == 0 || a == -1) && (b == 0 || b == -1)) {
      BitAndRange(a / 2, b / 2);
    }
  }

  /** On non-negative operands `or` lies between the larger operand and
      fill_ones of the larger operand. */
  lemma {:induction false} BitOrRange(a: int, b: int)
    requires a >= 0 && b >= 0
    ensures a <= BitOr(a, b) && b <= BitOr(a, b)
    ensures BitOr(a, b) <= FillOnes(if a > b then a else b)
    decreases a + b
  {
    if !((a == 0 || a == -1) && (b == 0 || b == -1)) {
      BitOrRange(a / 2, b / 2);
      var m := if a > b then a else b;
      assert (if a / 2 > b / 2 then a / 2 else b / 2) == m / 2;
    }
  }

  /** On non-negative operands `xor` is non-negative and never above `or`. */
  lemma {:induction false} BitXorRange(a: int, b: int)
    requires a >= 0 && b >= 0
    ensures 0 <= BitXor(a, b) <= BitOr(a, b)
    decreases a + b
  {
    if !((a == 0 || a == -1) && (b == 0 || b == -1)) {
      BitXorRange(a / 2, b / 2);
    }
  }
}

=== FILE: options.dfy ===
/** The optional value crab returns through boost::optional. */
module Options {

  datatype Option<+T> = None | Some(value: T)
}

=== FILE: separate_domain.dfy ===
/** Class `separate_domain<Key, Value>`: a non-relational abstract
    environment mapping keys to intervals, with an explicit bottom flag. A
    key that is absent stands for top, so top values are never stored; a
    bottom value anywhere collapses the whole environment to bottom. The
    Patricia tree of separate_domain is a `map` here: only its mapping matters. */
module SeparateDomains {
  import opened Options
  import I = Intervals

  datatype SeparateDomain<K> = SeparateDomain(isBottom: bool, tree: map<K, I.Interval>)

  /** What the operations maintain: a bottom environment has an empty tree,
      and every stored value is a well-formed interval that is neither
      bottom nor top. */
  predicate Inv<K(!new)>(d: SeparateDomain<K>) {
    (d.isBottom ==> d.tree == map[]) &&
    forall k :: k in d.tree ==> Stored(d.tree[k])
  }

  predicate Stored(v: I.Interval) {
    I.WF(v) && !I.IsBottom(v) && !I.IsTop(v)
  }

  /** separate_domain::top: no bindings. */
  function Top<K(!new)>(): SeparateDomain<K> {
    SeparateDomain(false, map[])
  }

  /** separate_domain::bottom. */
  function Bottom<K(!new)>(): SeparateDomain<K> {
    SeparateDomain(true, map[])
  }

  /** Top is a non-bottom environment that is_top recognises, and every
      key reads top in it. */
  lemma TopMeaning<K(!new)>(k: K)
    ensures Inv(Top<K>()) && IsTop(Top<K>())
    ensures Lookup(Top<K>(), k) == I.Top()
  {
  }

  /** Bottom satisfies the invariant and every key reads bottom in it. */
  lemma BottomMeaning<K(!new)>(k: K)
    ensures Inv(Bottom<K>()) && Bottom<K>().isBottom
    ensures Lookup(Bottom<K>(), k) == I.Bottom()
  {
  }

  /** is_top: not bottom and nothing stored. */
  predicate IsTop<K(!new)>(d: SeparateDomain<K>) {
    !d.isBottom && |d.tree| == 0
  }

  /** operator[]: bottom for a bottom environment, the stored value for a
      present key, top for an absent one. */
  function Lookup<K(!new)>(d: SeparateDomain<K>, k: K): (v: I.Interval)
    ensures Inv(d) ==> I.WF(v)
    ensures d.isBottom ==> v == I.Bottom()
    ensures !d.isBottom && k !in d.tree ==> v == I.Top()
  {
    if d.isBottom then I.Bottom()
    else if k in d.tree then d.tree[k]
    else I.Top()
  }

  /** is_top holds exactly when every key looks up top. */
  lemma IsTopMeaning<K(!new)>(d: SeparateDomain<K>)
    requires Inv(d)
    ensures IsTop(d) ==> forall k :: Lookup(d, k) == I.Top()
    ensures !d.isBottom && !IsTop(d) ==> exists k :: Lookup(d, k) != I.Top()
  {
    if !d.isBottom && !IsTop(d) {
      var k :| k in d.tree;
      assert Lookup(d, k) != I.Top();
    }
  }

  /** The environments an interval environment stands for: rho is modelled
      by d when d is not bottom and every stored interval holds rho's
      value. */
  predicate Models<K(!new)>(d: SeparateDomain<K>, rho: K -> real) {
    !d.isBottom && forall k :: k in d.tree ==> I.Contains(d.tree[k], rho(k))
  }

  /** Modelling is pointwise membership in the looked-up intervals. */
  lemma ModelsMeaning<K(!new)>(d: SeparateDomain<K>, rho: K -> real)
    requires Inv(d)
    ensures Models(d, rho) <==> !d.isBottom && forall k :: I.Contains(Lookup(d, k), rho(k))
  {
    if !d.isBottom && forall k :: I.Contains(Lookup(d, k), rho(k)) {
      forall k | k in d.tree ensures I.Contains(d.tree[k], rho(k)) {
        assert I.Contains(Lookup(d, k), rho(k));
      }
    }
  }

  // ---------------------------------------------------------------------
  // Updates

  /** set(k, v): nothing on bottom; a bottom value makes the environment
      bottom; a top value removes the key; any other value is stored. */
  function Set<K(!new)>(d: SeparateDomain<K>, k: K, v: I.Interval): (r: SeparateDomain<K>)
    requires I.WF(v)
    ensures Inv(d) ==> Inv(r)
    ensures d.isBottom ==> r == d
    ensures !d.isBottom && I.IsBottom(v) ==> r == Bottom()
    ensures !d.isBottom && !I.IsBottom(v) ==> Lookup(r, k) == v
    ensures !d.isBottom && !I.IsBottom(v) ==> forall k' :: k' != k ==> Lookup(r, k') == Lookup(d, k')
  {
    if d.isBottom then d
    else if I.IsBottom(v) then Bottom()
    else if I.IsTop(v) then
      I.WFMeaning(v);
      SeparateDomain(false, d.tree - {k})
    else SeparateDomain(false, d.tree[k := v])
  }

  /** set_to_bottom. */
  function SetToBottom<K(!new)>(d: SeparateDomain<K>): (r: SeparateDomain<K>)
    ensures r == Bottom()
  {
    SeparateDomain(true, map[])
  }

  /** operator-=: forget k, so that it looks up top; nothing on bottom. */
  function Remove<K(!new)>(d: SeparateDomain<K>, k: K): (r: SeparateDomain<K>)
    ensures Inv(d) ==> Inv(r)
    ensures d.isBottom ==> r == d
    ensures !d.isBottom ==> Lookup(r, k) == I.Top()
    ensures forall k' :: k' != k ==> Lookup(r, k') == Lookup(d, k')
  {
    if d.isBottom then d else SeparateDomain(false, d.tree - {k})
  }

  /** begin()/end(): the bindings, which separate_domain refuses to give for a
      bottom environment ("trying to invoke iterator on bottom"). */
  function Bindings<K(!new)>(d: SeparateDomain<K>): (r: Option<map<K, I.Interval>>)
    ensures r.None? <==> d.isBottom
    ensures r.Some? ==> forall k :: k in r.value ==> Lookup(d, k) == r.value[k]
    ensures r.Some? ==> forall k :: k !in r.value ==> Lookup(d, k) == I.Top()
  {
    if d.isBottom then None else Some(d.tree)
  }

  // ---------------------------------------------------------------------
  // Order

  /** operator<=: bottom is below everything; otherwise every key of the
      right-hand tree must be in the left-hand one with a smaller value (a
      missing key is top, which is below only top). */
  predicate Leq<K(!new)>(d1: SeparateDomain<K>, d2: SeparateDomain<K>) {
    if d1.isBottom then true
    else if d2.isBottom then false
    else forall k :: k in d2.tree ==> k in d1.tree && I.Leq(d1.tree[k], d2.tree[k])
  }

  /** The order is the pointwise order of lookups. */
  lemma LeqMeaning<K(!new)>(d1: SeparateDomain<K>, d2: SeparateDomain<K>)
    requires Inv(d1) && Inv(d2)
    ensures d2.isBottom ==> (Leq(d1, d2) <==> d1.isBottom)
    ensures !d2.isBottom ==> (Leq(d1, d2) <==> forall k :: I.Leq(Lookup(d1, k), Lookup(d2, k)))
  {
    if !d1.isBottom && !d2.isBottom && forall k :: I.Leq(Lookup(d1, k), Lookup(d2, k)) {
      forall k | k in d2.tree ensures k in d1.tree && I.Leq(d1.tree[k], d2.tree[k]) {
        assert I.Leq(Lookup(d1, k), Lookup(d2, k));
        if k !in d1.tree {
          TopNotBelowStored(d2.tree[k]);
        }
      }
    }
  }

  lemma TopNotBelowStored(v: I.Interval)
    requires Stored(v)
    ensures !I.Leq(I.Top(), v)
  {
  }

  /** operator==: <= both ways. */
  predicate Eq<K(!new)>(d1: SeparateDomain<K>, d2: SeparateDomain<K>) {
    Leq(d1, d2) && Leq(d2, d1)
  }

  /** Two environments are equal exactly when they are the same. */
  lemma EqMeaning<K(!new)>(d1: SeparateDomain<K>, d2: SeparateDomain<K>)
    requires Inv(d1) && Inv(d2)
    ensures Eq(d1, d2) <==> d1 == d2
  {
    if Eq(d1, d2) && !d1.isBottom && !d2.isBottom {
      forall k | k in d1.tree ensures k in d2.tree && d2.tree[k] == d1.tree[k] {
        I.LeqMeaning(d1.tree[k], d2.tree[k]);
        I.LeqMeaning(d2.tree[k], d1.tree[k]);
        I.Extensionality(d1.tree[k], d2.tree[k]);
      }
      assert d1.tree.Keys == d2.tree.Keys;
    }
  }

  // ---------------------------------------------------------------------
  // Tree merge

  /** The four binary operations and their merge policy. */
  datatype MergeOp = JoinOp | WidenOp | MeetOp | NarrowOp

  function Combine(op: MergeOp, x: I.Interval, y: I.Interval): I.Interval {
    match op
    case JoinOp => I.Join(x, y)
    case WidenOp => I.Widen(x, y)
    case MeetOp => I.Meet(x, y)
    case NarrowOp => I.Narrow(x, y)
  }

  /** default_is_absorbing: for join and widening a key missing on one side
      is top there, and so is the result, so the key is dropped. */
  predicate Absorbing(op: MergeOp) {
    op == JoinOp || op == WidenOp
  }

  /** merge_with under a policy. Absorbing: keys on both sides, combined, a
      top combination dropped. Non-absorbing: keys on either side, a
      one-sided key kept as it is; a bottom combination aborts the merge
      (the bottom_found signal of separate_domain), which is None here. */
  function Merge<K(!new)>(op: MergeOp, t1: map<K, I.Interval>, t2: map<K, I.Interval>): (r: Option<map<K, I.Interval>>)
    ensures Absorbing(op) ==> r.Some?
    ensures r.Some? ==> forall k :: k in r.value ==> k in t1 || k in t2
    ensures !Absorbing(op) ==>
      (r.None? <==> exists k :: k in t1 && k in t2 && I.IsBottom(Combine(op, t1[k], t2[k])))
  {
    if Absorbing(op) then
      Some(map k | k in t1 && k in t2 && !I.IsTop(Combine(op, t1[k], t2[k])) :: Combine(op, t1[k], t2[k]))
    else if exists k :: k in t1 && k in t2 && I.IsBottom(Combine(op, t1[k], t2[k])) then None
    else
      Some(map k | k in t1.Keys + t2.Keys ::
        if k in t1 && k in t2 then Combine(op, t1[k], t2[k]) else if k in t1 then t1[k] else t2[k])
  }

  /** apply_operation on two non-bottom environments. */
  function Apply<K(!new)>(op: MergeOp, d1: SeparateDomain<K>, d2: SeparateDomain<K>): (r: SeparateDomain<K>)
    requires !d1.isBottom && !d2.isBottom
  {
    match Merge(op, d1.tree, d2.tree)
    case Some(t) => SeparateDomain(false, t)
    case None => Bottom()
  }

  /** Each merge, on environments that keep the invariant, looks up the
      pointwise combination of lookups, and keeps the invariant. */
  lemma ApplyPointwise<K(!new)>(op: MergeOp, d1: SeparateDomain<K>, d2: SeparateDomain<K>, k: K)
    requires Inv(d1) && Inv(d2) && !d1.isBottom && !d2.isBottom
    ensures !Apply(op, d1, d2).isBottom ==> Lookup(Apply(op, d1, d2), k) == Combine(op, Lookup(d1, k), Lookup(d2, k))
  {
    var r := Apply(op, d1, d2);
    if !r.isBottom {
      var x, y := Lookup(d1, k), Lookup(d2, k);
      var c := Combine(op, x, y);
      I.WFMeaning(x);
      I.WFMeaning(y);
      if k in d1.tree && k in d2.tree {
        if Absorbing(op) && I.IsTop(c) {
          CombineWF(op, x, y);
          I.WFMeaning(c);
        }
      } else if k in d1.tree {
        TopIdentity(op, x);
      } else if k in d2.tree {
        TopIdentityRight(op, y);
      } else {
        TopIdentity(op, I.Top());
      }
    }
  }

  lemma CombineWF(op: MergeOp, x: I.Interval, y: I.Interval)
    requires I.WF(x) && I.WF(y)
    ensures I.WF(Combine(op, x, y))
  {
  }

  /** Top is absorbing for join and widening and neutral for meet and
      narrowing, on the left. */
  lemma TopIdentity(op: MergeOp, x: I.Interval)
    requires I.WF(x) && !I.IsBottom(x)
    ensures Absorbing(op) ==> Combine(op, x, I.Top()) == I.Top()
    ensures !Absorbing(op) ==> Combine(op, x, I.Top()) == x
  {
  }

  /** ... and on the right. */
  lemma TopIdentityRight(op: MergeOp, y: I.Interval)
    requires I.WF(y) && !I.IsBottom(y)
    ensures Absorbing(op) ==> Combine(op, I.Top(), y) == I.Top()
    ensures !Absorbing(op) ==> Combine(op, I.Top(), y) == y
  {
  }

  /** A merge keeps the invariant. */
  lemma ApplyInv<K(!new)>(op: MergeOp, d1: SeparateDomain<K>, d2: SeparateDomain<K>)
    requires Inv(d1) && Inv(d2) && !d1.isBottom && !d2.isBottom
    ensures Inv(Apply(op, d1, d2))
  {
    var r := Apply(op, d1, d2);
    if !r.isBottom {
      forall k | k in r.tree ensures Stored(r.tree[k]) {
        StoredCombine(op, d1, d2, k);
      }
    }
  }

  lemma StoredCombine<K(!new)>(op: MergeOp, d1: SeparateDomain<K>, d2: SeparateDomain<K>, k: K)
    requires Inv(d1) && Inv(d2) && !d1.isBottom && !d2.isBottom
    requires !Apply(op, d1, d2).isBottom && k in Apply(op, d1, d2).tree
    ensures Stored(Apply(op, d1, d2).tree[k])
  {
    if k in d1.tree && k in d2.tree {
      var x, y := d1.tree[k], d2.tree[k];
      CombineWF(op, x, y);
      if !Absorbing(op) {
        NotTopCombine(op, x, y);
      }
    }
  }

  /** Meet and narrowing of stored values are never top. */
  lemma NotTopCombine(op: MergeOp, x: I.Interval, y: I.Interval)
    requires !Absorbing(op) && Stored(x) && Stored(y)
    ensures !I.IsTop(Combine(op, x, y))
  {
  }

  // ---------------------------------------------------------------------
  // Lattice operations

  /** operator|: bottom is the identity; otherwise the absorbing merge with
      the interval join. The result looks up the join of lookups. */
  function Join<K(!new)>(d1: SeparateDomain<K>, d2: SeparateDomain<K>): (r: SeparateDomain<K>)
    requires Inv(d1) && Inv(d2)
    ensures Inv(r)
    ensures forall k :: Lookup(r, k) == I.Join(Lookup(d1, k), Lookup(d2, k))
  {
    if d1.isBottom then d2
    else if d2.isBottom then d1
    else
      ApplyInv(JoinOp, d1, d2);
      var r := Apply(JoinOp, d1, d2);
      assert forall k :: Lookup(r, k) == I.Join(Lookup(d1, k), Lookup(d2, k)) by {
        forall k ensures Lookup(r, k) == I.Join(Lookup(d1, k), Lookup(d2, k)) {
          ApplyPointwise(JoinOp, d1, d2, k);
        }
      }
      r
  }

  /** operator||: bottom is the identity; otherwise the absorbing merge with
      the interval widening. */
  function Widen<K(!new)>(d1: SeparateDomain<K>, d2: SeparateDomain<K>): (r: SeparateDomain<K>)
    requires Inv(d1) && Inv(d2)
    ensures Inv(r)
    ensures d1.isBottom ==> r == d2
    ensures !d1.isBottom ==> forall k :: Lookup(r, k) == I.Widen(Lookup(d1, k), Lookup(d2, k))
  {
    if d1.isBottom then d2
    else if d2.isBottom then d1
    else
      ApplyInv(WidenOp, d1, d2);
      var r := Apply(WidenOp, d1, d2);
      assert forall k :: Lookup(r, k) == I.Widen(Lookup(d1, k), Lookup(d2, k)) by {
        forall k ensures Lookup(r, k) == I.Widen(Lookup(d1, k), Lookup(d2, k)) {
          ApplyPointwise(WidenOp, d1, d2, k);
        }
      }
      r
  }

  /** operator&: bottom absorbs; otherwise the non-absorbing merge with the
      interval meet, bottom as soon as one key meets to bottom. */
  function Meet<K(!new)>(d1: SeparateDomain<K>, d2: SeparateDomain<K>): (r: SeparateDomain<K>)
    requires Inv(d1) && Inv(d2)
    ensures Inv(r)
    ensures r.isBottom <==> d1.isBottom || d2.isBottom || exists k :: I.IsBottom(I.Meet(Lookup(d1, k), Lookup(d2, k)))
    ensures !r.isBottom ==> forall k :: Lookup(r, k) == I.Meet(Lookup(d1, k), Lookup(d2, k))
  {
    if d1.isBottom || d2.isBottom then Bottom()
    else
      ApplyInv(MeetOp, d1, d2);
      var r := Apply(MeetOp, d1, d2);
      MergeBottom(MeetOp, d1, d2);
      assert !r.isBottom ==> forall k :: Lookup(r, k) == I.Meet(Lookup(d1, k), Lookup(d2, k)) by {
        forall k ensures !r.isBottom ==> Lookup(r, k) == I.Meet(Lookup(d1, k), Lookup(d2, k)) {
          ApplyPointwise(MeetOp, d1, d2, k);
        }
      }
      r
  }

  /** A non-absorbing merge aborts exactly when the combination of some
      pair of lookups is bottom: keys stored on one side only combine with
      top, which is neutral. */
  lemma MergeBottom<K(!new)>(op: MergeOp, d1: SeparateDomain<K>, d2: SeparateDomain<K>)
    requires !Absorbing(op) && Inv(d1) && Inv(d2) && !d1.isBottom && !d2.isBottom
    ensures Apply(op, d1, d2).isBottom <==> exists k :: I.IsBottom(Combine(op, Lookup(d1, k), Lookup(d2, k)))
  {
    if Merge(op, d1.tree, d2.tree).None? {
      var k :| k in d1.tree && k in d2.tree && I.IsBottom(Combine(op, d1.tree[k], d2.tree[k]));
      assert I.IsBottom(Combine(op, Lookup(d1, k), Lookup(d2, k)));
    }
    forall k | I.IsBottom(Combine(op, Lookup(d1, k), Lookup(d2, k)))
      ensures Merge(op, d1.tree, d2.tree).None?
    {
      SharedBottom(op, d1, d2, k);
    }
  }

  /** Only a key stored on both sides can combine to bottom. */
  lemma SharedBottom<K(!new)>(op: MergeOp, d1: SeparateDomain<K>, d2: SeparateDomain<K>, k: K)
    requires !Absorbing(op) && Inv(d1) && Inv(d2) && !d1.isBottom && !d2.isBottom
    requires I.IsBottom(Combine(op, Lookup(d1, k), Lookup(d2, k)))
    ensures k in d1.tree && k in d2.tree
  {
    if k !in d1.tree && k in d2.tree {
      TopIdentityRight(op, d2.tree[k]);
    } else if k in d1.tree && k !in d2.tree {
      TopIdentity(op, d1.tree[k]);
    } else if k !in d1.tree {
      TopIdentity(op, I.Top());
    }
  }

  /** operator&&: bottom absorbs; otherwise the non-absorbing merge with
      the interval narrowing. */
  function Narrow<K(!new)>(d1: SeparateDomain<K>, d2: SeparateDomain<K>): (r: SeparateDomain<K>)
    requires Inv(d1) && Inv(d2)
    ensures Inv(r)
    ensures r.isBottom <==> d1.isBottom || d2.isBottom || exists k :: I.IsBottom(I.Narrow(Lookup(d1, k), Lookup(d2, k)))
    ensures !r.isBottom ==> forall k :: Lookup(r, k) == I.Narrow(Lookup(d1, k), Lookup(d2, k))
  {
    if d1.isBottom || d2.isBottom then Bottom()
    else
      ApplyInv(NarrowOp, d1, d2);
      var r := Apply(NarrowOp, d1, d2);
      MergeBottom(NarrowOp, d1, d2);
      assert !r.isBottom ==> forall k :: Lookup(r, k) == I.Narrow(Lookup(d1, k), Lookup(d2, k)) by {
        forall k ensures !r.isBottom ==> Lookup(r, k) == I.Narrow(Lookup(d1, k), Lookup(d2, k)) {
          ApplyPointwise(NarrowOp, d1, d2, k);
        }
      }
      r
  }

  // ---------------------------------------------------------------------
  // Properties of the lattice operations

  /** The join is an upper bound and the meet a lower bound. */
  lemma JoinMeetBounds<K(!new)>(d1: SeparateDomain<K>, d2: SeparateDomain<K>)
    requires Inv(d1) && Inv(d2)
    ensures Leq(d1, Join(d1, d2)) && Leq(d2, Join(d1, d2))
    ensures Leq(Meet(d1, d2), d1) && Leq(Meet(d1, d2), d2)
  {
    var j, m := Join(d1, d2), Meet(d1, d2);
    LeqMeaning(d1, j);
    LeqMeaning(d2, j);
    LeqMeaning(m, d1);
    LeqMeaning(m, d2);
  }

  /** The join is sound and the meet exact for the environments modelled. */
  lemma ModelsJoinMeet<K(!new)>(d1: SeparateDomain<K>, d2: SeparateDomain<K>, rho: K -> real)
    requires Inv(d1) && Inv(d2)
    ensures Models(d1, rho) || Models(d2, rho) ==> Models(Join(d1, d2), rho)
    ensures Models(Meet(d1, d2), rho) <==> Models(d1, rho) && Models(d2, rho)
  {
    ModelsJoin(d1, d2, rho);
    ModelsMeetBoth(d1, d2, rho);
    ModelsMeetEach(d1, d2, rho);
  }

  lemma ModelsJoin<K(!new)>(d1: SeparateDomain<K>, d2: SeparateDomain<K>, rho: K -> real)
    requires Inv(d1) && Inv(d2)
    ensures Models(d1, rho) || Models(d2, rho) ==> Models(Join(d1, d2), rho)
  {
    ModelsMeaning(d1, rho);
    ModelsMeaning(d2, rho);
    ModelsMeaning(Join(d1, d2), rho);
  }

  /** An environment both arguments model is modelled by the meet. */
  lemma ModelsMeetBoth<K(!new)>(d1: SeparateDomain<K>, d2: SeparateDomain<K>, rho: K -> real)
    requires Inv(d1) && Inv(d2)
    ensures Models(d1, rho) && Models(d2, rho) ==> Models(Meet(d1, d2), rho)
  {
    if Models(d1, rho) && Models(d2, rho) {
      var m := Meet(d1, d2);
      ModelsMeaning(d1, rho);
      ModelsMeaning(d2, rho);
      ModelsMeaning(m, rho);
      assert !m.isBottom by {
        forall k ensures !I.IsBottom(I.Meet(Lookup(d1, k), Lookup(d2, k))) {
          assert I.Contains(I.Meet(Lookup(d1, k), Lookup(d2, k)), rho(k));
        }
      }
    }
  }

  /** An environment the meet models is modelled by both arguments. */
  lemma ModelsMeetEach<K(!new)>(d1: SeparateDomain<K>, d2: SeparateDomain<K>, rho: K -> real)
    requires Inv(d1) && Inv(d2)
    ensures Models(Meet(d1, d2), rho) ==> Models(d1, rho) && Models(d2, rho)
  {
    ModelsMeaning(d1, rho);
    ModelsMeaning(d2, rho);
    ModelsMeaning(Meet(d1, d2), rho);
  }

  /** The widening is an upper bound of both arguments. */
  lemma WidenUpper<K(!new)>(d1: SeparateDomain<K>, d2: SeparateDomain<K>)
    requires Inv(d1) && Inv(d2)
    ensures Leq(d1, Widen(d1, d2)) && Leq(d2, Widen(d1, d2))
  {
    var w := Widen(d1, d2);
    LeqMeaning(d1, w);
    LeqMeaning(d2, w);
  }

  /** Narrowing stays below its first argument and above the meet. */
  lemma NarrowBetween<K(!new)>(d1: SeparateDomain<K>, d2: SeparateDomain<K>)
    requires Inv(d1) && Inv(d2)
    ensures Leq(Narrow(d1, d2), d1)
    ensures Leq(Meet(d1, d2), Narrow(d1, d2))
  {
    var n, m := Narrow(d1, d2), Meet(d1, d2);
    LeqMeaning(n, d1);
    LeqMeaning(m, n);
  }
}

=== FILE: trim.dfy ===
/** The interval-specific hooks the linear interval solver calls, from
    namespace linear_interval_solver_impl: trim_interval refines an
    interval under a disequation x != j. */
module IntervalTrim {
  import opened Numbers
  import opened Options
  import opened Bounds
  import opened Intervals

  /** trim_interval: over the integers, when j is a single value c that is
      one of i's finite ends, that end moves one step inwards; nothing else
      can be removed from an interval. Over the rationals no refinement is
      possible. */
  function Trim(k: NumKind, i: Interval, j: Interval): (r: Interval)
    ensures k == Q ==> r == i
    ensures WF(i) ==> WF(r) && Leq(r, i)
    ensures IsZ(i) ==> IsZ(r)
  {
    if k == Q then i
    else
      match Singleton(j)
      case Some(c) =>
        if i.lb == Fin(c) then
          IntOfInt(c.Floor + 1);
          Make(Fin(c + 1.0), i.ub)
        else if i.ub == Fin(c) then
          IntOfInt(c.Floor - 1);
          Make(i.lb, Fin(c - 1.0))
        else i
      case None => i
  }

  /** Trimming loses no integer that the disequation allows: a member of i
      outside j stays. */
  lemma TrimSound(i: Interval, j: Interval, a: int)
    requires IsZ(j)
    requires Contains(i, a as real) && !Contains(j, a as real)
    ensures Contains(Trim(Z, i, j), a as real)
  {
    if Singleton(j).Some? {
      var c := Singleton(j).value;
      SingletonOfZ(j);
      StepInwards(a, c.Floor);
    }
  }

  /** An integer other than the integer n lies on one side of it, a whole
      step away. */
  lemma StepInwards(a: int, n: int)
    ensures a as real >= n as real && a != n ==> a as real >= n as real + 1.0
    ensures a as real <= n as real && a != n ==> a as real <= n as real - 1.0
    ensures a as real >= n as real + 1.0 || a as real <= n as real - 1.0 ==> a as real != n as real
  {
  }

  /** The single value of an integral interval is an integer. */
  lemma SingletonOfZ(j: Interval)
    requires IsZ(j) && Singleton(j).Some?
    ensures IsInt(Singleton(j).value)
  {
  }

  /** When the excluded value is an end of i, trimming removes it and
      nothing else: over the integers the result is exactly i minus c. */
  lemma TrimExact(i: Interval, j: Interval, a: int)
    requires IsZ(i) && IsZ(j) && Singleton(j).Some?
    requires i.lb == Fin(Singleton(j).value) || i.ub == Fin(Singleton(j).value)
    ensures Contains(Trim(Z, i, j), a as real) <==> Contains(i, a as real) && a as real != Singleton(j).value
  {
    var c := Singleton(j).value;
    SingletonOfZ(j);
    StepInwards(a, c.Floor);
  }

  /** Over the integers, a j that is not a single value, or whose value is
      not an end of i, leaves i as it is. */
  lemma TrimKeeps(i: Interval, j: Interval)
    requires Singleton(j).None? || (i.lb != Fin(Singleton(j).value) && i.ub != Fin(Singleton(j).value))
    ensures Trim(Z, i, j) == i
  {
  }
}
